=== FILE: README.md ===
# mm.c allocator model

This is a Dafny model of `mm.c`, a malloc package for a 32-bit target. It uses boundary tags and keeps its free blocks in a binary search tree ordered by block size.

Each block starts with a header word and ends with a footer word. Both words hold the block size, a multiple of 8, OR-ed with three state bits:
- bit 0 is the allocation bit (ALC = 0, FREE = 1);
- bit 1 is the tree colour (RED = 0, BLACK = 2).

Free blocks keep three linkage words after the header: left, right and parent. The tree lives in those words.

Two fixed blocks sit at the low end of the heap:
- **startblk** is the prologue, a 24-byte block packed ALC. Its right word holds the tree root.
- **lastblk** is the sentinel, a 24-byte block packed ALC | BLACK. It stands for every empty subtree.

The heap grows at its high end past the sentinel. `mm_check` walks every block from the prologue to `mem_heap_hi()`.

Modules, in dependency order:

| module | file | models |
|---|---|---|
| `Wrappers` | wrappers.dfy | `Option` |
| `Tags` | tags.dfy | tag words: `ALIGN`, `getsize`'s mask, `size \| alloc`, `allocated`, `isfree`, `COLOR`, `SETCOLOR` |
| `Blocks` | blocks.dfy | the word memory, `pack`, `header_valid`, `getafter`, `getbefore`, `ptr`, `SETCOLOR` on a block |
| `Links` | links.dfy | `getleft`/`getright`/`getparent`, `setleft`/`setright`/`setparent`, `getroot` |
| `FreeTree` | free_tree.dfy | the free tree as an abstract datatype, best-fit search, placement, and a sorted-list reference for placement |
| `FreeIndex` | free_index.dfy | the tree inside memory: `__tree_search__`, `bestfit`, `__insert_node__`, `insert_node` |
| `HeapCheck` | heap_check.dfy | `mm_check`'s walk and the tiling invariant it checks |
| `Heaps` | heaps.dfy | the heap state, `mm_init`, and the invariant `Good` |
| `Alloc` | malloc.dfy | `mm_malloc` |
| `Dealloc` | free.dfy | `mm_free` |

How the model represents the machine:
- **Integers.** Words, addresses and sizes are unbounded integers.
  - `t & 0x7` is written `t % 8`, and `t & ~0x7` is written `t - t % 8`.
  - `t | c` with a three-bit constant is OR on the low three bits.
  - size_t wrap-around is written out for `ALIGN` and the request size. The `(int)` cast of the block size passed to `mem_sbrk` (mm.c:186) is not modelled; see Left out.
- **Memory.** Memory is a total map from word address to word.
- **memlib.** The memlib primitives become data:
  - `mem_sbrk`'s answer to `mm_init` is an `Option` parameter.
  - `mem_heap_lo()` and the break are fields of `Heap`.
  - `mem_heap_hi()` is `brk - 1`.
- **mm_check's stop.** `Exit(0)` becomes the verdict `Corrupt(p)`. A walk that would loop forever becomes `NoProgress(p)`.

The state invariant `Heaps.Good(h, t)` has four parts:
- the heap has the layout `mm_init` creates;
- the blocks from the prologue tile the heap up to the break;
- the linkage words reachable from the prologue's root word spell out the abstract tree `t`;
- `t` is size-ordered and its blocks are free, lie on the walk, and do not overlap.

Three facts about `mm.c` that shape the model:
- **The sentinel.** lastblk is not at the high end of the heap. `mm_init` places it right after the prologue (mm.c:162-167) and packs it `ALC | BLACK`, which `isfree` reads as free.
- **Removal.** `rm_node` is an empty stub (mm.c:496-498), so a block consumed by `mm_malloc` or merged by `mm_free` stays linked in the tree.
- **Where mm_check starts.** The walk starts at startblk, the prologue (mm.c:283), not at the first block after the sentinel.

`mm_check` is called at mm.c:210 and 260, but not on every path. In `mm_malloc` only the found-block paths (consume and split) reach it; the grow path returns at mm.c:188 first. In `mm_free` the four branches after the guard reach it; a failed guard returns at mm.c:225 first. `Alloc.Place` and `Dealloc.Free` stop before the call. What the call decides is stated separately, by `HeapCheck.CheckFrom` on the resulting heap: the `Corrupt` verdict appears in `Alloc.AsWrittenSplitCorrupts`, `Alloc.PlaceSplitPassesCheck` and `Dealloc.FreeIntoEmptyTreeCorrupts`.

## Model

| member | source | states |
|---|---|---|
| Tags.AddSizeT | mm.c:179 | size_t addition gives the sum when it fits in 32 bits and the sum minus 2^32 otherwise |
| Tags.Align | mm.c:42 | ALIGN(n) is a multiple of 8 with n <= ALIGN(n) < n + 8, unless n + 7 overflows size_t; then it wraps to 0 |
| Tags.AlignIsLeast | mm.c:42 | without overflow, no multiple of 8 that is at least n lies below ALIGN(n) |
| Tags.TagSize | mm.c:383-385 | getsize's mask yields a multiple of 8 at most 7 below the word; size plus state bits give the word back |
| Tags.OrLow | mm.c:378 | OR-ing a three-bit constant into a tag keeps its size part and ORs the state bits; OR with 0 changes nothing |
| Tags.Tag | mm.c:376-381 | the tag pack writes for an aligned size decodes to exactly that size and those state bits |
| Tags.IsFree | mm.c:453-459 | isfree holds exactly when allocated does not, that is, for any nonzero state bits |
| Tags.Color | mm.c:46 | COLOR reads BLACK exactly when bit 1 of the word is set, RED otherwise |
| Tags.Recolor | mm.c:48 | SETCOLOR's OR leaves the word alone for RED, makes the colour BLACK for BLACK, and keeps the size and the allocation bit |
| Tags.RecolorChangesFreeRed | mm.c:48 | blackening a FREE \| RED tag changes the word |
| Tags.SentinelReadsFree | mm.c:453-459 | the ALC \| BLACK tag given to the sentinel at mm.c:167 has size 24 but reads as free and not allocated |
| Tags.IsFreeBit | mm.c:50-51 | the corrected free test holds exactly when bit 0 (FREE) is set |
| Tags.IsFreeBitIgnoresColor | mm.c:48-53 | recolouring never changes the corrected free test |
| Tags.IsFreeBitAgreesOnBlockTags | mm.c:453-459 | the corrected test agrees with isfree on every tag a real block is packed with, and calls the sentinel not free |
| Blocks.HeaderValid | mm.c:348-350 | definition, no contract: the header word equals the footer word found at blk + size - 4; Blocks.Pack and Blocks.BlackenedFreeBlockIsInvalid state when it holds |
| Blocks.GetAfter | mm.c:394-398 | definition, no contract: the next block starts size bytes after the header; HeapCheck.GetBeforeIsPrevious and HeapCheck.WalkBlocksApart relate it to the walk |
| Blocks.GetBefore | mm.c:387-392 | definition, no contract: the previous header is the word before the header minus that footer's size; HeapCheck.GetBeforeIsPrevious states it finds the previous block of a tiling |
| Blocks.Payload | mm.c:449-451 | definition, no contract: the payload pointer is the header address plus 4; Alloc.MallocAligned states it is 8-aligned for every block handed out |
| Blocks.Pack | mm.c:376-381 | pack writes the tag at header and footer and nothing else; an aligned block then has that size and bits, is header-valid, and getbefore(getafter(blk)) == blk |
| Blocks.PackFrame | mm.c:376-381 | pack writes nothing outside [blk, blk + size) |
| Blocks.SetColor | mm.c:48 | SETCOLOR writes the header only: the footer and every other word are unchanged, RED is the identity, the size is kept, BLACK makes the colour black |
| Blocks.BlackenedFreeBlockIsInvalid | mm.c:348-350 | a header-valid block packed FREE \| RED is no longer header-valid after SETCOLOR(BLACK) |
| Blocks.SetColorBoth | mm.c:48 | corrected SETCOLOR: a valid block stays valid with the same size and allocation bit, and only its two tags are written |
| Blocks.FreeInColor | mm.c:235 | FREE \| COLOR(x) has the allocation bit set and carries exactly x's colour bit |
| Links.GetLeft | mm.c:400-403 | definition, no contract: the first payload word; Links.SetLeft and Links.Relink state what reads back after a write |
| Links.GetRight | mm.c:405-409 | definition, no contract: the second payload word; Links.SetRight and Links.Relink state what reads back after a write |
| Links.GetParent | mm.c:411-416 | definition, no contract: the third payload word; Links.SetParent and Links.Relink state what reads back after a write |
| Links.GetRoot | mm.c:461-463 | definition, no contract: the prologue's right word; FreeIndex.LinkAsRoot states the empty-tree insertion sets it |
| Links.SetLeft | mm.c:418-425 | node becomes blk's left child and blk node's parent; no other word changes |
| Links.SetRight | mm.c:427-435 | node becomes blk's right child and blk node's parent; no other word changes |
| Links.SetParent | mm.c:437-446 | parent becomes blk's parent, and blk goes into the parent's right slot iff its size is at least the parent's (ties go right), the other slot kept |
| Links.Relink | mm.c:206-208 | the three setter calls give blk exactly the given left, right and parent, and write only the seven linkage words involved |
| FreeTree.Search | mm.c:502-515 | a search result is a tree member at least as large as the request |
| FreeTree.SearchIsBestFit | mm.c:502-515 | on a size-ordered tree the search finds nothing iff no member is large enough, and otherwise a member of the least qualifying size |
| FreeTree.InsertBelow | mm.c:518-532 | descent and placement keep the root and add exactly the new block to the members |
| FreeTree.Insert | mm.c:482-493 | insertion gives a non-empty tree whose members are the old ones plus the new block |
| FreeTree.InsertKeepsOrder | mm.c:518-532 | placement keeps the tree size-ordered |
| FreeTree.InOrderOfBSTIsSorted | mm.c:518-532 | a size-ordered tree lists its blocks in non-decreasing size |
| FreeTree.InsertMatchesSortedInsert | mm.c:518-532 | the in-order list after placement is the old list with the block inserted after every block of equal or smaller size (ties go right) |
| FreeTree.InsertAddsExactlyOne | mm.c:518-532 | placement adds exactly one block to the in-order multiset, and the list stays sorted |
| FreeIndex.RepresentsFrame | mm.c:400-415 | the in-memory tree depends only on the members' header and linkage words |
| FreeIndex.TreeSearch | mm.c:502-515 | the in-memory descent returns the address of the block the abstract search finds, or the sentinel when it finds none |
| FreeIndex.Bestfit | mm.c:476-479 | bestfit from the prologue's root word returns the abstract search result's address, or the sentinel |
| FreeIndex.BestfitIsBestFit | mm.c:476-479 | bestfit returns the sentinel iff no free block is large enough, and otherwise the address of a free block of the least qualifying size |
| FreeIndex.InsertKeepsLayout | mm.c:518-532 | placing a block that overlaps no tree block keeps the tree's blocks full-size and non-overlapping |
| FreeIndex.InsertNode | mm.c:518-532 | the memory descent, without the balancing call, writes only left/right words of tree blocks and the new block's parent word |
| FreeIndex.InsertNodeRepresents | mm.c:518-532 | the memory descent, without the balancing call, builds exactly the abstract placement, parent links included |
| FreeIndex.LinkAsRoot | mm.c:486-488 | the root word points at node, node's parent is the prologue, both children are the sentinel; only five words change |
| FreeIndex.InsertRootAsWritten | mm.c:484-490 | the empty-tree branch as written makes node the black root with its size kept |
| FreeIndex.InsertRootBreaksHeader | mm.c:484-490 | on a block packed FREE \| RED, the empty-tree branch as written turns a header-valid block into an invalid one |
| FreeIndex.InsertRootFixed | mm.c:484-490 | the corrected empty-tree branch makes node a black root with sentinel children, keeps it header-valid and free, and writes only node's words, the root word and the sentinel's parent word |
| FreeIndex.InsertFree | mm.c:482-493 | corrected insert_node (colour written to both tags), without the balancing call, writes only tree link words, the root word, the sentinel's parent word and the new block's own words |
| FreeIndex.InsertFreeAsWritten | mm.c:482-493 | as written, an empty tree gets node as its black root |
| FreeIndex.InsertFreeRepresents | mm.c:482-493 | corrected insert_node (colour written to both tags), without the balancing call, adds exactly the new block to the in-memory tree, keeping its size, validity and free bit |
| FreeIndex.LinksAreNeighbours | mm.c:400-415 | every left, right and parent word of a tree block points at the sentinel, the block above the tree, or another, non-overlapping tree block |
| HeapCheck.CheckFrom | mm.c:291-314 | a Corrupt verdict names a visited block that is out of bounds, misaligned or header-invalid; NoProgress names a valid block whose size does not advance the walk |
| HeapCheck.TiledPassesCheck | mm.c:291-314 | a heap tiled from an aligned block passes mm_check |
| HeapCheck.CheckPassedIsTiled | mm.c:291-314 | conversely, when mm_check passes, the walk's first block is aligned and in bounds and the blocks from it tile the heap up to a boundary at or past mem_heap_hi() |
| HeapCheck.CheckSkipsTiled | mm.c:291-314 | mm_check passes over a tiled prefix: the verdict from its start is the verdict from its end |
| HeapCheck.GetBeforeIsPrevious | mm.c:387-392 | in a tiling, getbefore of a block boundary is the block tiled just before it |
| HeapCheck.MergeKeepsTiling | mm.c:235 | packing one block exactly over the gap between two tilings tiles the whole range, with the block on the walk |
| HeapCheck.WalkBlocksApart | mm.c:394-398 | distinct blocks on one walk do not overlap |
| Heaps.InitMemory | mm.c:158-170 | definition, no contract: the writes of mm_init; Heaps.Init states the words they leave |
| Heaps.CheckHeap | mm.c:282-314 | definition, no contract: mm_check is the walk from startblk to mem_heap_hi(); Heaps.ShapedPassesCheck and Heaps.InitPassesCheck state when it passes |
| Heaps.Init | mm.c:152-172 | mm_init fails iff mem_sbrk fails; otherwise it places the prologue one word in and the sentinel after it, with an empty tree, and on an aligned heap the result is Good |
| Heaps.InitIsGood | mm.c:152-172 | mm_init on an aligned heap gives a good heap with the empty tree |
| Heaps.InitPassesCheck | mm.c:152-172 | mm_init on an aligned heap leaves a heap mm_check accepts |
| Heaps.ShapedPassesCheck | mm.c:282-314 | every heap with mm_init's layout, tiled up to the break, passes mm_check |
| Heaps.GrowKeepsGood | mm.c:185-188 | tiling new space above the break, without touching words below it, keeps the heap good with the same tree |
| Heaps.NeighboursBeside | mm.c:199-208 | a tree block's left, right and parent, the prologue and the sentinel are blocks of the walk lying wholly outside it |
| Alloc.RequestSize | mm.c:179-183 | the block size for a request is aligned and at least 24; it holds the request plus both tags unless size + 8 wraps, and then it is 24 |
| Alloc.RequestSizeIsLeast | mm.c:179-183 | without wrap-around, the block size is the least aligned size of at least 24 that holds request and tags |
| Alloc.HugeRequestGetsMinimumBlock | mm.c:179-183 | the request 0xFFFFFFF9 gets a 24-byte block, whose payload is smaller than the request |
| Alloc.CheckedRequestSize | mm.c:179-183 | corrected sizing: refuses exactly the requests that would wrap, and otherwise gives an aligned size of at least 24 that holds request and tags |
| Alloc.SplitMemoryAsWritten | mm.c:195-208 | definition, no contract: the split as written, packing only the allocated part; Alloc.AsWrittenSplitCorrupts states its effect |
| Alloc.SplitMemory | mm.c:195-208 | definition, no contract: the corrected split, which also packs the leftover free; Alloc.SplitKeepsShape states its effect |
| Alloc.Place | mm.c:184-209 | the heap grows iff no tree block is large enough; otherwise the best fit is handed out; the whole block is handed out iff the leftover would be under 24 bytes |
| Alloc.MallocAsWritten | mm.c:178-212 | as written, growing adds the wrapped request size to the break, and a found block is at least that large; the `(int)` cast at mm.c:186 is not modelled (see Left out) |
| Alloc.Malloc | mm.c:178-212 | corrected malloc refuses exactly the wrapping requests, and every block it hands out holds the request plus both tags |
| Alloc.PlaceAligned | mm.c:184-211 | in a good heap, the payload pointer placement returns, from a grown block or a found one, is a multiple of ALIGNMENT |
| Alloc.MallocAligned | mm.c:178-212 | every payload pointer corrected malloc returns is 8-aligned (ALIGNMENT, mm.c:39) |
| Alloc.MallocIsBestFit | mm.c:184-189 | in a good heap malloc grows iff no free block fits, and otherwise returns the payload of a fitting free block of least size |
| Alloc.PlaceGrowsHeap | mm.c:185-189 | growing keeps the heap good with the same tree and adds an allocated block of the block size at the old break |
| Alloc.PlaceConsumes | mm.c:191-194 | consuming repacks the found block allocated at its full size and keeps the walk; the block stays in the tree because rm_node does nothing |
| Alloc.SplitKeepsShape | mm.c:195-209 | a corrected split keeps the heap's layout and tiling and leaves an allocated block of the block size followed by a free leftover of at least 24 bytes |
| Alloc.PlaceSplits | mm.c:195-209 | the corrected split of the best fit leaves an allocated block of the block size followed by a free leftover of at least 24 bytes, on a shaped heap |
| Alloc.ReadyForSplit | mm.c:199-208 | in a good heap, a tree block with room for a 24-byte leftover has its tree neighbours outside it, as a split needs |
| Alloc.AsWrittenSplitCorrupts | mm.c:203-208 | the split as written, when the leftover's first word held 0, makes the next mm_check stop at the leftover |
| Alloc.PlaceSplitPassesCheck | mm.c:195-210 | after the corrected split the mm_check at mm.c:210 passes |
| Dealloc.Branch | mm.c:223-258 | mm_free returns early iff the header/allocated guard fails, and reaches insertion only when the block before does not read as free |
| Dealloc.MergeBefore | mm.c:232-235 | definition, no contract: the block before p repacked over p; Dealloc.MergeBeforeTiles and Dealloc.FreeMergesBefore state its effect |
| Dealloc.MergeBoth | mm.c:236-241 | definition, no contract: the merged block repacked over the block after as well; Dealloc.MergeBothTiles and Dealloc.FreeMergesBoth state its effect |
| Dealloc.Absorb | mm.c:242-253 | definition, no contract: p repacked over the block after and given its links; Dealloc.AbsorbTiles and Dealloc.FreeAbsorbs state its effect |
| Dealloc.Insertion | mm.c:254-258 | definition, no contract: the leaf packing followed by insert_node; Dealloc.InsertionAddsLeaf and Dealloc.InsertionKeepsGood state its effect |
| Dealloc.PackLeaf | mm.c:255-257 | the freed block is packed FREE \| RED at its size, header-valid, with both children the sentinel; only its tags, two links and the sentinel's parent word change |
| Dealloc.Free | mm.c:218-261 | mm_free, on a pointer the guard rejects or a real block's payload, keeps the heap bounds, ignores the pointer iff its block fails the header/allocated guard (heap unchanged), and always ignores an already-free block |
| Dealloc.LeafKeepsTree | mm.c:255-257 | packing the freed block as a leaf leaves the existing tree intact in memory |
| Dealloc.FreedApart | mm.c:254-258 | an allocated block being freed overlaps no block of the tree |
| Dealloc.InsertionAddsLeaf | mm.c:254-258 | the corrected insert branch (colour written to both tags), without the balancing call, adds exactly the freed block to the tree, header-valid and free |
| Dealloc.InsertionKeepsGood | mm.c:254-258 | the corrected insert branch, without the `__insert_balance__` call, keeps the heap good with the tree plus the freed block |
| Dealloc.FreeInserts | mm.c:254-258 | when mm_free (corrected, without the balancing call) takes the insert branch, the heap stays good and the tree gains exactly the freed block |
| Dealloc.FreeIntoEmptyTreeCorrupts | mm.c:254-258 | mm_free as written, inserting into an empty tree, leaves a heap on which the next mm_check stops at the freed block |
| Dealloc.MergeBeforeTiles | mm.c:229-236 | getbefore is the block just before p on the walk; growing it over p keeps the tiling, ends where p ended, is free, and writes nothing outside |
| Dealloc.MergeBothTiles | mm.c:237-241 | growing the block before p over p and the block after keeps the tiling, sums the three sizes, and writes nothing outside |
| Dealloc.AbsorbTiles | mm.c:242-253 | p growing over the block after it keeps the tiling, sums the sizes, takes that block's colour, and spares the prologue and sentinel |
| Dealloc.FreedColor | mm.c:249 | a block packed FREE \| COLOR(x) has colour COLOR(x) |
| Dealloc.FreeMergesBefore | mm.c:233-236 | the merge-before branch grows the previous walk block over p to p's end, free and with the summed size; under the corrected test the heap keeps its layout |
| Dealloc.FreeMergesBoth | mm.c:237-241 | the merge-both branch grows the previous block over p and the next block, with the three sizes summed; under the corrected test the heap keeps its layout |
| Dealloc.FreeAbsorbs | mm.c:242-253 | the absorb branch grows p over the next free block with the summed size, that block's colour and its three links, and keeps the heap's layout |
| Dealloc.BeforeIsReal | mm.c:229-233 | under the corrected test, a free block before a real block is itself after the sentinel |
| Dealloc.FirstBlockFollowsSentinel | mm.c:229 | getbefore of the first block after the sentinel is the sentinel |
| Dealloc.FirstBlockJoinsSentinel | mm.c:233-236 | as written, freeing the first real block merges it into the sentinel, which grows past 24 bytes and breaks the heap's layout |
| Dealloc.FirstBlockStaysApart | mm.c:233-236 | with the corrected test, freeing the first real block never merges it backwards |

## Left out

- `__insert_balance__` (mm.c:538-586) is not modelled. Its case conditions mix size comparisons with nil checks, and SETCOLOR cannot clear a bit, so the red-black invariants it aims at cannot hold. Placement is modelled without the rebalancing call (mm.c:523, 529), and colour is stated only where the root is made. Its SETCOLOR calls (mm.c:543, 555-556, 571-572, 581-583) write only the header, like the one at mm.c:489, so after a balancing step that blackens a free block its header and footer differ. FreeIndex.InsertNode, FreeIndex.InsertNodeRepresents, FreeIndex.InsertFree, FreeIndex.InsertFreeRepresents, Dealloc.InsertionAddsLeaf, Dealloc.InsertionKeepsGood and Dealloc.FreeInserts therefore hold for insertion without the balancing call, not for `mm_free` as a whole.
- `mm_realloc` (mm.c:266-280) is not modelled. It is `mm_malloc`, a `memcpy` and `mm_free`, and its size read of `size_t` width at `ptr - SIZE_T_SIZE` does not match the 4-byte tag layout.
- Printing, `blkstatus`, `Exit` and the `verbose` output (mm.c:289-343, 352-374) are left out as I/O. `Exit` is the `Corrupt` verdict.
- The memlib internals (`mem_sbrk`, `mem_heap_lo`, `mem_heap_hi`, `mem_heapsize`, `mem_deinit`) are not modelled. The heap is a word map with explicit bounds.
- Alloc.Place: the `mem_sbrk` call of `mm_malloc` (mm.c:186) is taken to succeed and to grow the heap by the full block size. The source does not check its result. It also passes the size through an `(int)` cast: a block size of 2^31 or more, which requests from 0x7FFFFFF1 to 0xFFFFFFF0 produce, becomes a negative increment, and the source's heap then does not grow. The model grows the heap by the full size instead.
- Alloc.MallocAsWritten: on the grow path it adds the whole block size to the break, also for block sizes of 2^31 or more, where the `(int)` cast at mm.c:186 makes the source's increment negative.
- Alloc.Malloc: the corrected malloc refuses only the requests whose size computation wraps. It does not refuse block sizes of 2^31 or more, which the `(int)` cast at mm.c:186 turns negative; for those, its grow path is the model's full-size growth, not the source's.
- Addresses are unbounded integers. The 32-bit address wrap of the `(unsigned int)` casts at mm.c:238 and 243 is not modelled.
- Dealloc.FreeMergesBefore, Dealloc.FreeMergesBoth and Dealloc.FreeAbsorbs state the extent, size, colour and links of the grown block and the heap's layout, but not that the tree is still represented.
  - BST order is not kept when a size changes in place.
  - In the absorb branch, setparent places p by its new, larger size (mm.c:442-445). When p is at least as large as the parent of the absorbed block, and that block was a left child, p overwrites the parent's right slot, while the left slot still points at the absorbed block.
  - `rm_node` (mm.c:496-498) is an empty stub, so merged blocks stay linked.
- Alloc.PlaceSplits and Alloc.PlaceConsumes leave out the tree after the step:
  - the split leftover takes over the old block's children, and setparent hangs it from the old block's parent in the slot its new, smaller size selects (mm.c:442-445). When the leftover is smaller than that parent, it overwrites the parent's left slot, while the right slot still points at the block just handed out;
  - the consumed block stays linked, because `rm_node` does nothing.
- Dealloc.FreeAbsorbs requires the block after p to be a member of the tree, which a good heap does not by itself guarantee.
- Dealloc.Free is modelled only for pointers the guard rejects or payloads of real blocks after the sentinel (`Freeable`). A wild pointer that happens to pass the guard makes the source write anywhere. On the insertion branch it also needs a good heap with tree `t`, since the model descends the abstract tree to link the block in; the merging branches need nothing more.
- Heaps.Good states one direction only: every tree member is a free block on the walk. It does not state that every free block on the walk is in the tree, nor that no two free blocks are adjacent. The results built on Good (heap growth and insertion) need only this direction. The branches that would have to keep a two-way invariant (consuming, splitting, merging) are not shown to keep Good at all, because `rm_node` does nothing and consumed or merged blocks stay linked.
- HeapCheck.CheckFrom: a block whose size field reads zero makes `mm_check` loop forever. The model stops with `NoProgress` instead.
- The commented-out free-list cross-check of `mm_check` (mm.c:318-341) is not modelled, since it is not compiled.

## Findings

| source | as written | input that shows it | evidently intended | confidence | as-written member | corrected member |
|---|---|---|---|---|---|---|
| mm.c:489 | SETCOLOR ORs BLACK into the header only, after mm_free packed the block FREE \| RED, so header and footer differ | freeing any allocated block while the tree is empty and neither neighbour is free | both tags carry the colour, so the new root stays header-valid (shown for insertion without the balancing call) | high; not executed | Dealloc.FreeIntoEmptyTreeCorrupts | Dealloc.FreeInserts |
| mm.c:179 | ALIGN(size + ALIGNMENT) is computed in size_t and wraps for size > 0xFFFFFFF0 | mm_malloc(0xFFFFFFF9) gets a 24-byte block with a 16-byte payload | refuse requests whose block size does not fit | high; not executed | Alloc.HugeRequestGetsMinimumBlock | Alloc.CheckedRequestSize |
| mm.c:167 | the sentinel is packed ALC \| BLACK, and isfree tests all three low bits, so the sentinel reads as free | freeing the allocated block that lies right after the sentinel | only the FREE bit decides "free", so nothing merges into the sentinel | high; not executed | Dealloc.FirstBlockJoinsSentinel | Dealloc.FirstBlockStaysApart |
| mm.c:203 | the split packs only the allocated part; the leftover at p + newsize gets no tags and keeps stale payload words | splitting a free block whose word at p + newsize held 0 | pack the leftover as a free block of oldsize - newsize before relinking it | high; not executed | Alloc.AsWrittenSplitCorrupts | Alloc.PlaceSplitPassesCheck |

=== FILE: blocks.dfy ===
/** The heap as a flat array of words, and the block codec and heap walker of
    mm.c: pack, getsize, header_valid, allocated, isfree, COLOR, SETCOLOR,
    ptr, getafter and getbefore.

    A block at address `blk` of size `s` has its header tag at `blk` and its
    footer tag at `blk + s - 4`; while free, its payload holds the linkage
    words left, right and parent at `blk + 4`, `blk + 8` and `blk + 12`. */
module Blocks {
  import opened Tags

  /** Every address holds a word. Addresses and words are integers; heap
      addresses stay below 2^32, so pointer arithmetic is not wrapped. */
  type Memory = m: imap<int, int> | forall a: int :: a in m
    ghost witness imap a: int :: 0

  /** Address of the footer of a block that starts at blk and has the given
      size: `(void *) blk + size - sizeof(void *)` (mm.c:379). */
  function FooterAt(blk: int, size: int): int {
    blk + size - WORD
  }

  /** getsize (mm.c:383-385). */
  function GetSize(m: Memory, blk: int): int {
    TagSize(m[blk])
  }

  /** header_valid (mm.c:348-350): the header equals the footer the header's
      own size points at. */
  predicate HeaderValid(m: Memory, blk: int) {
    m[blk] == m[FooterAt(blk, GetSize(m, blk))]
  }

  /** allocated (mm.c:453-455). */
  predicate IsAllocatedBlock(m: Memory, blk: int) {
    Allocated(m[blk])
  }

  /** isfree (mm.c:457-459). */
  predicate IsFreeBlock(m: Memory, blk: int) {
    IsFree(m[blk])
  }

  /** The corrected allocation test (bit 0 of the header only). */
  predicate IsFreeBitBlock(m: Memory, blk: int) {
    IsFreeBit(m[blk])
  }

  /** COLOR applied to a block (mm.c:46). */
  function ColorOf(m: Memory, blk: int): int {
    Color(m[blk])
  }

  /** `FREE | COLOR(x)` (mm.c:235, 239, 249): the state bits of a block
      that is free and takes x's colour. */
  function FreeInColor(m: Memory, x: int): (b: Bits3)
    ensures Bit(b) == 1
    ensures Color(b) == ColorOf(m, x)
  {
    Or3(FREE, ColorOf(m, x))
  }

  /** getafter (mm.c:394-398): the next block starts right after this one. */
  function GetAfter(m: Memory, blk: int): int {
    blk + GetSize(m, blk)
  }

  /** getbefore (mm.c:387-392): the word before the header is the previous
      block's footer; subtracting its size gives the previous header. */
  function GetBefore(m: Memory, blk: int): int {
    blk - TagSize(m[blk - WORD])
  }

  /** ptr (mm.c:449-451): the payload starts one word after the header. */
  function Payload(blk: int): int {
    blk + WORD
  }

  /** The two tags of an aligned block are distinct words. */
  lemma FooterIsNotHeader(blk: int, size: int)
    requires size % ALIGNMENT == 0
    ensures FooterAt(blk, size) != blk
  {
    assert size != WORD;
  }

  /** pack (mm.c:376-381): writes the same tag at both ends of the block and
      nothing else. With an aligned size the block decodes to that size and
      those bits, is header-valid, and the walker steps over it both ways. */
  function Pack(m: Memory, blk: int, size: int, bits: Bits3): (r: Memory)
    ensures r[blk] == Tag(size, bits)
    ensures r[FooterAt(blk, size)] == Tag(size, bits)
    ensures forall a :: a != blk && a != FooterAt(blk, size) ==> r[a] == m[a]
    ensures size % ALIGNMENT == 0 ==>
              && GetSize(r, blk) == size
              && LowBits(r[blk]) == bits
              && HeaderValid(r, blk)
    ensures size % ALIGNMENT == 0 ==>
              && GetAfter(r, blk) == blk + size
              && GetBefore(r, GetAfter(r, blk)) == blk
  {
    var t := Tag(size, bits);
    m[blk := t][FooterAt(blk, size) := t]
  }

  /** pack writes only inside [blk, blk + size) when the block is at least
      one word long. */
  lemma PackFrame(m: Memory, blk: int, size: int, bits: Bits3)
    requires WORD <= size
    ensures forall a | a < blk || blk + size <= a :: Pack(m, blk, size, bits)[a] == m[a]
  {
  }

  /** SETCOLOR (mm.c:48): ORs the colour into the header word only. The
      footer and every other word are left alone; the size is unchanged. */
  function SetColor(m: Memory, blk: int, color: int): (r: Memory)
    requires color == RED || color == BLACK
    ensures forall a :: a != blk ==> r[a] == m[a]
    ensures color == RED ==> r == m
    ensures GetSize(r, blk) == GetSize(m, blk)
    ensures color == BLACK ==> ColorOf(r, blk) == BLACK
  {
    var r := m[blk := Recolor(m[blk], color)];
    assert color == RED ==> forall a :: r[a] == m[a];
    r
  }

  /** Blackening a valid block tagged FREE|RED leaves its footer RED, so the
      block is no longer header-valid (the header-only write of SETCOLOR). */
  lemma BlackenedFreeBlockIsInvalid(m: Memory, blk: int, size: int)
    requires size % ALIGNMENT == 0
    requires m[blk] == Tag(size, Or3(FREE, RED))
    requires m[FooterAt(blk, size)] == Tag(size, Or3(FREE, RED))
    ensures HeaderValid(m, blk)
    ensures !HeaderValid(SetColor(m, blk, BLACK), blk)
  {
    var black := SetColor(m, blk, BLACK);
    FooterIsNotHeader(blk, size);
    assert black[FooterAt(blk, size)] == Tag(size, FREE);
    assert GetSize(black, blk) == size;
    RecolorChangesFreeRed(size);
  }

  /** SETCOLOR, corrected: the colour goes into both tags, so a valid block
      stays valid and keeps its size and allocation state. */
  function SetColorBoth(m: Memory, blk: int, color: int): (r: Memory)
    requires color == RED || color == BLACK
    ensures HeaderValid(m, blk) ==> HeaderValid(r, blk)
    ensures GetSize(r, blk) == GetSize(m, blk)
    ensures color == BLACK ==> ColorOf(r, blk) == BLACK
    ensures IsFreeBitBlock(r, blk) == IsFreeBitBlock(m, blk)
    ensures forall a :: a != blk && a != FooterAt(blk, GetSize(m, blk)) ==> r[a] == m[a]
  {
    var t := Recolor(m[blk], color);
    var footer := FooterAt(blk, GetSize(m, blk));
    var r := m[blk := t][footer := t];
    IsFreeBitIgnoresColor(m[blk], color);
    assert r[blk] == t && r[footer] == t;
    assert GetSize(r, blk) == GetSize(m, blk);
    r
  }
}

=== FILE: free.dfy ===
/** mm_free (mm.c:218-261): a block handed back is merged with a free
    block before it (and with a free block after that), or takes over the
    tree place of a free block right after it, or is linked into the tree
    as a new node.

    Both neighbour tests of the source use isfree(), which also reads the
    sentinel's colour bit as "free", and the empty-tree branch of
    insert_node blackens the new root's header only. Free models the code
    as written when `fixed` is false and the corrected allocator when it
    is true: bit 0 alone decides "free" and the colour goes into both
    tags. */
module Dealloc {
  import opened Tags
  import opened Blocks
  import opened Links
  import opened FreeTree
  import opened FreeIndex
  import opened HeapCheck
  import opened Heaps

  /** Which of the four branches of mm_free ran; Ignored is the early
      return on a pointer whose header is invalid or not allocated. */
  datatype Coalesce = Ignored | MergedBefore | MergedBoth | Absorbed | Inserted

  datatype Release = Release(heap: Heap, how: Coalesce)

  /** The neighbour test: isfree() as written, bit 0 when corrected. */
  predicate ReadsFree(t: int, fixed: bool) {
    if fixed then IsFreeBit(t) else IsFree(t)
  }

  /** The guard of mm_free (mm.c:223): the header matches its footer and
      has all three state bits clear. */
  predicate PassesGuard(m: Memory, p: int) {
    HeaderValid(m, p) && Allocated(m[p])
  }

  /** A block mm_malloc can have handed out: after the sentinel, on the
      walk, and large enough for the three linkage words. */
  predicate RealBlock(h: Heap, p: int) {
    h.last + MIN_BLOCK <= p && Slot(h.mem, h.start, p, h.brk)
  }

  /** The pointers mm_free is modelled for: the payload of a real block,
      or any pointer the guard turns away. */
  predicate Freeable(h: Heap, ptr: int) {
    !PassesGuard(h.mem, ptr - WORD) || RealBlock(h, ptr - WORD)
  }

  /** blksize once p is merged with the block before it (mm.c:227, 233). */
  function MergedSize(m: Memory, p: int): int {
    GetSize(m, p) + GetSize(m, GetBefore(m, p))
  }

  /** mm.c:232-235: the block before p grows over p. */
  function MergeBefore(m: Memory, p: int): Memory {
    Pack(m, GetBefore(m, p), MergedSize(m, p), FreeInColor(m, GetBefore(m, p)))
  }

  /** The size packed when the merged block also takes in the block after p
      (mm.c:238); the size of that block is read after the first pack. */
  function BothSize(m: Memory, p: int): int {
    MergedSize(m, p) + GetSize(MergeBefore(m, p), GetAfter(m, p))
  }

  /** mm.c:236-241: the merged block also grows over the block after p;
      rm_node(after) does nothing. */
  function MergeBoth(m: Memory, p: int): Memory {
    var m1 := MergeBefore(m, p);
    Pack(m1, GetBefore(m, p), BothSize(m, p), FreeInColor(m1, GetBefore(m, p)))
  }

  /** The size packed when p takes in the free block after it (mm.c:249). */
  function AbsorbedSize(m: Memory, p: int): int {
    GetSize(m, p) + GetSize(m, GetAfter(m, p))
  }

  /** mm.c:242-253: p grows over the free block after it, in that block's
      colour, and takes over its three links. */
  function Absorb(m: Memory, p: int): Memory {
    var after := GetAfter(m, p);
    var m1 := Pack(m, p, AbsorbedSize(m, p), FreeInColor(m, after));
    Relink(m1, p, GetLeft(m, after), GetRight(m, after), GetParent(m, after))
  }

  /** mm.c:255-257: p is packed FREE | RED and both its links point at the
      sentinel; the sentinel's parent word is pointed back at p. */
  function PackLeaf(m: Memory, p: int, last: int): (r: Memory)
    requires last + MIN_BLOCK <= p && MIN_BLOCK <= GetSize(m, p)
    ensures r[p] == Tag(GetSize(m, p), Or3(FREE, RED))
    ensures r[FooterAt(p, GetSize(m, p))] == Tag(GetSize(m, p), Or3(FREE, RED))
    ensures GetSize(r, p) == GetSize(m, p) && HeaderValid(r, p) && IsFreeBitBlock(r, p)
    ensures GetLeft(r, p) == last && GetRight(r, p) == last
    ensures forall a | a != p && a != FooterAt(p, GetSize(m, p)) && a != p + LEFT && a != p + RIGHT
                       && a != last + PARENT :: r[a] == m[a]
  {
    var size := GetSize(m, p);
    var m1 := Pack(m, p, size, Or3(FREE, RED));
    var m2 := SetLeft(m1, p, last);
    var r := SetRight(m2, p, last);
    assert r[p] == m1[p] && r[FooterAt(p, size)] == m1[FooterAt(p, size)];
    assert r[p + LEFT] == m2[p + LEFT];
    r
  }

  /** The words after the insertion branch (mm.c:255-258). */
  function Insertion(h: Heap, p: int, t: Tree, fixed: bool): Memory
    requires Good(h, t) && RealBlock(h, p) && Allocated(h.mem[p])
  {
    var m := PackLeaf(h.mem, p, h.last);
    LeafKeepsTree(h, t, p);
    if fixed then InsertFree(m, h.start, p, h.last, t)
    else InsertFreeAsWritten(m, h.start, p, h.last, t)
  }

  /** The branch mm_free takes for the block at p (mm.c:223-258): the
      early return, a merge with the block before (and with the one after
      it), taking in the block after, or insertion into the tree. The block
      after counts only when it starts below mem_heap_hi(). */
  function Branch(m: Memory, p: int, brk: int, fixed: bool): (how: Coalesce)
    ensures how.Ignored? <==> !PassesGuard(m, p)
    ensures how.Inserted? ==> !ReadsFree(m[GetBefore(m, p)], fixed)
  {
    var after := GetAfter(m, p);
    if !PassesGuard(m, p) then Ignored
    else if ReadsFree(m[GetBefore(m, p)], fixed) then
      if ReadsFree(MergeBefore(m, p)[after], fixed) && after < brk - 1 then MergedBoth
      else MergedBefore
    else if ReadsFree(m[after], fixed) && after < brk - 1 then Absorbed
    else Inserted
  }

  /** The words mm_free leaves after taking branch how for block p. */
  function Released(h: Heap, p: int, t: Tree, fixed: bool, how: Coalesce): Memory
    requires how.Inserted? ==> Good(h, t) && RealBlock(h, p) && Allocated(h.mem[p])
  {
    match how
    case Ignored => h.mem
    case MergedBefore => MergeBefore(h.mem, p)
    case MergedBoth => MergeBoth(h.mem, p)
    case Absorbed => Absorb(h.mem, p)
    case Inserted => Insertion(h, p, t, fixed)
  }

  /** mm_free on heap h, for a pointer the guard turns away or the
      payload of a real block. The early return and the merging branches
      need nothing more of the heap; the insertion branch links the block
      into the tree, so there the heap must be good with tree t. The
      early return changes nothing; every other branch leaves the heap's
      bounds alone. A block whose header already has its free
      bit set is turned away, so a second mm_free of the same block does
      nothing. */
  function Free(h: Heap, ptr: int, t: Tree, fixed: bool): (r: Release)
    requires Freeable(h, ptr)
    requires Branch(h.mem, ptr - WORD, h.brk, fixed).Inserted? ==> Good(h, t)
    ensures r.heap.lo == h.lo && r.heap.brk == h.brk && r.heap.start == h.start && r.heap.last == h.last
    ensures r.how.Ignored? <==> !PassesGuard(h.mem, ptr - WORD)
    ensures r.how.Ignored? ==> r.heap == h
    ensures IsFreeBitBlock(h.mem, ptr - WORD) ==> r.how.Ignored?
  {
    var p := ptr - WORD;
    var how := Branch(h.mem, p, h.brk, fixed);
    if how.Ignored? then Release(h, Ignored)
    else Release(h.(mem := Released(h, p, t, fixed, how)), how)
  }

  /** A real block that passed the guard can be linked into the tree: it
      overlaps none of the tree's blocks and lies after the sentinel. */
  lemma LeafReady(h: Heap, t: Tree, p: int)
    requires Good(h, t) && RealBlock(h, p) && Allocated(h.mem[p])
    ensures var m, b := PackLeaf(h.mem, p, h.last), FreeBlock(p, GetSize(h.mem, p));
            && Placeable(m, b, h.last, t)
            && AfterSentinel(h.start, h.last, b, t)
  {
    FreedApart(h, t, p);
    MembersAreSlots(h, t);
  }

  /** The leaf packing of a real block leaves the tree intact. */
  lemma LeafKeepsTree(h: Heap, t: Tree, p: int)
    requires Good(h, t) && RealBlock(h, p) && Allocated(h.mem[p])
    ensures var m := PackLeaf(h.mem, p, h.last);
            Represents(m, GetRoot(m, h.start), t, h.last, h.start)
  {
    FreedApart(h, t, p);
    MembersAreSlots(h, t);
    LeafSparesTree(h.mem, h.start, t, h.last, p);
  }

  /** An allocated real block overlaps no block of the tree, which are all
      free. */
  lemma FreedApart(h: Heap, t: Tree, p: int)
    requires Good(h, t) && RealBlock(h, p) && Allocated(h.mem[p])
    ensures forall x | x in Members(t) :: Disjoint(x, FreeBlock(p, GetSize(h.mem, p)))
  {
    MembersAreSlots(h, t);
    forall x | x in Members(t)
      ensures Disjoint(x, FreeBlock(p, GetSize(h.mem, p)))
    {
      assert Indexed(h, x);
      if x.addr < p {
        WalkBlocksApart(h.mem, h.start, x.addr, p, h.brk);
      } else {
        WalkBlocksApart(h.mem, h.start, p, x.addr, h.brk);
      }
    }
  }

  /** The leaf packing of a block that overlaps no tree block, after the
      sentinel, leaves every tree block's header and links, and the root
      word, alone. */
  lemma LeafSparesTree(m: Memory, start: int, t: Tree, last: int, p: int)
    requires start + MIN_BLOCK <= last && last + MIN_BLOCK <= p && MIN_BLOCK <= GetSize(m, p)
    requires Represents(m, GetRoot(m, start), t, last, start)
    requires forall x | x in Members(t) :: Disjoint(x, FreeBlock(p, GetSize(m, p)))
    requires forall x | x in Members(t) :: MIN_BLOCK <= x.size && last + MIN_BLOCK <= x.addr
    ensures var r := PackLeaf(m, p, last);
            Represents(r, GetRoot(r, start), t, last, start)
  {
    LeafFrameKeepsTree(m, PackLeaf(m, p, last), start, t, last, p, GetSize(m, p));
  }

  /** Any memory that differs from m at most in the words the leaf packing
      of p writes still holds the tree t. */
  lemma LeafFrameKeepsTree(m: Memory, r: Memory, start: int, t: Tree, last: int, p: int, size: int)
    requires start + MIN_BLOCK <= last && last + MIN_BLOCK <= p && MIN_BLOCK <= size
    requires Represents(m, GetRoot(m, start), t, last, start)
    requires forall x | x in Members(t) :: Disjoint(x, FreeBlock(p, size))
    requires forall x | x in Members(t) :: MIN_BLOCK <= x.size && last + MIN_BLOCK <= x.addr
    requires forall a | a != p && a != FooterAt(p, size) && a != p + LEFT && a != p + RIGHT
                        && a != last + PARENT :: r[a] == m[a]
    ensures Represents(r, GetRoot(r, start), t, last, start)
  {
    forall x | x in Members(t)
      ensures SameFields(m, r, x.addr)
    {
      var a := x.addr;
      assert Disjoint(x, FreeBlock(p, size)) && MIN_BLOCK <= x.size && last + MIN_BLOCK <= a;
      assert a + FIELDS <= p || p + size <= a;
      assert r[a] == m[a] && r[a + LEFT] == m[a + LEFT];
      assert r[a + RIGHT] == m[a + RIGHT] && r[a + PARENT] == m[a + PARENT];
    }
    assert GetRoot(r, start) == GetRoot(m, start);
    RepresentsFrame(m, r, GetRoot(m, start), t, last, start);
  }

  /** No tag word of a good heap is a linkage word of a tree block: those
      lie strictly inside their blocks. */
  lemma TagWordsAreNotLinks(h: Heap, t: Tree)
    requires Good(h, t)
    ensures forall a | IsTagWord(h.mem, h.start, h.brk, a) :: !IsLinkWord(t, a)
  {
    MembersAreSlots(h, t);
    forall x | x in Members(t)
      ensures forall a | IsTagWord(h.mem, h.start, h.brk, a) :: a != x.addr + LEFT && a != x.addr + RIGHT
    {
      SparedInteriorDiffers(h.mem, h.start, x.addr, h.brk, LEFT);
      SparedInteriorDiffers(h.mem, h.start, x.addr, h.brk, RIGHT);
    }
  }

  /** The words the leaf packing and insert_node write, listed. */
  predicate InsertionWrites(t: Tree, start: int, last: int, p: int, size: int, a: int) {
    || a == p || a == FooterAt(p, size) || IsLinkWord(t, a)
    || a == start + RIGHT || a == last + PARENT
    || a == p + LEFT || a == p + RIGHT || a == p + PARENT
  }

  /** Packing p as a leaf and inserting it changes only the listed words. */
  lemma InsertionFrame(m: Memory, start: int, last: int, p: int, t: Tree, a: int)
    requires start + MIN_BLOCK <= last && last + MIN_BLOCK <= p && MIN_BLOCK <= GetSize(m, p)
    requires var m0 := PackLeaf(m, p, last); Represents(m0, GetRoot(m0, start), t, last, start)
    requires !InsertionWrites(t, start, last, p, GetSize(m, p), a)
    ensures InsertFree(PackLeaf(m, p, last), start, p, last, t)[a] == m[a]
  {
    var m0 := PackLeaf(m, p, last);
    assert GetSize(m0, p) == GetSize(m, p);
    assert m0[a] == m[a];
  }

  /** If none of the words the insertion writes, apart from the freed
      block's own tags, is a tag word of the walk, every other tag word
      keeps its value. */
  lemma InsertionSparesWalk(m: Memory, start: int, end: int, last: int, p: int, t: Tree)
    requires start + MIN_BLOCK <= last && last + MIN_BLOCK <= p && MIN_BLOCK <= GetSize(m, p)
    requires var m0 := PackLeaf(m, p, last); Represents(m0, GetRoot(m0, start), t, last, start)
    requires forall a | IsTagWord(m, start, end, a) && a != p && a != FooterAt(p, GetSize(m, p)) ::
               !InsertionWrites(t, start, last, p, GetSize(m, p), a)
    ensures forall a | IsTagWord(m, start, end, a) && a != p && a != FooterAt(p, GetSize(m, p)) ::
              InsertFree(PackLeaf(m, p, last), start, p, last, t)[a] == m[a]
  {
    forall a | IsTagWord(m, start, end, a) && a != p && a != FooterAt(p, GetSize(m, p))
      ensures InsertFree(PackLeaf(m, p, last), start, p, last, t)[a] == m[a]
    {
      InsertionFrame(m, start, last, p, t, a);
    }
  }

  /** Collects the facts that each written word is no tag word. */
  lemma InsertionWritesOffTags(m: Memory, start: int, end: int, last: int, p: int, t: Tree)
    requires forall a | IsTagWord(m, start, end, a) :: a != start + RIGHT
    requires forall a | IsTagWord(m, start, end, a) :: a != last + PARENT
    requires forall a | IsTagWord(m, start, end, a) :: a != p + LEFT
    requires forall a | IsTagWord(m, start, end, a) :: a != p + RIGHT
    requires forall a | IsTagWord(m, start, end, a) :: a != p + PARENT
    requires forall a | IsTagWord(m, start, end, a) :: !IsLinkWord(t, a)
    ensures forall a | IsTagWord(m, start, end, a) && a != p && a != FooterAt(p, GetSize(m, p)) ::
              !InsertionWrites(t, start, last, p, GetSize(m, p), a)
  {
  }

  /** The insertion path (mm.c:254-257) writes no tag word of the heap
      other than the freed block's own header and footer. */
  lemma InsertionSparesTags(h: Heap, t: Tree, p: int)
    requires Good(h, t) && RealBlock(h, p) && Allocated(h.mem[p])
    ensures forall a | IsTagWord(h.mem, h.start, h.brk, a) && a != p && a != FooterAt(p, GetSize(h.mem, p)) ::
              Insertion(h, p, t, true)[a] == h.mem[a]
  {
    var m, start, brk, last := h.mem, h.start, h.brk, h.last;
    FixedSlots(h);
    LeafKeepsTree(h, t, p);
    SparedInteriorDiffers(m, start, start, brk, RIGHT);
    SparedInteriorDiffers(m, start, last, brk, PARENT);
    SparedInteriorDiffers(m, start, p, brk, LEFT);
    SparedInteriorDiffers(m, start, p, brk, RIGHT);
    SparedInteriorDiffers(m, start, p, brk, PARENT);
    TagWordsAreNotLinks(h, t);
    InsertionWritesOffTags(m, start, brk, last, p, t);
    InsertionSparesWalk(m, start, brk, last, p, t);
  }

  /** The corrected insertion path, without the balancing call, adds
      exactly the freed block to the tree the prologue points at, and the
      block keeps its size and valid tags. */
  lemma InsertionAddsLeaf(h: Heap, t: Tree, p: int)
    requires Good(h, t) && RealBlock(h, p) && Allocated(h.mem[p])
    ensures var r, size := Insertion(h, p, t, true), GetSize(h.mem, p);
            && Represents(r, GetRoot(r, h.start), Insert(t, FreeBlock(p, size)), h.last, h.start)
            && GetSize(r, p) == size && HeaderValid(r, p) && IsFreeBitBlock(r, p)
  {
    LeafReady(h, t, p);
    LeafKeepsTree(h, t, p);
    InsertFreeRepresents(PackLeaf(h.mem, p, h.last), h.start, FreeBlock(p, GetSize(h.mem, p)), h.last, t);
  }

  /** The insertion path keeps the heap tiled and every block of the walk
      in place; blocks other than the freed one keep their header. */
  lemma InsertionKeepsWalk(h: Heap, t: Tree, p: int, v: int)
    requires Good(h, t) && RealBlock(h, p) && Allocated(h.mem[p])
    requires OnWalk(h.mem, h.start, v, h.brk)
    ensures var r := Insertion(h, p, t, true);
            && Tiled(r, h.start, h.brk) && OnWalk(r, h.start, v, h.brk)
            && (v != p ==> r[v] == h.mem[v])
  {
    InsertionAddsLeaf(h, t, p);
    InsertionSparesTags(h, t, p);
    RetaggedKeepsWalk(h.mem, Insertion(h, p, t, true), h.start, p, h.brk, v);
  }

  /** When mm_free finds neither neighbour free (mm.c:254-257), the block
      joins the tree: with the root colouring corrected the heap stays good
      and the tree gains exactly the freed block, with its size. */
  lemma FreeInserts(h: Heap, t: Tree, ptr: int)
    requires Good(h, t) && Freeable(h, ptr)
    requires Free(h, ptr, t, true).how.Inserted?
    ensures var p := ptr - WORD;
            Good(Free(h, ptr, t, true).heap, Insert(t, FreeBlock(p, GetSize(h.mem, p))))
  {
    var p := ptr - WORD;
    InsertionKeepsGood(h, t, p);
  }

  /** Packing a real allocated block as a leaf and inserting it keeps the
      heap good, with the block added to the tree. */
  lemma InsertionKeepsGood(h: Heap, t: Tree, p: int)
    requires Good(h, t) && RealBlock(h, p) && Allocated(h.mem[p])
    ensures Good(h.(mem := Insertion(h, p, t, true)), Insert(t, FreeBlock(p, GetSize(h.mem, p))))
  {
    var b := FreeBlock(p, GetSize(h.mem, p));
    InsertionAddsLeaf(h, t, p);
    InsertKeepsOrder(t, b);
    FreedApart(h, t, p);
    InsertKeepsLayout(t, b);
    FixedSlots(h);
    InsertionKeepsWalk(h, t, p, h.start);
    InsertionKeepsWalk(h, t, p, h.last);
    InsertionKeepsIndexed(h, t, p);
  }

  /** With the empty-tree branch as written (mm.c:484-490), freeing a
      block into an empty tree leaves its header BLACK and its footer RED,
      so the next mm_check walks up to it and stops there. */
  lemma FreeIntoEmptyTreeCorrupts(h: Heap, ptr: int)
    requires Good(h, Nil) && Freeable(h, ptr)
    requires Free(h, ptr, Nil, false).how.Inserted?
    ensures CheckHeap(Free(h, ptr, Nil, false).heap) == Corrupt(ptr - WORD)
  {
    var p := ptr - WORD;
    InsertedIsInsertion(h, Nil, ptr, false);
    var hi := h.brk - 1;
    RootInsertionCorrupts(h, p, hi);
    CheckHeapOf(h, Insertion(h, p, Nil, false), hi);
  }

  /** On the insertion path mm_free changes the heap by Insertion alone. */
  lemma InsertedIsInsertion(h: Heap, t: Tree, ptr: int, fixed: bool)
    requires Good(h, t) && Freeable(h, ptr)
    requires Free(h, ptr, t, fixed).how.Inserted?
    ensures RealBlock(h, ptr - WORD) && Allocated(h.mem[ptr - WORD])
    ensures Free(h, ptr, t, fixed).heap == h.(mem := Insertion(h, ptr - WORD, t, fixed))
  {
  }

  /** The empty-tree insertion of a real allocated block, as written:
      mm_check, walking up to hi = mem_heap_hi(), stops at the block. */
  lemma RootInsertionCorrupts(h: Heap, p: int, hi: int)
    requires Good(h, Nil) && RealBlock(h, p) && Allocated(h.mem[p])
    requires hi == h.brk - 1
    ensures CheckFrom(Insertion(h, p, Nil, false), h.start, h.lo, hi) == Corrupt(p)
  {
    EmptyInsertionIsRoot(h, p);
    ShapedRootWalkCorrupts(h, p, hi);
  }

  /** RootWalkCorrupts for a real block of a shaped heap. */
  lemma ShapedRootWalkCorrupts(h: Heap, p: int, hi: int)
    requires Shaped(h) && RealBlock(h, p) && hi == h.brk - 1
    ensures var r := InsertRootAsWritten(PackLeaf(h.mem, p, h.last), h.start, p, h.last);
            CheckFrom(r, h.start, h.lo, hi) == Corrupt(p)
  {
    FixedSlots(h);
    StartAligned(h);
    assert Tiled(h.mem, h.start, p);
    RootWalkCorrupts(h.mem, h.lo, h.start, h.last, hi, p);
  }

  /** The walk of mm_check, up to hi = mem_heap_hi(), over memory m after
      p is packed as a leaf and linked in as the root the way insert_node
      does it. */
  lemma RootWalkCorrupts(m: Memory, lo: int, start: int, last: int, hi: int, p: int)
    requires lo <= start && (start + WORD) % ALIGNMENT == 0 && last == start + MIN_BLOCK
    requires last + MIN_BLOCK <= p && p < hi
    requires Tiled(m, start, p) && GetSize(m, start) == MIN_BLOCK && GetSize(m, last) == MIN_BLOCK
    requires MIN_BLOCK <= GetSize(m, p)
    ensures CheckFrom(InsertRootAsWritten(PackLeaf(m, p, last), start, p, last), start, lo, hi) == Corrupt(p)
  {
    var r := InsertRootAsWritten(PackLeaf(m, p, last), start, p, last);
    InsertRootBreaksHeader(PackLeaf(m, p, last), start, p, last, GetSize(m, p));
    forall a | start <= a < p && a != start + RIGHT && a != last + PARENT
      ensures r[a] == m[a]
    {
      RootAsWrittenFrame(m, start, last, p, a);
    }
    PrefixKeptTiled(m, r, start, last, p);
    CorruptAt(r, lo, start, p, hi);
  }

  /** Into an empty tree, the as-written insertion takes the root branch. */
  lemma EmptyInsertionIsRoot(h: Heap, p: int)
    requires Good(h, Nil) && RealBlock(h, p) && Allocated(h.mem[p])
    ensures Insertion(h, p, Nil, false) == InsertRootAsWritten(PackLeaf(h.mem, p, h.last), h.start, p, h.last)
  {
    LeafKeepsTree(h, Nil, p);
  }

  /** mm_check stops at the first header-invalid block after a tiled
      prefix. */
  lemma CorruptAt(r: Memory, lo: int, start: int, p: int, hi: int)
    requires Tiled(r, start, p) && lo <= start && (start + WORD) % ALIGNMENT == 0 && p < hi
    requires !HeaderValid(r, p)
    ensures CheckFrom(r, start, lo, hi) == Corrupt(p)
  {
    TiledOrdered(r, start, p);
    WalkAligned(r, start, p);
    CheckSkipsTiled(r, start, p, lo, hi);
  }

  /** The as-written empty-tree insertion writes below p only the
      prologue's right word and the sentinel's parent word. */
  lemma RootAsWrittenFrame(m: Memory, start: int, last: int, p: int, a: int)
    requires start + MIN_BLOCK <= last && last + MIN_BLOCK <= p && MIN_BLOCK <= GetSize(m, p)
    requires a < p && a != start + RIGHT && a != last + PARENT
    ensures InsertRootAsWritten(PackLeaf(m, p, last), start, p, last)[a] == m[a]
  {
    var m0 := PackLeaf(m, p, last);
    RootLinkKeeps(m0, start, last, p, a);
  }

  /** Linking p as the root and blackening it leaves every word below p
      other than the prologue's right word and the sentinel's parent word. */
  lemma RootLinkKeeps(m0: Memory, start: int, last: int, p: int, a: int)
    requires start + MIN_BLOCK <= last && last + MIN_BLOCK <= p
    requires a < p && a != start + RIGHT && a != last + PARENT
    ensures InsertRootAsWritten(m0, start, p, last)[a] == m0[a]
  {
    assert LinkAsRoot(m0, start, p, last)[a] == m0[a];
  }

  /** Rewriting only the prologue's right word and the sentinel's parent
      word keeps the walk from the prologue up to p. */
  lemma PrefixKeptTiled(m: Memory, r: Memory, start: int, last: int, p: int)
    requires Tiled(m, start, p) && last == start + MIN_BLOCK && last + MIN_BLOCK <= p
    requires GetSize(m, start) == MIN_BLOCK && GetSize(m, last) == MIN_BLOCK
    requires forall a | start <= a < p && a != start + RIGHT && a != last + PARENT :: r[a] == m[a]
    ensures Tiled(r, start, p)
  {
    assert Tiled(m, last, p);
    assert Tiled(m, last + MIN_BLOCK, p);
    TiledFrame(m, r, last + MIN_BLOCK, p);
    assert r[last] == m[last] && r[FooterAt(last, MIN_BLOCK)] == m[FooterAt(last, MIN_BLOCK)];
    assert Tiled(r, last, p);
    assert r[start] == m[start] && r[FooterAt(start, MIN_BLOCK)] == m[FooterAt(start, MIN_BLOCK)];
  }

  /** Every block of the grown tree is a free block of the new heap's walk. */
  lemma InsertionKeepsIndexed(h: Heap, t: Tree, p: int)
    requires Good(h, t) && RealBlock(h, p) && Allocated(h.mem[p])
    ensures var h', b := h.(mem := Insertion(h, p, t, true)), FreeBlock(p, GetSize(h.mem, p));
            forall x | x in Members(Insert(t, b)) :: Indexed(h', x)
  {
    var b := FreeBlock(p, GetSize(h.mem, p));
    var h' := h.(mem := Insertion(h, p, t, true));
    FreedApart(h, t, p);
    forall x | x in Members(t)
      ensures Indexed(h', x)
    {
      assert Indexed(h, x) && Disjoint(x, b);
      InsertionKeepsWalk(h, t, p, x.addr);
    }
    InsertionAddsLeaf(h, t, p);
    InsertionKeepsWalk(h, t, p, p);
  }

  // ---------------------------------------------------------------------
  // Coalescing with the block before
  // ---------------------------------------------------------------------

  /** In memory r, block x is a free block of the walk from start to end
      that ends at e, and the walk still tiles [start, end). */
  predicate GrownTo(r: Memory, start: int, end: int, x: int, e: int) {
    && Tiled(r, start, end)
    && OnWalk(r, start, x, end)
    && GetAfter(r, x) == e
    && IsFreeBitBlock(r, x)
  }

  /** getbefore(p) of a block p after the first one of a walk is the block
      the walk visits just before p; growing it over p keeps the walk
      tiled, with the grown block ending where p ended. Nothing outside
      the grown block is written. */
  lemma MergeBeforeTiles(m: Memory, start: int, end: int, p: int)
    requires OnWalk(m, start, p, end) && start < p
    ensures var before := GetBefore(m, p);
            && OnWalk(m, start, before, end) && GetAfter(m, before) == p
            && GrownTo(MergeBefore(m, p), start, end, before, GetAfter(m, p))
            && (forall a | a < before || GetAfter(m, p) <= a :: MergeBefore(m, p)[a] == m[a])
  {
    var before, q := GetBefore(m, p), GetAfter(m, p);
    GetBeforeIsPrevious(m, start, p);
    assert Tiled(m, q, end);
    var bits, size := FreeInColor(m, before), MergedSize(m, p);
    AlignedSum(GetSize(m, p), GetSize(m, before), size);
    MergeKeepsTiling(m, start, before, size, q, end, bits);
    PackFrame(m, before, size, bits);
  }

  /** When the block after p is also on the walk, growing the merged block
      once more covers the three blocks before, p and after, and the walk
      still tiles. */
  lemma MergeBothTiles(m: Memory, start: int, end: int, p: int)
    requires OnWalk(m, start, p, end) && start < p && GetAfter(m, p) < end
    ensures var before, after := GetBefore(m, p), GetAfter(m, p);
            && OnWalk(m, start, after, end)
            && GrownTo(MergeBoth(m, p), start, end, before, GetAfter(m, after))
            && GetSize(MergeBoth(m, p), before) == GetSize(m, before) + GetSize(m, p) + GetSize(m, after)
            && (forall a | a < before || GetAfter(m, after) <= a :: MergeBoth(m, p)[a] == m[a])
  {
    var before, q := GetBefore(m, p), GetAfter(m, p);
    MergeBeforeTiles(m, start, end, p);
    var m1 := MergeBefore(m, p);
    assert Tiled(m, q, end);
    var q2 := GetAfter(m, q);
    assert Tiled(m, q2, end);
    TiledJoin(m, start, p, q);
    assert OnWalk(m, start, q, end);
    assert m1[q] == m[q];
    assert Tiled(m1, q, end);
    assert GetAfter(m1, q) == q2;
    assert Tiled(m1, q2, end);
    var bits, size := FreeInColor(m1, before), BothSize(m, p);
    AlignedSum(GetSize(m1, before), GetSize(m1, q), size);
    MergeKeepsTiling(m1, start, before, size, q2, end, bits);
    PackFrame(m1, before, size, bits);
  }

  /** The words the absorb branch reads before it writes: p's neighbour
      after it, the prologue, the sentinel and the after block's three
      links lie beside the extent p will cover. */
  predicate AbsorbReady(m: Memory, start: int, last: int, end: int, p: int) {
    var after := GetAfter(m, p);
    var q := GetAfter(m, after);
    && OnWalk(m, start, p, end) && MIN_BLOCK <= GetSize(m, p) && after < end
    && Beside(m, start, start, end, p, q) && Beside(m, start, last, end, p, q)
    && Beside(m, start, GetLeft(m, after), end, p, q)
    && Beside(m, start, GetRight(m, after), end, p, q)
    && Beside(m, start, GetParent(m, after), end, p, q)
  }

  /** p grows over the block after it. When the prologue, the sentinel and
      the three blocks the after block links to lie beside the grown
      extent, the walk still tiles, the grown block is free in the after
      block's colour, and the prologue and sentinel tags are untouched. */
  lemma AbsorbTiles(m: Memory, start: int, last: int, end: int, p: int)
    requires AbsorbReady(m, start, last, end, p)
    ensures var r, after := Absorb(m, p), GetAfter(m, p);
            && GrownTo(r, start, end, p, GetAfter(m, after))
            && GetSize(r, p) == GetSize(m, p) + GetSize(m, after)
            && ColorOf(r, p) == ColorOf(m, after)
            && r[start] == m[start] && r[last] == m[last]
  {
    var after := GetAfter(m, p);
    AbsorbPackTiles(m, start, last, end, p);
    var m1 := Pack(m, p, AbsorbedSize(m, p), FreeInColor(m, after));
    RelinkKeepsWalk(m1, start, last, end, p, p, GetLeft(m, after), GetRight(m, after), GetParent(m, after));
  }

  /** The pack of the absorb branch: the grown block tiles [p, q) and every
      slot beside it stays one. */
  lemma AbsorbPackTiles(m: Memory, start: int, last: int, end: int, p: int)
    requires AbsorbReady(m, start, last, end, p)
    ensures var after := GetAfter(m, p);
            var m1 := Pack(m, p, AbsorbedSize(m, p), FreeInColor(m, after));
            && Tiled(m1, start, end) && Slot(m1, start, p, end)
            && GetAfter(m1, p) == GetAfter(m, after)
            && GetSize(m1, p) == GetSize(m, p) + GetSize(m, after)
            && IsFreeBitBlock(m1, p) && ColorOf(m1, p) == ColorOf(m, after)
            && Slot(m1, start, start, end) && Slot(m1, start, last, end)
            && m1[start] == m[start] && m1[last] == m[last]
            && Spared(m1, start, GetLeft(m, after), end)
            && Spared(m1, start, GetRight(m, after), end)
            && Spared(m1, start, GetParent(m, after), end)
  {
    var after := GetAfter(m, p);
    assert Tiled(m, after, end);
    var q := GetAfter(m, after);
    assert Tiled(m, q, end) && Tiled(m, q, q) && Tiled(m, after, q) && Tiled(m, p, q);
    var size, bits := AbsorbedSize(m, p), FreeInColor(m, after);
    AlignedSum(GetSize(m, p), GetSize(m, after), size);
    MergeKeepsTiling(m, start, p, size, q, end, bits);
    PackFrame(m, p, size, bits);
    var m1 := Pack(m, p, size, bits);
    assert Tiled(m1, p, end) && Tiled(m1, q, q) && Tiled(m1, p, q);
    RetileKeepsWalk(m, m1, start, p, q, end, start);
    RetileKeepsWalk(m, m1, start, p, q, end, last);
    RetileKeepsWalk(m, m1, start, p, q, end, GetLeft(m, after));
    RetileKeepsWalk(m, m1, start, p, q, end, GetRight(m, after));
    RetileKeepsWalk(m, m1, start, p, q, end, GetParent(m, after));
    FreedColor(size, ColorOf(m, after));
  }

  /** A block packed FREE | c has colour c. */
  lemma FreedColor(size: int, c: int)
    requires size % ALIGNMENT == 0 && (c == RED || c == BLACK)
    ensures Color(Tag(size, Or3(FREE, c))) == c
  {
    assert LowBits(Tag(size, Or3(FREE, c))) == Or3(FREE, c);
  }

  // ---------------------------------------------------------------------
  // mm_free on a good heap
  // ---------------------------------------------------------------------

  /** Merging with the block before (mm.c:232-235): the block before p is
      p's predecessor on the walk, and it grows to end where p ended, free,
      with the two sizes added. The walk still tiles the heap. With the
      corrected free test the block before is a real block, so the
      prologue and the sentinel keep their tags and the heap stays
      shaped. */
  lemma FreeMergesBefore(h: Heap, t: Tree, ptr: int, fixed: bool)
    requires Good(h, t) && Freeable(h, ptr)
    requires Free(h, ptr, t, fixed).how.MergedBefore?
    ensures var m, p, r := h.mem, ptr - WORD, Free(h, ptr, t, fixed).heap;
            var before := GetBefore(m, p);
            && OnWalk(m, h.start, before, h.brk) && GetAfter(m, before) == p
            && GrownTo(r.mem, h.start, h.brk, before, GetAfter(m, p))
            && GetSize(r.mem, before) == GetSize(m, before) + GetSize(m, p)
            && (fixed ==> Shaped(r))
  {
    var m, p := h.mem, ptr - WORD;
    FixedSlots(h);
    MergeBeforeTiles(m, h.start, h.brk, p);
    MergeReadsBeforeFree(h, t, ptr, fixed);
    if fixed {
      BeforeIsReal(h, p);
    }
  }

  /** Merging with both neighbours (mm.c:236-241): the block before p
      grows over p and over the block after p, with the three sizes added,
      and the walk still tiles the heap. With the corrected free test the
      heap stays shaped. */
  lemma FreeMergesBoth(h: Heap, t: Tree, ptr: int, fixed: bool)
    requires Good(h, t) && Freeable(h, ptr)
    requires Free(h, ptr, t, fixed).how.MergedBoth?
    ensures var m, p, r := h.mem, ptr - WORD, Free(h, ptr, t, fixed).heap;
            var before, after := GetBefore(m, p), GetAfter(m, p);
            && OnWalk(m, h.start, before, h.brk) && GetAfter(m, before) == p
            && OnWalk(m, h.start, after, h.brk)
            && GrownTo(r.mem, h.start, h.brk, before, GetAfter(m, after))
            && GetSize(r.mem, before) == GetSize(m, before) + GetSize(m, p) + GetSize(m, after)
            && (fixed ==> Shaped(r))
  {
    var m, p := h.mem, ptr - WORD;
    FixedSlots(h);
    MergeBeforeTiles(m, h.start, h.brk, p);
    MergeBothTiles(m, h.start, h.brk, p);
    MergeReadsBeforeFree(h, t, ptr, fixed);
    if fixed {
      BeforeIsReal(h, p);
    }
  }

  /** Both merging branches are taken only when the block before p reads
      free under the test in use. */
  lemma MergeReadsBeforeFree(h: Heap, t: Tree, ptr: int, fixed: bool)
    requires Good(h, t) && Freeable(h, ptr)
    requires Free(h, ptr, t, fixed).how.MergedBefore? || Free(h, ptr, t, fixed).how.MergedBoth?
    ensures ReadsFree(h.mem[GetBefore(h.mem, ptr - WORD)], fixed)
  {
  }

  /** Under the corrected test, a block before a real block that reads free
      is neither the prologue nor the sentinel: it lies after both. */
  lemma BeforeIsReal(h: Heap, p: int)
    requires Shaped(h) && OnWalk(h.mem, h.start, p, h.brk) && h.last + MIN_BLOCK <= p
    requires IsFreeBit(h.mem[GetBefore(h.mem, p)])
    ensures h.last < GetBefore(h.mem, p)
  {
    var m, before := h.mem, GetBefore(h.mem, p);
    FixedSlots(h);
    GetBeforeIsPrevious(m, h.start, p);
    IsFreeBitAgreesOnBlockTags(MIN_BLOCK, ALC);
    assert before != h.start && before != h.last;
    if h.start < before < h.last {
      WalkBlocksApart(m, h.start, h.start, before, h.brk);
    }
  }

  /** Taking in the block after (mm.c:242-253), when that block is in the
      tree: p grows to end where the after block ended, is free in the
      after block's colour, holds the after block's three links, and the
      heap stays shaped. Where the grown block sits in the tree is not
      stated: its size changed while its links did not. */
  lemma FreeAbsorbs(h: Heap, t: Tree, ptr: int, fixed: bool)
    requires Good(h, t) && Freeable(h, ptr)
    requires Free(h, ptr, t, fixed).how.Absorbed?
    requires var m, p := h.mem, ptr - WORD;
             FreeBlock(GetAfter(m, p), GetSize(m, GetAfter(m, p))) in Members(t)
    ensures var m, p, r := h.mem, ptr - WORD, Free(h, ptr, t, fixed).heap;
            var after := GetAfter(m, p);
            && Shaped(r)
            && GrownTo(r.mem, h.start, h.brk, p, GetAfter(m, after))
            && GetSize(r.mem, p) == GetSize(m, p) + GetSize(m, after)
            && ColorOf(r.mem, p) == ColorOf(m, after)
            && GetLeft(r.mem, p) == GetLeft(m, after)
            && GetRight(r.mem, p) == GetRight(m, after)
            && GetParent(r.mem, p) == GetParent(m, after)
  {
    var m, p := h.mem, ptr - WORD;
    AbsorbReadyInGoodHeap(h, t, p);
    AbsorbTiles(m, h.start, h.last, h.brk, p);
  }

  /** In a good heap, a real allocated block p followed by a tree block
      is ready to absorb it, and the blocks that tree block links to are
      apart from p. */
  lemma AbsorbReadyInGoodHeap(h: Heap, t: Tree, p: int)
    requires Good(h, t) && RealBlock(h, p) && Allocated(h.mem[p])
    requires var m := h.mem;
             FreeBlock(GetAfter(m, p), GetSize(m, GetAfter(m, p))) in Members(t)
    ensures var m, after := h.mem, GetAfter(h.mem, p);
            && AbsorbReady(m, h.start, h.last, h.brk, p)
            && Apart(p, GetLeft(m, after)) && Apart(p, GetRight(m, after)) && Apart(p, GetParent(m, after))
  {
    var m := h.mem;
    var after := GetAfter(m, p);
    var b := FreeBlock(after, GetSize(m, after));
    NeighboursBeside(h, t, b);
    LinksAreNeighbours(m, GetRoot(m, h.start), t, h.last, h.start, b);
    LinkNotFreed(h, t, b, GetLeft(m, after), p);
    LinkNotFreed(h, t, b, GetRight(m, after), p);
    LinkNotFreed(h, t, b, GetParent(m, after), p);
    var q := GetAfter(m, after);
    FixedSlots(h);
    BesideWidens(m, h.start, h.brk, p, h.start, q);
    BesideWidens(m, h.start, h.brk, p, h.last, q);
    BesideWidens(m, h.start, h.brk, p, GetLeft(m, after), q);
    BesideWidens(m, h.start, h.brk, p, GetRight(m, after), q);
    BesideWidens(m, h.start, h.brk, p, GetParent(m, after), q);
  }

  /** A neighbour of a tree block is never an allocated real block: it is
      the sentinel, the prologue, or another tree block, which is free. */
  lemma LinkNotFreed(h: Heap, t: Tree, x: FreeBlock, v: int, p: int)
    requires Good(h, t) && Neighbour(t, v, h.last, h.start, x)
    requires h.last + MIN_BLOCK <= p && Allocated(h.mem[p])
    ensures v != p
  {
    if v != h.last && v != h.start {
      var y :| y in Members(t) && y.addr == v && Disjoint(x, y);
      assert Indexed(h, y);
    }
  }

  /** A slot beside the block after p, other than p itself, is also beside
      p and that block together. */
  lemma BesideWidens(m: Memory, start: int, end: int, p: int, v: int, q: int)
    requires OnWalk(m, start, p, end) && Beside(m, start, v, end, GetAfter(m, p), q) && v != p
    ensures Beside(m, start, v, end, p, q)
  {
    if v < p {
      WalkBlocksApart(m, start, v, p, end);
    } else if v < GetAfter(m, p) {
      WalkBlocksApart(m, start, p, v, end);
    }
  }

  /** Freeing the first block after the sentinel as written: the sentinel
      reads free, so the block is merged into it, the sentinel grows past
      MIN_BLOCK bytes and the heap is no longer shaped. */
  lemma FirstBlockJoinsSentinel(h: Heap, t: Tree, ptr: int)
    requires Good(h, t) && RealBlock(h, ptr - WORD) && ptr - WORD == h.last + MIN_BLOCK
    requires PassesGuard(h.mem, ptr - WORD)
    ensures var r := Free(h, ptr, t, false);
            && (r.how.MergedBefore? || r.how.MergedBoth?)
            && MIN_BLOCK < GetSize(r.heap.mem, h.last)
            && !Shaped(r.heap)
  {
    var m, p := h.mem, ptr - WORD;
    FirstBlockFollowsSentinel(h, p);
    SentinelReadsFree();
    var r := Free(h, ptr, t, false);
    if r.how.MergedBoth? {
      FreeMergesBoth(h, t, ptr, false);
    } else {
      FreeMergesBefore(h, t, ptr, false);
    }
  }

  /** The corrected test never merges the first block into the sentinel. */
  lemma FirstBlockStaysApart(h: Heap, t: Tree, ptr: int)
    requires Good(h, t) && RealBlock(h, ptr - WORD) && ptr - WORD == h.last + MIN_BLOCK
    requires PassesGuard(h.mem, ptr - WORD)
    ensures var r := Free(h, ptr, t, true);
            !r.how.MergedBefore? && !r.how.MergedBoth? && !r.how.Ignored?
  {
    FirstBlockFollowsSentinel(h, ptr - WORD);
    IsFreeBitAgreesOnBlockTags(MIN_BLOCK, ALC);
  }

  /** getbefore of the first real block is the sentinel. */
  lemma FirstBlockFollowsSentinel(h: Heap, p: int)
    requires Shaped(h) && p == h.last + MIN_BLOCK
    ensures GetBefore(h.mem, p) == h.last
  {
    FixedSlots(h);
    assert HeaderValid(h.mem, h.last);
  }
}

=== FILE: free_index.dfy ===
/** The free-block tree as mm.c keeps it: inside the free blocks, linked
    through their left and right words, with the sentinel block `last`
    standing for every empty subtree and the prologue's right word holding
    the root.

    Represents ties a memory image to an abstract FreeTree.Tree; the memory
    operations (bestfit, __tree_search__, insert_node, __insert_node__) are
    then shown to compute what the abstract ones compute. */
module FreeIndex {
  import opened Wrappers
  import opened Tags
  import opened Blocks
  import opened Links
  import opened FreeTree

  /** The linkage words reachable from address a spell out tree t, whose
      root hangs below block up: the sentinel stands for Nil, a node's
      header gives its size, and its parent word points back at the block
      above it. */
  predicate Represents(m: Memory, a: int, t: Tree, last: int, up: int)
    decreases t
  {
    match t
    case Nil => a == last
    case Node(l, b, r) =>
      && a == b.addr
      && a != last
      && GetSize(m, a) == b.size
      && GetParent(m, a) == up
      && Represents(m, GetLeft(m, a), l, last, a)
      && Represents(m, GetRight(m, a), r, last, a)
  }

  /** m and m' agree on the size in the header and on the three linkage
      words of the block at x. */
  predicate SameFields(m: Memory, m': Memory, x: int) {
    && GetSize(m', x) == GetSize(m, x)
    && m'[x + LEFT] == m[x + LEFT]
    && m'[x + RIGHT] == m[x + RIGHT]
    && m'[x + PARENT] == m[x + PARENT]
  }

  /** The extents of two blocks do not overlap. */
  predicate Disjoint(x: FreeBlock, y: FreeBlock) {
    x.addr + x.size <= y.addr || y.addr + y.size <= x.addr
  }

  /** Every block of the tree is at least MIN_BLOCK bytes long and no two
      of them overlap. */
  predicate Laid(t: Tree) {
    match t
    case Nil => true
    case Node(l, b, r) =>
      && MIN_BLOCK <= b.size
      && Laid(l)
      && Laid(r)
      && (forall x | x in Members(l) :: Disjoint(x, b))
      && (forall x | x in Members(r) :: Disjoint(x, b))
      && (forall x, y | x in Members(l) && y in Members(r) :: Disjoint(x, y))
  }

  /** Every member of a laid-out tree is a full-size block. */
  lemma {:induction false} LaidMembersAreBlocks(t: Tree)
    requires Laid(t)
    ensures forall x | x in Members(t) :: MIN_BLOCK <= x.size
  {
    match t
    case Nil =>
    case Node(l, b, r) =>
      LaidMembersAreBlocks(l);
      LaidMembersAreBlocks(r);
  }

  /** A word that holds some member's left or right link. */
  predicate IsLinkWord(t: Tree, a: int) {
    exists x | x in Members(t) :: a == x.addr + LEFT || a == x.addr + RIGHT
  }

  /** Represents reads only the header and linkage words of members. */
  lemma {:induction false} RepresentsFrame(m: Memory, m': Memory, a: int, t: Tree, last: int, up: int)
    requires Represents(m, a, t, last, up)
    requires forall x | x in Members(t) :: SameFields(m, m', x.addr)
    ensures Represents(m', a, t, last, up)
    decreases t
  {
    match t
    case Nil =>
    case Node(l, b, r) =>
      RepresentsFrame(m, m', GetLeft(m, a), l, last, a);
      RepresentsFrame(m, m', GetRight(m, a), r, last, a);
  }

  /** No member of a represented tree sits at the sentinel, and every
      member's header holds the member's size. */
  lemma {:induction false} MembersAreBlocksInMemory(m: Memory, a: int, t: Tree, last: int, up: int)
    requires Represents(m, a, t, last, up)
    ensures forall x | x in Members(t) :: x.addr != last && GetSize(m, x.addr) == x.size
    decreases t
  {
    match t
    case Nil =>
    case Node(l, b, r) =>
      MembersAreBlocksInMemory(m, GetLeft(m, a), l, last, a);
      MembersAreBlocksInMemory(m, GetRight(m, a), r, last, a);
  }

  // ---------------------------------------------------------------------
  // Search
  // ---------------------------------------------------------------------

  /** The address the source returns for a search result: the sentinel
      when nothing was found. */
  function AddrOr(found: Option<FreeBlock>, last: int): int {
    match found
    case None => last
    case Some(x) => x.addr
  }

  /** __tree_search__ (mm.c:502-515) over memory. It reads the node's size
      before checking for the sentinel, as the source does; the result is
      the address of the block the abstract Search finds, or the sentinel. */
  function TreeSearch(m: Memory, node: int, size: int, last: int, t: Tree, ghost up: int): (r: int)
    requires Represents(m, node, t, last, up)
    ensures r == AddrOr(Search(t, size), last)
    decreases t
  {
    var blksize := GetSize(m, node);
    if node == last then node
    else if blksize < size then
      TreeSearch(m, GetRight(m, node), size, last, t.right, node)
    else
      MembersAreBlocksInMemory(m, GetLeft(m, node), t.left, last, node);
      var leftSearch := TreeSearch(m, GetLeft(m, node), size, last, t.left, node);
      if leftSearch == last then node else leftSearch
  }

  /** bestfit (mm.c:476-479): search from the root hanging off the
      prologue block. */
  function Bestfit(m: Memory, start: int, size: int, last: int, t: Tree): (r: int)
    requires Represents(m, GetRoot(m, start), t, last, start)
    ensures r == AddrOr(Search(t, size), last)
  {
    TreeSearch(m, GetRoot(m, start), size, last, t, start)
  }

  /** On an ordered tree bestfit is a best fit: it returns the sentinel
      exactly when no free block is large enough, and otherwise the address
      of a free block of the least size that is large enough. */
  lemma BestfitIsBestFit(m: Memory, start: int, size: int, last: int, t: Tree)
    requires Represents(m, GetRoot(m, start), t, last, start)
    requires IsBST(t)
    ensures Bestfit(m, start, size, last, t) == last <==>
              forall x | x in Members(t) :: x.size < size
    ensures Bestfit(m, start, size, last, t) != last ==>
              exists y | y in Members(t) ::
                && y.addr == Bestfit(m, start, size, last, t)
                && size <= y.size
                && forall x | x in Members(t) && size <= x.size :: y.size <= x.size
  {
    SearchIsBestFit(t, size);
    MembersAreBlocksInMemory(m, GetRoot(m, start), t, last, start);
  }

  // ---------------------------------------------------------------------
  // Insertion
  // ---------------------------------------------------------------------

  /** The conditions under which mm_free hands block b to insert_node:
      packed with its size, both links set to the sentinel, at least
      MIN_BLOCK bytes, and overlapping no block already in the tree. */
  predicate Placeable(m: Memory, b: FreeBlock, last: int, t: Tree) {
    && Laid(t)
    && MIN_BLOCK <= b.size
    && b.addr != last
    && GetSize(m, b.addr) == b.size
    && GetLeft(m, b.addr) == last
    && GetRight(m, b.addr) == last
    && forall x | x in Members(t) :: Disjoint(x, b)
  }

  /** Placing a block that overlaps none of the tree's blocks keeps the
      tree laid out. */
  lemma {:induction false} InsertKeepsLayout(t: Tree, b: FreeBlock)
    requires Laid(t) && MIN_BLOCK <= b.size
    requires forall x | x in Members(t) :: Disjoint(x, b)
    ensures Laid(Insert(t, b))
  {
    match t
    case Nil =>
    case Node(l, x, r) =>
      if x.size > b.size {
        InsertKeepsLayout(l, b);
        assert Insert(t, b) == Node(Insert(l, b), x, r);
        forall y, z | y in Members(Insert(l, b)) && z in Members(r)
          ensures Disjoint(y, z)
        {
          if y == b {
            assert Disjoint(z, b);
          }
        }
      } else {
        InsertKeepsLayout(r, b);
        assert Insert(t, b) == Node(l, x, Insert(r, b));
      }
  }

  /** Blocks of at least FIELDS bytes that do not overlap have apart
      linkage words. */
  lemma DisjointApart(x: FreeBlock, y: FreeBlock)
    requires Disjoint(x, y) && FIELDS <= x.size && FIELDS <= y.size
    ensures Apart(x.addr, y.addr)
  {
  }

  /** __insert_node__ (mm.c:518-532) over memory, without the call to
      __insert_balance__: descend left when the node is strictly larger
      than the new block, right otherwise, and link the block into the
      first child slot holding the sentinel. Only left and right words of
      the tree's blocks and the new block's parent word are written. */
  function InsertNode(m: Memory, root: int, node: int, last: int, t: Tree, ghost up: int): (r: Memory)
    requires Represents(m, root, t, last, up) && t.Node?
    ensures forall a | !IsLinkWord(t, a) && a != node + PARENT :: r[a] == m[a]
    decreases t
  {
    if GetSize(m, root) > GetSize(m, node) then
      if GetLeft(m, root) == last then SetLeft(m, root, node)
      else InsertNode(m, GetLeft(m, root), node, last, t.left, root)
    else
      if GetRight(m, root) == last then SetRight(m, root, node)
      else InsertNode(m, GetRight(m, root), node, last, t.right, root)
  }

  /** The memory descent builds exactly the abstract placement, parent
      links included. */
  lemma {:induction false} InsertNodeRepresents(m: Memory, root: int, b: FreeBlock, last: int, t: Tree, up: int)
    requires Represents(m, root, t, last, up) && t.Node?
    requires Placeable(m, b, last, t)
    ensures Represents(InsertNode(m, root, b.addr, last, t, up), root, InsertBelow(t, b), last, up)
    decreases t
  {
    var r := InsertNode(m, root, b.addr, last, t, up);
    PlaceableBelow(m, b, last, t);
    if GetSize(m, root) > b.size {
      if GetLeft(m, root) == last {
        assert t.left == Nil;
        PlacedAsLeftLeaf(m, root, b, last, t, up);
      } else {
        InsertNodeRepresents(m, GetLeft(m, root), b, last, t.left, root);
        PlacedBelowLeft(m, r, root, b, last, t, InsertBelow(t.left, b), up);
      }
    } else {
      if GetRight(m, root) == last {
        assert t.right == Nil;
        PlacedAsRightLeaf(m, root, b, last, t, up);
      } else {
        InsertNodeRepresents(m, GetRight(m, root), b, last, t.right, root);
        PlacedBelowRight(m, r, root, b, last, t, InsertBelow(t.right, b), up);
      }
    }
  }

  /** Linking b into the empty left slot of the root yields the tree with
      b as its left child. */
  lemma PlacedAsLeftLeaf(m: Memory, root: int, b: FreeBlock, last: int, t: Tree, up: int)
    requires Represents(m, root, t, last, up) && t.Node? && t.left == Nil
    requires Placeable(m, b, last, t)
    requires forall y | y in Members(t) :: MIN_BLOCK <= y.size
    ensures Represents(SetLeft(m, root, b.addr), root, t.(left := Leaf(b)), last, up)
  {
    var r := SetLeft(m, root, b.addr);
    DisjointApart(t.blk, b);
    LeafRepresents(m, r, b, last, root + LEFT, root);
    FrameAfterLink(m, r, t.right, root + LEFT, b.addr, b);
    RepresentsFrame(m, r, GetRight(m, root), t.right, last, root);
    assert r[root] == m[root] && r[root + RIGHT] == m[root + RIGHT];
    assert r[root + PARENT] == m[root + PARENT] && GetLeft(r, root) == b.addr;
  }

  /** Linking b into the empty right slot of the root yields the tree with
      b as its right child. */
  lemma PlacedAsRightLeaf(m: Memory, root: int, b: FreeBlock, last: int, t: Tree, up: int)
    requires Represents(m, root, t, last, up) && t.Node? && t.right == Nil
    requires Placeable(m, b, last, t)
    requires forall y | y in Members(t) :: MIN_BLOCK <= y.size
    ensures Represents(SetRight(m, root, b.addr), root, t.(right := Leaf(b)), last, up)
  {
    var r := SetRight(m, root, b.addr);
    DisjointApart(t.blk, b);
    LeafRepresents(m, r, b, last, root + RIGHT, root);
    FrameAfterLink(m, r, t.left, root + RIGHT, b.addr, b);
    RepresentsFrame(m, r, GetLeft(m, root), t.left, last, root);
    assert r[root] == m[root] && r[root + LEFT] == m[root + LEFT];
    assert r[root + PARENT] == m[root + PARENT] && GetRight(r, root) == b.addr;
  }

  /** Once b is placed in the left subtree, the node above and the right
      subtree still read the same. */
  lemma PlacedBelowLeft(m: Memory, r: Memory, root: int, b: FreeBlock, last: int, t: Tree, placed: Tree, up: int)
    requires Represents(m, root, t, last, up) && t.Node? && Laid(t)
    requires MIN_BLOCK <= b.size && Disjoint(t.blk, b)
    requires forall y | y in Members(t.right) :: Disjoint(y, b)
    requires forall y | y in Members(t) :: MIN_BLOCK <= y.size
    requires forall a | !IsLinkWord(t.left, a) && a != b.addr + PARENT :: r[a] == m[a]
    requires Represents(r, GetLeft(m, root), placed, last, root)
    ensures Represents(r, root, t.(left := placed), last, up)
  {
    var Node(l, x, rt) := t;
    SubtreeFrame(m, r, l, rt, x, b.addr, b);
    RepresentsFrame(m, r, GetRight(m, root), rt, last, root);
    Reassemble(m, r, root, t, placed, rt, last, up);
  }

  /** Once b is placed in the right subtree, the node above and the left
      subtree still read the same. */
  lemma PlacedBelowRight(m: Memory, r: Memory, root: int, b: FreeBlock, last: int, t: Tree, placed: Tree, up: int)
    requires Represents(m, root, t, last, up) && t.Node? && Laid(t)
    requires MIN_BLOCK <= b.size && Disjoint(t.blk, b)
    requires forall y | y in Members(t.left) :: Disjoint(y, b)
    requires forall y | y in Members(t) :: MIN_BLOCK <= y.size
    requires forall a | !IsLinkWord(t.right, a) && a != b.addr + PARENT :: r[a] == m[a]
    requires Represents(r, GetRight(m, root), placed, last, root)
    ensures Represents(r, root, t.(right := placed), last, up)
  {
    var Node(l, x, rt) := t;
    forall y, z | y in Members(rt) && z in Members(l)
      ensures Disjoint(y, z)
    {
      assert Disjoint(z, y);
    }
    SubtreeFrame(m, r, rt, l, x, b.addr, b);
    RepresentsFrame(m, r, GetLeft(m, root), l, last, root);
    Reassemble(m, r, root, t, l, placed, last, up);
  }

  /** A node whose header and links read the same in r, over subtrees
      represented in r, is represented in r. */
  lemma Reassemble(m: Memory, r: Memory, root: int, t: Tree, nl: Tree, nr: Tree, last: int, up: int)
    requires Represents(m, root, t, last, up) && t.Node?
    requires SameFields(m, r, root)
    requires Represents(r, GetLeft(m, root), nl, last, root)
    requires Represents(r, GetRight(m, root), nr, last, root)
    ensures Represents(r, root, Node(nl, t.blk, nr), last, up)
  {
  }

  /** A block placeable in a tree is placeable in both its subtrees. */
  lemma PlaceableBelow(m: Memory, b: FreeBlock, last: int, t: Tree)
    requires Placeable(m, b, last, t) && t.Node?
    ensures Placeable(m, b, last, t.left) && Placeable(m, b, last, t.right)
    ensures forall y | y in Members(t) :: MIN_BLOCK <= y.size
  {
    LaidMembersAreBlocks(t);
  }

  /** A freshly linked block with sentinel children is a leaf below up,
      when the one link word written elsewhere is not one of its own
      words. */
  lemma LeafRepresents(m: Memory, r: Memory, b: FreeBlock, last: int, w: int, up: int)
    requires b.addr != last && GetSize(m, b.addr) == b.size
    requires GetLeft(m, b.addr) == last && GetRight(m, b.addr) == last
    requires w != b.addr && w != b.addr + LEFT && w != b.addr + RIGHT
    requires forall a | a != w && a != b.addr + PARENT :: r[a] == m[a]
    requires r[b.addr + PARENT] == up
    ensures Represents(r, b.addr, Leaf(b), last, up)
  {
    assert r[b.addr] == m[b.addr];
    assert r[b.addr + LEFT] == m[b.addr + LEFT];
    assert r[b.addr + RIGHT] == m[b.addr + RIGHT];
  }

  /** The two words written when linking b below a block do not touch the
      header or linkage of a sibling subtree's blocks. */
  lemma FrameAfterLink(m: Memory, r: Memory, s: Tree, w: int, node: int, b: FreeBlock)
    requires node == b.addr && FIELDS <= b.size
    requires forall y | y in Members(s) :: FIELDS <= y.size && Disjoint(y, b)
    requires forall y | y in Members(s) :: w < y.addr || y.addr + FIELDS <= w
    requires forall a | a != w && a != node + PARENT :: r[a] == m[a]
    ensures forall y | y in Members(s) :: SameFields(m, r, y.addr)
  {
    forall y | y in Members(s)
      ensures SameFields(m, r, y.addr)
    {
      DisjointApart(y, b);
    }
  }

  /** Inserting into one subtree leaves the node above and the other
      subtree's words alone. */
  lemma SubtreeFrame(m: Memory, r: Memory, s: Tree, o: Tree, x: FreeBlock, node: int, b: FreeBlock)
    requires node == b.addr && FIELDS <= x.size && FIELDS <= b.size && Disjoint(x, b)
    requires forall y | y in Members(s) :: FIELDS <= y.size && Disjoint(y, x)
    requires forall y | y in Members(o) :: FIELDS <= y.size && Disjoint(y, b)
    requires forall y, z | y in Members(s) && z in Members(o) :: Disjoint(y, z)
    requires forall a | !IsLinkWord(s, a) && a != node + PARENT :: r[a] == m[a]
    ensures SameFields(m, r, x.addr)
    ensures forall z | z in Members(o) :: SameFields(m, r, z.addr)
  {
    DisjointApart(x, b);
    forall y | y in Members(s)
      ensures Apart(y.addr, x.addr)
    {
      DisjointApart(y, x);
    }
    FieldsOffLinks(m, r, s, node, x.addr);
    forall z | z in Members(o)
      ensures SameFields(m, r, z.addr)
    {
      DisjointApart(z, b);
      forall y | y in Members(s)
        ensures Apart(y.addr, z.addr)
      {
        DisjointApart(y, z);
      }
      FieldsOffLinks(m, r, s, node, z.addr);
    }
  }

  /** A block apart from node and from every block of s keeps its fields
      when only s's link words and node's parent word may change. */
  lemma FieldsOffLinks(m: Memory, r: Memory, s: Tree, node: int, v: int)
    requires Apart(node, v)
    requires forall y | y in Members(s) :: Apart(y.addr, v)
    requires forall a | !IsLinkWord(s, a) && a != node + PARENT :: r[a] == m[a]
    ensures SameFields(m, r, v)
  {
  }

  // ---------------------------------------------------------------------
  // insert_node
  // ---------------------------------------------------------------------

  /** The heap order mm_init sets up and mm_malloc keeps: the prologue
      block, then the sentinel, then every real block, each at least
      MIN_BLOCK bytes. The new block b and every block in the tree are real
      blocks. */
  predicate AfterSentinel(start: int, last: int, b: FreeBlock, t: Tree) {
    && start + MIN_BLOCK <= last
    && last + MIN_BLOCK <= b.addr
    && forall x | x in Members(t) :: last + MIN_BLOCK <= x.addr
  }

  /** The linkage writes of the empty-tree branch of insert_node
      (mm.c:486-488): the prologue's right word points at node, node's
      parent is the prologue, and both of node's children are the
      sentinel. */
  function LinkAsRoot(m: Memory, start: int, node: int, last: int): (r: Memory)
    requires start + MIN_BLOCK <= last && last + MIN_BLOCK <= node
    ensures GetRoot(r, start) == node && GetParent(r, node) == start
    ensures GetLeft(r, node) == last && GetRight(r, node) == last
    ensures forall a | a != start + RIGHT && a != last + PARENT && a != node + LEFT
                       && a != node + RIGHT && a != node + PARENT :: r[a] == m[a]
  {
    var m1 := SetRight(m, start, node);
    var m2 := SetRight(m1, node, last);
    SetLeft(m2, node, last)
  }

  /** The empty-tree branch of insert_node as written (mm.c:484-490): link
      node as the root, then SETCOLOR(node, BLACK), which ORs the colour
      into the header only. */
  function InsertRootAsWritten(m: Memory, start: int, node: int, last: int): (r: Memory)
    requires start + MIN_BLOCK <= last && last + MIN_BLOCK <= node
    ensures GetRoot(r, start) == node
    ensures ColorOf(r, node) == BLACK
    ensures GetSize(r, node) == GetSize(m, node)
  {
    SetColor(LinkAsRoot(m, start, node, last), node, BLACK)
  }

  /** mm_free packs the block FREE | RED before insert_node (mm.c:255).
      Blackening only its header leaves the footer RED, so the new root is
      no longer header-valid and the next mm_check stops the program. */
  lemma InsertRootBreaksHeader(m: Memory, start: int, node: int, last: int, size: int)
    requires start + MIN_BLOCK <= last && last + MIN_BLOCK <= node
    requires MIN_BLOCK <= size && size % ALIGNMENT == 0
    requires m[node] == Tag(size, Or3(FREE, RED))
    requires m[FooterAt(node, size)] == Tag(size, Or3(FREE, RED))
    ensures HeaderValid(m, node)
    ensures !HeaderValid(InsertRootAsWritten(m, start, node, last), node)
  {
    var linked := LinkAsRoot(m, start, node, last);
    assert linked[node] == m[node];
    assert linked[FooterAt(node, size)] == m[FooterAt(node, size)];
    BlackenedFreeBlockIsInvalid(linked, node, size);
    BlackenedFreeBlockIsInvalid(m, node, size);
  }

  /** The empty-tree branch of insert_node with the colour written to both
      tags: node becomes a black root with sentinel children and stays
      header-valid and free. */
  function InsertRootFixed(m: Memory, start: int, node: int, last: int): (r: Memory)
    requires start + MIN_BLOCK <= last && last + MIN_BLOCK <= node
    requires MIN_BLOCK <= GetSize(m, node)
    ensures GetRoot(r, start) == node && GetParent(r, node) == start
    ensures GetLeft(r, node) == last && GetRight(r, node) == last
    ensures GetSize(r, node) == GetSize(m, node)
    ensures ColorOf(r, node) == BLACK
    ensures HeaderValid(m, node) ==> HeaderValid(r, node)
    ensures IsFreeBitBlock(r, node) == IsFreeBitBlock(m, node)
    ensures forall a | a != start + RIGHT && a != last + PARENT && a != node + LEFT && a != node + RIGHT
                       && a != node + PARENT && a != node && a != FooterAt(node, GetSize(m, node)) :: r[a] == m[a]
  {
    var linked := LinkAsRoot(m, start, node, last);
    var size := GetSize(m, node);
    assert linked[node] == m[node];
    assert linked[FooterAt(node, size)] == m[FooterAt(node, size)];
    SetColorBoth(linked, node, BLACK)
  }

  /** insert_node (mm.c:482-493) with the corrected colouring: an empty
      tree gets node as its black root, otherwise the descent places it. */
  function InsertFree(m: Memory, start: int, node: int, last: int, t: Tree): (r: Memory)
    requires Represents(m, GetRoot(m, start), t, last, start)
    requires start + MIN_BLOCK <= last && last + MIN_BLOCK <= node
    requires MIN_BLOCK <= GetSize(m, node)
    ensures forall a | !IsLinkWord(t, a) && a != start + RIGHT && a != last + PARENT && a != node + LEFT
                       && a != node + RIGHT && a != node + PARENT && a != node
                       && a != FooterAt(node, GetSize(m, node)) :: r[a] == m[a]
  {
    var root := GetRoot(m, start);
    if root == last then InsertRootFixed(m, start, node, last)
    else InsertNode(m, root, node, last, t, start)
  }

  /** insert_node (mm.c:482-493) as written: the empty-tree branch
      blackens the header only. */
  function InsertFreeAsWritten(m: Memory, start: int, node: int, last: int, t: Tree): (r: Memory)
    requires Represents(m, GetRoot(m, start), t, last, start)
    requires start + MIN_BLOCK <= last && last + MIN_BLOCK <= node
    ensures t.Nil? ==> GetRoot(r, start) == node && ColorOf(r, node) == BLACK
  {
    var root := GetRoot(m, start);
    if root == last then InsertRootAsWritten(m, start, node, last)
    else InsertNode(m, root, node, last, t, start)
  }

  /** The corrected insert_node, without the balancing call, adds exactly
      the new block to the tree the prologue points at, and the new block
      keeps its valid boundary tags. */
  lemma InsertFreeRepresents(m: Memory, start: int, b: FreeBlock, last: int, t: Tree)
    requires Represents(m, GetRoot(m, start), t, last, start)
    requires Placeable(m, b, last, t) && AfterSentinel(start, last, b, t)
    ensures var r := InsertFree(m, start, b.addr, last, t);
            && Represents(r, GetRoot(r, start), Insert(t, b), last, start)
            && (HeaderValid(m, b.addr) ==> HeaderValid(r, b.addr))
            && GetSize(r, b.addr) == b.size
            && IsFreeBitBlock(r, b.addr) == IsFreeBitBlock(m, b.addr)
  {
    if GetRoot(m, start) == last {
      assert t == Nil;
      var r := InsertRootFixed(m, start, b.addr, last);
      assert Represents(r, b.addr, Leaf(b), last, start);
    } else {
      InsertBelowRoot(m, start, b, last, t);
    }
  }

  /** The descent case of insert_node: the prologue's root word is not a
      link word of the tree, and neither tag of the new block is. */
  lemma InsertBelowRoot(m: Memory, start: int, b: FreeBlock, last: int, t: Tree)
    requires Represents(m, GetRoot(m, start), t, last, start) && GetRoot(m, start) != last
    requires Placeable(m, b, last, t) && AfterSentinel(start, last, b, t)
    ensures var r := InsertNode(m, GetRoot(m, start), b.addr, last, t, start);
            && Represents(r, GetRoot(r, start), InsertBelow(t, b), last, start)
            && (HeaderValid(m, b.addr) ==> HeaderValid(r, b.addr))
            && r[b.addr] == m[b.addr]
  {
    var node := b.addr;
    var root := GetRoot(m, start);
    var r := InsertNode(m, root, node, last, t, start);
    InsertNodeRepresents(m, root, b, last, t, start);
    var footer := FooterAt(node, b.size);
    NotLinkWords(t, b, start, last);
    assert r[start + RIGHT] == m[start + RIGHT];
    assert r[node] == m[node];
    assert r[footer] == m[footer];
  }

  /** The prologue's root word and the new block's two tags lie outside
      every block of the tree, so none of them is a link word. */
  lemma NotLinkWords(t: Tree, b: FreeBlock, start: int, last: int)
    requires Laid(t) && MIN_BLOCK <= b.size
    requires forall x | x in Members(t) :: Disjoint(x, b)
    requires AfterSentinel(start, last, b, t)
    ensures !IsLinkWord(t, start + RIGHT)
    ensures !IsLinkWord(t, b.addr)
    ensures !IsLinkWord(t, FooterAt(b.addr, b.size))
  {
    LaidMembersAreBlocks(t);
    var footer := FooterAt(b.addr, b.size);
    forall y | y in Members(t)
      ensures start + RIGHT != y.addr + LEFT && start + RIGHT != y.addr + RIGHT
      ensures footer != y.addr + LEFT && footer != y.addr + RIGHT
      ensures b.addr != y.addr + LEFT && b.addr != y.addr + RIGHT
    {
      assert Disjoint(y, b) && MIN_BLOCK <= y.size;
    }
  }

  // ---------------------------------------------------------------------
  // Neighbours of a tree block
  // ---------------------------------------------------------------------

  /** Address a is the sentinel, the block the tree hangs from, or the
      address of a tree block that does not overlap x. */
  predicate Neighbour(t: Tree, a: int, last: int, up: int, x: FreeBlock) {
    || a == last
    || a == up
    || exists y | y in Members(t) :: y.addr == a && Disjoint(x, y)
  }

  /** The left, right and parent words of every block of a represented,
      laid-out tree point at neighbours: the sentinel, the block above the
      tree, or another tree block. */
  lemma {:induction false} LinksAreNeighbours(m: Memory, a: int, t: Tree, last: int, up: int, x: FreeBlock)
    requires Represents(m, a, t, last, up) && Laid(t) && x in Members(t)
    ensures Neighbour(t, GetLeft(m, x.addr), last, up, x)
    ensures Neighbour(t, GetRight(m, x.addr), last, up, x)
    ensures Neighbour(t, GetParent(m, x.addr), last, up, x)
    decreases t
  {
    var Node(l, b, r) := t;
    if x == b {
      if l.Node? {
        assert l.blk in Members(l) && Disjoint(x, l.blk);
      }
      if r.Node? {
        assert r.blk in Members(r) && Disjoint(x, r.blk);
      }
    } else if x in Members(l) {
      LinksAreNeighbours(m, GetLeft(m, a), l, last, a, x);
      NeighbourLifts(t, l, last, up, x, GetLeft(m, x.addr));
      NeighbourLifts(t, l, last, up, x, GetRight(m, x.addr));
      NeighbourLifts(t, l, last, up, x, GetParent(m, x.addr));
    } else {
      LinksAreNeighbours(m, GetRight(m, a), r, last, a, x);
      NeighbourLifts(t, r, last, up, x, GetLeft(m, x.addr));
      NeighbourLifts(t, r, last, up, x, GetRight(m, x.addr));
      NeighbourLifts(t, r, last, up, x, GetParent(m, x.addr));
    }
  }

  /** A neighbour within a subtree, which hangs from the node above it, is
      a neighbour within the whole tree. */
  lemma NeighbourLifts(t: Tree, s: Tree, last: int, up: int, x: FreeBlock, v: int)
    requires t.Node? && Laid(t) && (s == t.left || s == t.right) && x in Members(s)
    requires Neighbour(s, v, last, t.blk.addr, x)
    ensures Neighbour(t, v, last, up, x)
  {
    if v == t.blk.addr {
      assert t.blk in Members(t) && Disjoint(x, t.blk);
    } else if v != last {
      var y :| y in Members(s) && y.addr == v && Disjoint(x, y);
      assert y in Members(t);
    }
  }
}

=== FILE: free_tree.dfy ===
/** The free-block index of mm.c as an abstract binary search tree.

    Each node is a free block (its address and size). The source keeps the
    tree inside the blocks themselves and uses the sentinel block as the nil
    leaf; here Nil plays that role. The intended order is: every size in a
    node's left subtree is strictly smaller than the node's size, every size
    in its right subtree is at least as large (equal sizes go right).

    Search is __tree_search__ (mm.c:502-515); InsertBelow and Insert are the
    descent-and-placement part of __insert_node__ and insert_node
    (mm.c:482-493, 518-532), without the rebalancing step. */
module FreeTree {
  import opened Wrappers

  datatype FreeBlock = FreeBlock(addr: int, size: int)

  datatype Tree = Nil | Node(left: Tree, blk: FreeBlock, right: Tree)

  /** The blocks held by a tree. */
  function Members(t: Tree): set<FreeBlock> {
    match t
    case Nil => {}
    case Node(l, b, r) => Members(l) + {b} + Members(r)
  }

  /** Left < node <= right at every node. */
  predicate IsBST(t: Tree) {
    match t
    case Nil => true
    case Node(l, b, r) =>
      && IsBST(l)
      && IsBST(r)
      && (forall x | x in Members(l) :: x.size < b.size)
      && (forall x | x in Members(r) :: b.size <= x.size)
  }

  /** Symmetric-order traversal; it lists exactly the tree's members. */
  function InOrder(t: Tree): (s: seq<FreeBlock>)
    ensures forall x :: x in s <==> x in Members(t)
  {
    match t
    case Nil => []
    case Node(l, b, r) => InOrder(l) + [b] + InOrder(r)
  }

  predicate SortedBySize(s: seq<FreeBlock>) {
    forall i, j | 0 <= i < j < |s| :: s[i].size <= s[j].size
  }

  /** Joining two sorted lists around a middle element that separates them
      gives a sorted list. */
  lemma SortedJoin(sl: seq<FreeBlock>, b: FreeBlock, sr: seq<FreeBlock>)
    requires SortedBySize(sl) && SortedBySize(sr)
    requires forall i | 0 <= i < |sl| :: sl[i].size <= b.size
    requires forall i | 0 <= i < |sr| :: b.size <= sr[i].size
    ensures SortedBySize(sl + [b] + sr)
  {
    var s := sl + [b] + sr;
    forall i, j | 0 <= i < j < |s|
      ensures s[i].size <= s[j].size
    {
      if j > |sl| {
        assert s[j] == sr[j - |sl| - 1];
      }
      if i > |sl| {
        assert s[i] == sr[i - |sl| - 1];
      }
    }
  }

  /** An ordered tree lists its blocks in non-decreasing size order. */
  lemma {:induction false} InOrderOfBSTIsSorted(t: Tree)
    requires IsBST(t)
    ensures SortedBySize(InOrder(t))
  {
    match t
    case Nil =>
    case Node(l, b, r) =>
      InOrderOfBSTIsSorted(l);
      InOrderOfBSTIsSorted(r);
      var sl, sr := InOrder(l), InOrder(r);
      assert forall i | 0 <= i < |sl| :: sl[i] in Members(l);
      assert forall i | 0 <= i < |sr| :: sr[i] in Members(r);
      SortedJoin(sl, b, sr);
  }

  // ---------------------------------------------------------------------
  // Best-fit search
  // ---------------------------------------------------------------------

  /** __tree_search__ (mm.c:502-515): a node smaller than the request sends
      the search right; otherwise the left subtree is searched first and the
      node itself is the fallback. Whatever is found is a member at least as
      large as the request. */
  function Search(t: Tree, size: int): (r: Option<FreeBlock>)
    ensures r.Some? ==> r.value in Members(t) && size <= r.value.size
  {
    match t
    case Nil => None
    case Node(l, b, rt) =>
      if b.size < size then
        Search(rt, size)
      else
        match Search(l, size)
        case None => Some(b)
        case Some(x) => Some(x)
  }

  /** On an ordered tree the search is a best fit: it finds nothing exactly
      when no member is large enough, and otherwise a member of the least
      qualifying size. */
  lemma {:induction false} SearchIsBestFit(t: Tree, size: int)
    requires IsBST(t)
    ensures Search(t, size).None? <==> forall x | x in Members(t) :: x.size < size
    ensures Search(t, size).Some? ==>
              forall x | x in Members(t) && size <= x.size :: Search(t, size).value.size <= x.size
  {
    match t
    case Nil =>
    case Node(l, b, r) =>
      SearchIsBestFit(l, size);
      SearchIsBestFit(r, size);
      if b.size < size {
        assert forall x | x in Members(l) :: x.size < size;
      }
  }

  // ---------------------------------------------------------------------
  // Insertion (descent and placement)
  // ---------------------------------------------------------------------

  function Leaf(b: FreeBlock): Tree {
    Node(Nil, b, Nil)
  }

  /** __insert_node__ (mm.c:518-532) without __insert_balance__: go left
      exactly when the node's size is strictly greater than the new block's,
      and hang the block in the first empty child slot met. */
  function InsertBelow(root: Tree, b: FreeBlock): (r: Tree)
    requires root.Node?
    ensures r.Node? && r.blk == root.blk
    ensures Members(r) == Members(root) + {b}
    decreases root
  {
    if root.blk.size > b.size then
      if root.left.Nil? then root.(left := Leaf(b))
      else root.(left := InsertBelow(root.left, b))
    else
      if root.right.Nil? then root.(right := Leaf(b))
      else root.(right := InsertBelow(root.right, b))
  }

  /** insert_node (mm.c:482-493): an empty tree gets the block as its root
      with two nil children; otherwise the block is placed by InsertBelow. */
  function Insert(t: Tree, b: FreeBlock): (r: Tree)
    ensures r.Node?
    ensures Members(r) == Members(t) + {b}
  {
    if t.Nil? then Leaf(b) else InsertBelow(t, b)
  }

  /** Placement keeps the tree ordered. */
  lemma {:induction false} InsertKeepsOrder(t: Tree, b: FreeBlock)
    requires IsBST(t)
    ensures IsBST(Insert(t, b))
  {
    match t
    case Nil =>
    case Node(l, x, r) =>
      if x.size > b.size {
        InsertKeepsOrder(l, b);
        assert Insert(t, b) == Node(Insert(l, b), x, r);
      } else {
        InsertKeepsOrder(r, b);
        assert Insert(t, b) == Node(l, x, Insert(r, b));
      }
  }

  // ---------------------------------------------------------------------
  // Reference definition: insertion into a size-sorted list
  // ---------------------------------------------------------------------

  /** Inserts b before the first element strictly larger than it, that is,
      after every element of equal size. */
  function InsertSorted(s: seq<FreeBlock>, b: FreeBlock): (r: seq<FreeBlock>)
    ensures |r| == |s| + 1
  {
    if s == [] then [b]
    else if b.size < s[0].size then [b] + s
    else [s[0]] + InsertSorted(s[1..], b)
  }

  /** Position of the first element strictly larger than b. */
  function SplitPoint(s: seq<FreeBlock>, b: FreeBlock): (k: nat)
    ensures k <= |s|
    ensures forall i | 0 <= i < k :: s[i].size <= b.size
    ensures k < |s| ==> b.size < s[k].size
  {
    if s == [] || b.size < s[0].size then 0 else 1 + SplitPoint(s[1..], b)
  }

  /** InsertSorted puts b at the split point: after every element not larger
      than b and, when the list is sorted, before every larger one. */
  lemma {:induction false} InsertSortedSplits(s: seq<FreeBlock>, b: FreeBlock)
    ensures InsertSorted(s, b) == s[..SplitPoint(s, b)] + [b] + s[SplitPoint(s, b)..]
    ensures SortedBySize(s) ==>
              forall i | SplitPoint(s, b) <= i < |s| :: b.size < s[i].size
  {
    InsertSortedAtSplitPoint(s, b);
    var k := SplitPoint(s, b);
    if SortedBySize(s) && k < |s| {
      forall i | k <= i < |s|
        ensures b.size < s[i].size
      {
        assert s[k].size <= s[i].size;
      }
    }
  }

  lemma {:induction false} InsertSortedAtSplitPoint(s: seq<FreeBlock>, b: FreeBlock)
    ensures InsertSorted(s, b) == s[..SplitPoint(s, b)] + [b] + s[SplitPoint(s, b)..]
  {
    var k := SplitPoint(s, b);
    if s == [] {
    } else if b.size < s[0].size {
      assert k == 0;
      assert s[..0] == [] && s[0..] == s;
    } else {
      var t := s[1..];
      InsertSortedAtSplitPoint(t, b);
      var j := SplitPoint(t, b);
      assert k == j + 1;
      assert InsertSorted(s, b) == [s[0]] + InsertSorted(t, b);
      assert InsertSorted(t, b) == t[..j] + [b] + t[j..];
      assert s[..k] == [s[0]] + t[..j];
      assert s[k..] == t[j..];
    }
  }

  /** InsertSorted adds exactly b. */
  lemma {:induction false} InsertSortedAddsOne(s: seq<FreeBlock>, b: FreeBlock)
    ensures multiset(InsertSorted(s, b)) == multiset(s) + multiset{b}
  {
    if s != [] && !(b.size < s[0].size) {
      InsertSortedAddsOne(s[1..], b);
      assert s == [s[0]] + s[1..];
    }
  }

  /** Inserting into a sorted list keeps it sorted. */
  lemma InsertSortedKeepsSorted(s: seq<FreeBlock>, b: FreeBlock)
    requires SortedBySize(s)
    ensures SortedBySize(InsertSorted(s, b))
  {
    InsertSortedSplits(s, b);
    var k := SplitPoint(s, b);
    var r := InsertSorted(s, b);
    forall i, j | 0 <= i < j < |r|
      ensures r[i].size <= r[j].size
    {
      if j < k {
        assert r[i] == s[i] && r[j] == s[j];
      } else if j == k {
        assert r[i] == s[i];
      } else if i < k {
        assert r[i] == s[i] && r[j] == s[j - 1];
      } else if i == k {
        assert r[j] == s[j - 1];
      } else {
        assert r[i] == s[i - 1] && r[j] == s[j - 1];
      }
    }
  }

  /** A prefix bigger than b is passed over unchanged. */
  lemma {:induction false} InsertSortedSkipsPrefix(p: seq<FreeBlock>, q: seq<FreeBlock>, b: FreeBlock)
    requires forall i | 0 <= i < |p| :: p[i].size <= b.size
    ensures InsertSorted(p + q, b) == p + InsertSorted(q, b)
  {
    if p != [] {
      var pq := p + q;
      assert pq != [] && pq[0] == p[0];
      assert pq[1..] == p[1..] + q;
      assert !(b.size < pq[0].size);
      assert InsertSorted(pq, b) == [p[0]] + InsertSorted(p[1..] + q, b);
      InsertSortedSkipsPrefix(p[1..], q, b);
      assert p == [p[0]] + p[1..];
    } else {
      assert p + q == q;
    }
  }

  /** Whatever follows an element larger than b is left untouched. */
  lemma {:induction false} InsertSortedStopsAtLarger(p: seq<FreeBlock>, x: FreeBlock, q: seq<FreeBlock>, b: FreeBlock)
    requires b.size < x.size
    ensures InsertSorted(p + [x] + q, b) == InsertSorted(p, b) + [x] + q
  {
    var s := p + [x] + q;
    if p == [] {
      assert s == [x] + q;
    } else {
      assert s != [] && s[0] == p[0];
      assert s[1..] == p[1..] + [x] + q;
      InsertSortedStopsAtLarger(p[1..], x, q, b);
      if b.size < p[0].size {
      } else {
        assert InsertSorted(s, b) == [p[0]] + InsertSorted(p[1..] + [x] + q, b);
        assert InsertSorted(p, b) == [p[0]] + InsertSorted(p[1..], b);
      }
    }
  }

  /** With an ordered left subtree below x and x not larger than b, nothing
      in InOrder(l) + [x] is larger than b. */
  lemma PrefixNotLarger(l: Tree, x: FreeBlock, b: FreeBlock)
    requires forall y | y in Members(l) :: y.size < x.size
    requires x.size <= b.size
    ensures forall i | 0 <= i < |InOrder(l) + [x]| :: (InOrder(l) + [x])[i].size <= b.size
  {
    var p := InOrder(l) + [x];
    forall i | 0 <= i < |p|
      ensures p[i].size <= b.size
    {
      if i < |InOrder(l)| {
        assert p[i] in Members(l);
      }
    }
  }

  /** Placement in the tree is insertion into its in-order list: the block
      lands after every member of equal or smaller size and before every
      larger one, and nothing else moves. */
  lemma {:induction false} InsertMatchesSortedInsert(t: Tree, b: FreeBlock)
    requires IsBST(t)
    ensures InOrder(Insert(t, b)) == InsertSorted(InOrder(t), b)
  {
    match t
    case Nil =>
    case Node(l, x, r) =>
      if x.size > b.size {
        InsertMatchesSortedInsert(l, b);
        assert Insert(t, b) == Node(Insert(l, b), x, r);
        assert InOrder(Insert(t, b)) == InOrder(Insert(l, b)) + [x] + InOrder(r);
        InsertSortedStopsAtLarger(InOrder(l), x, InOrder(r), b);
      } else {
        InsertMatchesSortedInsert(r, b);
        assert Insert(t, b) == Node(l, x, Insert(r, b));
        assert InOrder(Insert(t, b)) == InOrder(l) + [x] + InOrder(Insert(r, b));
        var p := InOrder(l) + [x];
        PrefixNotLarger(l, x, b);
        InsertSortedSkipsPrefix(p, InOrder(r), b);
        assert InOrder(t) == p + InOrder(r);
      }
  }

  /** The in-order sequence gains exactly the new block and stays sorted. */
  lemma InsertAddsExactlyOne(t: Tree, b: FreeBlock)
    requires IsBST(t)
    ensures multiset(InOrder(Insert(t, b))) == multiset(InOrder(t)) + multiset{b}
    ensures SortedBySize(InOrder(Insert(t, b)))
  {
    InsertMatchesSortedInsert(t, b);
    InsertSortedAddsOne(InOrder(t), b);
    InOrderOfBSTIsSorted(t);
    InsertSortedKeepsSorted(InOrder(t), b);
  }
}

=== FILE: heap_check.dfy ===
/** mm_check's linear walk over the heap (mm.c:282-345), and the tiling
    predicate the allocator keeps: the blocks from the prologue onwards
    cover the heap exactly, each with equal boundary tags.

    mm_check stops the program (Exit) at the first misplaced or
    header-invalid block; here that is the verdict Corrupt. A block whose
    size reads as zero (or less) makes the source loop forever; here that is
    the verdict NoProgress. */
module HeapCheck {
  import opened Tags
  import opened Blocks

  datatype Verdict = Consistent | Corrupt(at: int) | NoProgress(at: int)

  /** mm_check from block p, with lo = mem_heap_lo() and hi = mem_heap_hi(),
      the address of the last heap byte. A Corrupt verdict names a visited
      block that is out of bounds, misaligned or header-invalid; a
      NoProgress verdict names a valid block whose size does not move the
      walk forward. */
  function CheckFrom(m: Memory, p: int, lo: int, hi: int): (v: Verdict)
    ensures v.Corrupt? ==>
              && p <= v.at
              && (v.at < lo || v.at > hi || (v.at + WORD) % ALIGNMENT != 0 || !HeaderValid(m, v.at))
    ensures v.NoProgress? ==> p <= v.at < hi && HeaderValid(m, v.at) && GetSize(m, v.at) <= 0
    decreases hi - p
  {
    if hi <= p then Consistent
    else if p < lo || p > hi || (p + WORD) % ALIGNMENT != 0 then Corrupt(p)
    else if !HeaderValid(m, p) then Corrupt(p)
    else if GetAfter(m, p) <= p then NoProgress(p)
    else CheckFrom(m, GetAfter(m, p), lo, hi)
  }

  /** The blocks starting at p cover [p, end) exactly: each one has a
      positive size, equal boundary tags, and ends at or before end. */
  predicate Tiled(m: Memory, p: int, end: int)
    decreases end - p
  {
    p == end
    || (&& p < end
        && 0 < GetSize(m, p)
        && GetAfter(m, p) <= end
        && HeaderValid(m, p)
        && Tiled(m, GetAfter(m, p), end))
  }

  /** A tiled heap passes mm_check: the walk from an aligned block at or
      above the heap's low end visits only aligned, header-valid blocks
      and stops exactly at the end. */
  lemma {:induction false} TiledPassesCheck(m: Memory, p: int, lo: int, end: int)
    requires Tiled(m, p, end)
    requires lo <= p && (p + WORD) % ALIGNMENT == 0
    ensures CheckFrom(m, p, lo, end - 1) == Consistent
    decreases end - p
  {
    if p < end - 1 {
      var next := GetAfter(m, p);
      AlignedStep(p, GetSize(m, p));
      TiledPassesCheck(m, next, lo, end);
    }
  }

  /** The converse: when mm_check passes, the blocks from p tile the heap
      up to a block boundary at or past hi, and p itself is aligned and at
      or above lo unless the walk was empty. */
  lemma {:induction false} CheckPassedIsTiled(m: Memory, p: int, lo: int, hi: int)
    requires CheckFrom(m, p, lo, hi) == Consistent
    ensures p < hi ==> lo <= p && (p + WORD) % ALIGNMENT == 0
    ensures exists end :: hi <= end && Tiled(m, p, end)
    decreases hi - p
  {
    if hi <= p {
      assert Tiled(m, p, p);
    } else {
      var next := GetAfter(m, p);
      CheckPassedIsTiled(m, next, lo, hi);
      var end :| hi <= end && Tiled(m, next, end);
      assert Tiled(m, p, end);
    }
  }

  /** Stepping over an aligned size keeps a header at 4 modulo 8. */
  lemma AlignedStep(p: int, n: int)
    requires (p + WORD) % ALIGNMENT == 0 && n % ALIGNMENT == 0
    ensures (p + n + WORD) % ALIGNMENT == 0
  {
  }

  /** Tiled reads only the words of [p, end). */
  lemma {:induction false} TiledFrame(m: Memory, m': Memory, p: int, end: int)
    requires Tiled(m, p, end)
    requires forall a | p <= a < end :: m'[a] == m[a]
    ensures Tiled(m', p, end)
    decreases end - p
  {
    if p != end {
      assert m'[p] == m[p];
      assert m'[FooterAt(p, GetSize(m, p))] == m[FooterAt(p, GetSize(m, p))];
      TiledFrame(m, m', GetAfter(m, p), end);
    }
  }

  /** Two adjacent tilings make one. */
  lemma {:induction false} TiledJoin(m: Memory, p: int, q: int, end: int)
    requires Tiled(m, p, q) && Tiled(m, q, end)
    ensures Tiled(m, p, end)
    decreases q - p
  {
    if p != q {
      TiledJoin(m, GetAfter(m, p), q, end);
    }
  }

  /** A tiling never runs backwards. */
  lemma {:induction false} TiledOrdered(m: Memory, p: int, end: int)
    requires Tiled(m, p, end)
    ensures p <= end
    decreases end - p
  {
    if p != end {
      TiledOrdered(m, GetAfter(m, p), end);
    }
  }

  /** In a tiling that reaches past p, getbefore(end) is the block tiled
      last: its footer is the word just below end, so subtracting that
      size lands on its header. */
  lemma {:induction false} GetBeforeIsPrevious(m: Memory, p: int, end: int)
    requires Tiled(m, p, end) && p < end
    ensures var prev := GetBefore(m, end);
            && p <= prev < end
            && Tiled(m, p, prev)
            && GetAfter(m, prev) == end
            && HeaderValid(m, prev)
    decreases end - p
  {
    var next := GetAfter(m, p);
    if next == end {
      assert FooterAt(p, GetSize(m, p)) == end - WORD;
      assert GetBefore(m, end) == p;
    } else {
      GetBeforeIsPrevious(m, next, end);
    }
  }

  /** A block that is the first of a tiling, repacked with the same size,
      keeps the heap tiled. */
  lemma RepackKeepsTiling(m: Memory, start: int, p: int, end: int, bits: Bits3)
    requires Tiled(m, start, p) && Tiled(m, p, end) && p < end
    ensures Tiled(Pack(m, p, GetSize(m, p), bits), start, end)
  {
    assert Tiled(m, GetAfter(m, p), end);
    MergeKeepsTiling(m, start, p, GetSize(m, p), GetAfter(m, p), end, bits);
  }

  /** A block packed right at the end of a tiling extends it to e, the
      end of the new block. */
  lemma ExtendTiling(m: Memory, start: int, end: int, size: int, e: int, bits: Bits3)
    requires Tiled(m, start, end)
    requires 0 < size && size % ALIGNMENT == 0 && e == end + size
    ensures Tiled(Pack(m, end, size, bits), start, e)
  {
    assert Tiled(m, e, e);
    MergeKeepsTiling(m, start, end, size, e, e, bits);
  }

  /** Packing one block of the given size at p, between a tiling that
      ends at p and one that starts where the block ends, tiles the whole
      heap with the new block on the walk: this is what every coalescing
      step of mm_free does. */
  lemma MergeKeepsTiling(m: Memory, start: int, p: int, size: int, q: int, end: int, bits: Bits3)
    requires Tiled(m, start, p) && Tiled(m, q, end) && p + size == q
    requires 0 < size && size % ALIGNMENT == 0
    ensures var r := Pack(m, p, size, bits);
            && Tiled(r, start, end) && OnWalk(r, start, p, end)
            && GetAfter(r, p) == q
  {
    var r := Pack(m, p, size, bits);
    PositiveAlignedIsBig(size);
    PackFrame(m, p, size, bits);
    TiledOrdered(m, start, p);
    TiledOrdered(m, q, end);
    TiledFrame(m, r, start, p);
    TiledFrame(m, r, q, end);
    assert GetSize(r, p) == size && HeaderValid(r, p);
    assert Tiled(r, p, end);
    TiledJoin(r, start, p, end);
  }

  // ---------------------------------------------------------------------
  // Tag words and blocks on the walk
  // ---------------------------------------------------------------------

  /** a is the header or the footer of a block visited by the walk from p
      to end. */
  predicate IsTagWord(m: Memory, p: int, end: int, a: int)
    decreases end - p
  {
    && p < end
    && 0 < GetSize(m, p)
    && (|| a == p
        || a == FooterAt(p, GetSize(m, p))
        || IsTagWord(m, GetAfter(m, p), end, a))
  }

  /** Block x is one the walk from start visits before reaching end. */
  predicate OnWalk(m: Memory, start: int, x: int, end: int) {
    Tiled(m, start, x) && Tiled(m, x, end) && x < end
  }

  /** A tiling depends only on its tag words: any memory that agrees on
      them is tiled the same way. */
  lemma {:induction false} TiledAgree(m: Memory, m': Memory, p: int, end: int)
    requires Tiled(m, p, end)
    requires forall a | IsTagWord(m, p, end, a) :: m'[a] == m[a]
    ensures Tiled(m', p, end)
    decreases end - p
  {
    if p != end {
      var size := GetSize(m, p);
      assert IsTagWord(m, p, end, p);
      assert IsTagWord(m, p, end, FooterAt(p, size));
      assert GetSize(m', p) == size;
      forall a | IsTagWord(m, GetAfter(m, p), end, a)
        ensures m'[a] == m[a]
      {
        assert IsTagWord(m, p, end, a);
      }
      TiledAgree(m, m', GetAfter(m, p), end);
    }
  }

  /** The tag words of a tiling lie inside it. */
  lemma {:induction false} TagWordInside(m: Memory, p: int, end: int, a: int)
    requires Tiled(m, p, end) && IsTagWord(m, p, end, a)
    ensures p <= a < end
    decreases end - p
  {
    var next := GetAfter(m, p);
    if a != p && a != FooterAt(p, GetSize(m, p)) {
      TagWordInside(m, next, end, a);
    }
  }

  /** A tag word of a tiling through x is a tag word of the part before x
      or of the part from x on. */
  lemma {:induction false} TagWordSplit(m: Memory, p: int, x: int, end: int, a: int)
    requires Tiled(m, p, x) && IsTagWord(m, p, end, a)
    ensures IsTagWord(m, p, x, a) || IsTagWord(m, x, end, a)
    decreases x - p
  {
    if p != x {
      var next := GetAfter(m, p);
      if a != p && a != FooterAt(p, GetSize(m, p)) {
        TagWordSplit(m, next, x, end, a);
      }
    }
  }

  /** A word strictly between the tags of a block on the walk is no tag
      word of the walk. */
  lemma InteriorIsNotTag(m: Memory, start: int, x: int, end: int, a: int)
    requires OnWalk(m, start, x, end)
    requires x < a < FooterAt(x, GetSize(m, x))
    ensures !IsTagWord(m, start, end, a)
  {
    if IsTagWord(m, start, end, a) {
      TagWordSplit(m, start, x, end, a);
      if IsTagWord(m, start, x, a) {
        TagWordInside(m, start, x, a);
      } else {
        var next := GetAfter(m, x);
        assert IsTagWord(m, next, end, a);
        TagWordInside(m, next, end, a);
      }
    }
  }

  /** Two blocks on one walk start a tiling from the earlier to the later. */
  lemma {:induction false} TiledBetween(m: Memory, p: int, x: int, y: int)
    requires Tiled(m, p, x) && Tiled(m, p, y) && x <= y
    ensures Tiled(m, x, y)
    decreases y - p
  {
    if p != x {
      TiledOrdered(m, GetAfter(m, p), x);
      TiledBetween(m, GetAfter(m, p), x, y);
    }
  }

  /** Distinct blocks on one walk do not overlap. */
  lemma WalkBlocksApart(m: Memory, start: int, x: int, y: int, end: int)
    requires OnWalk(m, start, x, end) && OnWalk(m, start, y, end) && x < y
    ensures GetAfter(m, x) <= y
  {
    TiledBetween(m, start, x, y);
    TiledOrdered(m, GetAfter(m, x), y);
  }

  /** A tag word of the part of a tiling before x, or of the part from x
      on, is a tag word of the whole tiling. */
  lemma {:induction false} TagWordJoin(m: Memory, p: int, x: int, end: int, a: int)
    requires Tiled(m, p, x) && Tiled(m, x, end)
    requires IsTagWord(m, p, x, a) || IsTagWord(m, x, end, a)
    ensures IsTagWord(m, p, end, a)
    decreases x - p
  {
    if p != x {
      var next := GetAfter(m, p);
      TiledOrdered(m, x, end);
      if a != p && a != FooterAt(p, GetSize(m, p)) {
        TagWordJoin(m, next, x, end, a);
      }
    }
  }

  /** Writes that spare every tag word keep each block on the walk. */
  lemma TagsAgreeKeepWalk(m: Memory, m': Memory, start: int, x: int, end: int)
    requires OnWalk(m, start, x, end)
    requires forall a | IsTagWord(m, start, end, a) :: m'[a] == m[a]
    ensures OnWalk(m', start, x, end)
    ensures GetSize(m', x) == GetSize(m, x)
    ensures m'[x] == m[x] && m'[FooterAt(x, GetSize(m, x))] == m[FooterAt(x, GetSize(m, x))]
  {
    forall a | IsTagWord(m, start, x, a) || IsTagWord(m, x, end, a)
      ensures m'[a] == m[a]
    {
      TagWordJoin(m, start, x, end, a);
    }
    TiledAgree(m, m', start, x);
    TiledAgree(m, m', x, end);
    assert IsTagWord(m, x, end, x);
    assert IsTagWord(m, x, end, FooterAt(x, GetSize(m, x)));
  }

  /** Retiling the stretch [p, q) of a tiling, leaving every word outside
      it alone, keeps every block outside the stretch on the walk, with its
      size. */
  lemma RetileKeepsWalk(m: Memory, m': Memory, start: int, p: int, q: int, end: int, v: int)
    requires Tiled(m, start, p) && Tiled(m, p, q) && Tiled(m, q, end)
    requires Tiled(m', p, q)
    requires forall a | a < p || q <= a :: m'[a] == m[a]
    requires OnWalk(m, start, v, end) && (v < p || q <= v)
    ensures OnWalk(m', start, v, end)
    ensures GetSize(m', v) == GetSize(m, v)
  {
    assert m'[v] == m[v];
    TiledJoin(m, start, p, q);
    TiledFrame(m, m', start, p);
    TiledFrame(m, m', q, end);
    TiledJoin(m', p, q, end);
    if v < p {
      TiledBetween(m, start, v, p);
      TiledFrame(m, m', start, v);
      TiledFrame(m, m', v, p);
      TiledJoin(m', v, p, end);
    } else {
      TiledBetween(m, start, q, v);
      TiledFrame(m, m', q, v);
      TiledFrame(m, m', v, end);
      TiledJoin(m', start, p, q);
      TiledJoin(m', start, q, v);
    }
  }

  /** Writes that spare every tag word of the walk except the two of block
      p, and leave p header-valid with its size, keep the heap tiled and
      keep every block of the walk on it with its size. */
  lemma RetaggedKeepsWalk(m: Memory, m': Memory, start: int, p: int, end: int, v: int)
    requires OnWalk(m, start, p, end) && OnWalk(m, start, v, end)
    requires forall a | IsTagWord(m, start, end, a) && a != p && a != FooterAt(p, GetSize(m, p)) :: m'[a] == m[a]
    requires GetSize(m', p) == GetSize(m, p) && HeaderValid(m', p)
    ensures Tiled(m', start, end) && OnWalk(m', start, v, end)
    ensures GetSize(m', v) == GetSize(m, v)
    ensures v != p ==> m'[v] == m[v]
  {
    var q := GetAfter(m, p);
    assert Tiled(m, q, end) && Tiled(m, q, q) && Tiled(m, p, q);
    PositiveAlignedIsBig(GetSize(m, p));
    assert p < FooterAt(p, GetSize(m, p)) < q;
    TiledJoin(m, start, p, q);
    forall a | IsTagWord(m, start, p, a)
      ensures m'[a] == m[a]
    {
      TagWordJoin(m, start, p, end, a);
      TagWordInside(m, start, p, a);
    }
    forall a | IsTagWord(m, q, end, a)
      ensures m'[a] == m[a]
    {
      TagWordJoin(m, start, q, end, a);
      TagWordInside(m, q, end, a);
    }
    TiledAgree(m, m', start, p);
    TiledAgree(m, m', q, end);
    assert GetAfter(m', p) == q;
    assert Tiled(m', q, q) && Tiled(m', p, q);
    TiledJoin(m', p, q, end);
    TiledJoin(m', start, p, end);
    TiledJoin(m', start, p, q);
    if v < p {
      TiledBetween(m, start, v, p);
      TagsAgreeKeepWalk(m, m', start, v, p);
      TiledJoin(m', v, p, end);
    } else if v > p {
      WalkBlocksApart(m, start, p, v, end);
      TiledBetween(m, start, q, v);
      TagsAgreeKeepWalk(m, m', q, v, end);
      TiledJoin(m', start, q, v);
    }
  }

  /** Retiling [p, q) also tiles the whole heap. */
  lemma RetileKeepsTiling(m: Memory, m': Memory, start: int, p: int, q: int, end: int)
    requires Tiled(m, start, p) && Tiled(m, q, end)
    requires Tiled(m', p, q)
    requires forall a | a < p || q <= a :: m'[a] == m[a]
    ensures Tiled(m', start, end) && Tiled(m', start, p) && Tiled(m', p, end)
  {
    TiledFrame(m, m', start, p);
    TiledFrame(m, m', q, end);
    TiledJoin(m', p, q, end);
    TiledJoin(m', start, p, end);
  }

  /** mm_check passes over a tiled prefix without stopping: the verdict
      from the start is the verdict from the end of the prefix. */
  lemma {:induction false} CheckSkipsTiled(m: Memory, p: int, x: int, lo: int, hi: int)
    requires Tiled(m, p, x) && lo <= p && (p + WORD) % ALIGNMENT == 0 && x <= hi
    ensures CheckFrom(m, p, lo, hi) == CheckFrom(m, x, lo, hi)
    decreases x - p
  {
    if p != x {
      AlignedStep(p, GetSize(m, p));
      CheckSkipsTiled(m, GetAfter(m, p), x, lo, hi);
    }
  }

  /** Every block the walk from an aligned block visits is aligned. */
  lemma {:induction false} WalkAligned(m: Memory, p: int, x: int)
    requires Tiled(m, p, x) && (p + WORD) % ALIGNMENT == 0
    ensures (x + WORD) % ALIGNMENT == 0
    decreases x - p
  {
    if p != x {
      AlignedStep(p, GetSize(m, p));
      WalkAligned(m, GetAfter(m, p), x);
    }
  }

  /** Packing two adjacent blocks tiles their joint extent, and each of
      them, and writes nothing outside it. */
  lemma SplitTiles(m: Memory, p: int, n: int, s: int, b1: Bits3, b2: Bits3)
    requires 0 < n && n % ALIGNMENT == 0 && 0 < s && s % ALIGNMENT == 0
    ensures var r := Pack(Pack(m, p, n, b1), p + n, s, b2);
            && Tiled(r, p, p + n) && Tiled(r, p + n, p + n + s) && Tiled(r, p, p + n + s)
            && GetSize(r, p) == n && LowBits(r[p]) == b1
            && GetSize(r, p + n) == s && LowBits(r[p + n]) == b2
            && (forall a | a < p || p + n + s <= a :: r[a] == m[a])
  {
    SplitTilesAt(m, p, n, p + n, s, p + n + s, b1, b2);
  }

  /** SplitTiles with the second block's start q and the joint end e
      named, so that no sum appears inside a memory term. */
  lemma SplitTilesAt(m: Memory, p: int, n: int, q: int, s: int, e: int, b1: Bits3, b2: Bits3)
    requires 0 < n && n % ALIGNMENT == 0 && 0 < s && s % ALIGNMENT == 0
    requires q == p + n && e == q + s
    ensures var r := Pack(Pack(m, p, n, b1), q, s, b2);
            && Tiled(r, p, q) && Tiled(r, q, e) && Tiled(r, p, e)
            && GetSize(r, p) == n && LowBits(r[p]) == b1
            && GetSize(r, q) == s && LowBits(r[q]) == b2
            && (forall a | a < p || e <= a :: r[a] == m[a])
  {
    var m1 := Pack(m, p, n, b1);
    var r := Pack(m1, q, s, b2);
    PositiveAlignedIsBig(n);
    PositiveAlignedIsBig(s);
    PackFrame(m, p, n, b1);
    PackFrame(m1, q, s, b2);
    assert r[p] == m1[p] && r[FooterAt(p, n)] == m1[FooterAt(p, n)];
    assert GetSize(r, p) == n && HeaderValid(r, p) && GetAfter(r, p) == q;
    assert Tiled(r, e, e) && Tiled(r, q, q);
    assert Tiled(r, q, e);
  }
}

=== FILE: heaps.dfy ===
/** The allocator's state and mm_init (mm.c:152-172).

    The heap is the word memory plus the bounds memlib reports and the two
    static block pointers: startblk, the prologue block whose right word
    holds the tree root, and lastblk, the sentinel block that stands for
    every empty subtree. mm_init places the sentinel right after the
    prologue, so every block mm_malloc later creates lies after it. */
module Heaps {
  import opened Wrappers
  import opened Tags
  import opened Blocks
  import opened Links
  import opened FreeTree
  import opened FreeIndex
  import opened HeapCheck

  /** mm_init's one mem_sbrk request (mm.c:153): a padding word, the
      prologue and the sentinel. */
  const INIT_BYTES: int := ALIGNMENT * 6 + WORD

  /** mem = the words, lo = mem_heap_lo(), brk = one past mem_heap_hi(),
      start = startblk, last = lastblk. mem_heap_hi(), the address of the
      last heap byte, is brk - 1. */
  datatype Heap = Heap(mem: Memory, lo: int, brk: int, start: int, last: int)

  /** The layout mm_init creates: an aligned heap, the prologue one word
      in, the sentinel right after it still carrying its ALC|BLACK tag,
      and the blocks from the prologue on tiling the heap up to the break. */
  predicate Shaped(h: Heap) {
    && h.lo % ALIGNMENT == 0
    && h.start == h.lo + WORD
    && h.last == h.start + MIN_BLOCK
    && h.mem[h.start] == Tag(MIN_BLOCK, ALC)
    && h.mem[h.last] == SENTINEL_TAG
    && h.last + MIN_BLOCK <= h.brk
    && Tiled(h.mem, h.start, h.brk)
  }

  /** A tree block as the allocator keeps it: a real block after the
      sentinel, on the heap walk, and free. */
  predicate Indexed(h: Heap, x: FreeBlock) {
    && h.last + MIN_BLOCK <= x.addr
    && OnWalk(h.mem, h.start, x.addr, h.brk)
    && IsFreeBitBlock(h.mem, x.addr)
  }

  /** A shaped heap whose prologue points at an ordered, laid-out tree of
      free blocks t. */
  predicate Good(h: Heap, t: Tree) {
    && Shaped(h)
    && Represents(h.mem, GetRoot(h.mem, h.start), t, h.last, h.start)
    && IsBST(t)
    && Laid(t)
    && forall x | x in Members(t) :: Indexed(h, x)
  }

  /** A block on the walk that is large enough to hold the three linkage
      words strictly between its tags. */
  predicate Slot(m: Memory, start: int, v: int, end: int) {
    OnWalk(m, start, v, end) && MIN_BLOCK <= GetSize(m, v)
  }

  /** mm_init, given what mem_sbrk returned: None when it failed ((void *)
      -1), otherwise the old break, which is the heap's low end. */
  function Init(m: Memory, grown: Option<int>): (r: Option<Heap>)
    ensures r.None? <==> grown.None?
    ensures r.Some? ==>
              && r.value.lo == grown.value
              && r.value.brk == grown.value + INIT_BYTES
              && r.value.start == grown.value + WORD
              && r.value.last == r.value.start + MIN_BLOCK
              && GetRoot(r.value.mem, r.value.start) == r.value.last
              && (grown.value % ALIGNMENT == 0 ==> Good(r.value, Nil))
  {
    match grown
    case None => None
    case Some(lo) =>
      InitLayout(m, lo);
      InitIsGood(m, lo);
      Some(InitHeap(m, lo))
  }

  function InitHeap(m: Memory, lo: int): Heap {
    Heap(InitMemory(m, lo), lo, lo + INIT_BYTES, lo + WORD, lo + WORD + MIN_BLOCK)
  }

  /** On an aligned heap mm_init leaves a good heap with an empty tree. */
  lemma InitIsGood(m: Memory, lo: int)
    ensures lo % ALIGNMENT == 0 ==> Good(InitHeap(m, lo), Nil)
  {
    if lo % ALIGNMENT == 0 {
      InitIsShaped(m, lo);
      InitLayout(m, lo);
      EmptyTreeIsGood(InitHeap(m, lo));
    }
  }

  /** A shaped heap whose root word holds the sentinel is good with the
      empty tree. */
  lemma EmptyTreeIsGood(h: Heap)
    requires Shaped(h) && GetRoot(h.mem, h.start) == h.last
    ensures Good(h, Nil)
  {
  }

  lemma InitIsShaped(m: Memory, lo: int)
    requires lo % ALIGNMENT == 0
    ensures Shaped(InitHeap(m, lo))
  {
    var h := InitHeap(m, lo);
    InitLayout(m, lo);
    assert h.brk == h.start + 2 * MIN_BLOCK;
  }

  /** The writes of mm_init (mm.c:158-170): pack the prologue ALC and the
      sentinel after it ALC|BLACK, hang the sentinel off the prologue's
      right word, and point the sentinel's own links back at the prologue. */
  function InitMemory(m: Memory, lo: int): Memory {
    var start := lo + WORD;
    var m1 := Pack(m, start, MIN_BLOCK, ALC);
    // getafter(p): the freshly packed prologue is MIN_BLOCK bytes long
    var last := start + MIN_BLOCK;
    var m2 := Pack(m1, last, MIN_BLOCK, Or3(ALC, BLACK));
    var m3 := SetRight(m2, start, last);
    var m4 := SetLeft(m3, last, start);
    SetRight(m4, last, start)
  }

  /** The words mm_init leaves: both tags of the prologue and of the
      sentinel, and the prologue's right word pointing at the sentinel. */
  lemma InitLayout(m: Memory, lo: int)
    ensures var r := InitMemory(m, lo);
            var start := lo + WORD;
            var last := start + MIN_BLOCK;
            && r[start] == Tag(MIN_BLOCK, ALC)
            && r[last] == SENTINEL_TAG
            && GetRoot(r, start) == last
            && Tiled(r, start, lo + INIT_BYTES)
  {
    var start := lo + WORD;
    var last := start + MIN_BLOCK;
    var t0 := Tag(MIN_BLOCK, ALC);
    var t2 := Tag(MIN_BLOCK, Or3(ALC, BLACK));
    var m1 := Pack(m, start, MIN_BLOCK, ALC);
    assert m1[start] == t0 && m1[start + 20] == t0;
    assert GetAfter(m1, start) == last;
    var m2 := Pack(m1, last, MIN_BLOCK, Or3(ALC, BLACK));
    assert m2[start] == t0 && m2[start + 20] == t0 && m2[last] == t2 && m2[last + 20] == t2;
    var m3 := SetRight(m2, start, last);
    assert m3[start] == t0 && m3[start + 20] == t0 && m3[last] == t2 && m3[last + 20] == t2;
    assert m3[start + RIGHT] == last;
    var m4 := SetLeft(m3, last, start);
    assert m4[start] == t0 && m4[start + 20] == t0 && m4[last] == t2 && m4[last + 20] == t2;
    assert m4[start + RIGHT] == last;
    var r := SetRight(m4, last, start);
    assert r[start] == t0 && r[start + 20] == t0 && r[last] == t2 && r[last + 20] == t2;
    assert r[start + RIGHT] == last;
    InitTiles(r, start);
  }

  /** Two MIN_BLOCK blocks tagged at both ends tile the first
      INIT_BYTES - WORD bytes from start. */
  lemma InitTiles(r: Memory, start: int)
    requires r[start] == Tag(MIN_BLOCK, ALC) && r[start + 20] == Tag(MIN_BLOCK, ALC)
    requires r[start + MIN_BLOCK] == SENTINEL_TAG && r[start + MIN_BLOCK + 20] == SENTINEL_TAG
    ensures Tiled(r, start, start + 2 * MIN_BLOCK)
  {
    var last := start + MIN_BLOCK;
    assert GetSize(r, start) == MIN_BLOCK && GetSize(r, last) == MIN_BLOCK;
    assert Tiled(r, last + MIN_BLOCK, last + MIN_BLOCK);
    assert Tiled(r, last, last + MIN_BLOCK);
  }

  /** mm_check (mm.c:282-345): the walk from startblk to mem_heap_hi(). */
  function CheckHeap(h: Heap): Verdict {
    CheckFrom(h.mem, h.start, h.lo, h.brk - 1)
  }

  /** mm_check on a heap with its words replaced is the walk over the new
      words between the same bounds; hi is mem_heap_hi(). */
  lemma CheckHeapOf(h: Heap, m: Memory, hi: int)
    requires hi == h.brk - 1
    ensures CheckHeap(h.(mem := m)) == CheckFrom(m, h.start, h.lo, hi)
  {
  }

  /** In a shaped heap the prologue header sits one word past an aligned
      low end. */
  lemma StartAligned(h: Heap)
    requires Shaped(h)
    ensures h.lo <= h.start && (h.start + WORD) % ALIGNMENT == 0
  {
  }

  /** A shaped heap passes mm_check. */
  lemma ShapedPassesCheck(h: Heap)
    requires Shaped(h)
    ensures CheckHeap(h) == Consistent
  {
    TiledPassesCheck(h.mem, h.start, h.lo, h.brk);
  }

  /** mm_init on an aligned heap leaves a heap mm_check accepts. */
  lemma InitPassesCheck(m: Memory, lo: int)
    requires lo % ALIGNMENT == 0
    ensures CheckHeap(Init(m, Some(lo)).value) == Consistent
  {
    ShapedPassesCheck(Init(m, Some(lo)).value);
  }

  /** The prologue and the sentinel are slots on the walk, in that order. */
  lemma FixedSlots(h: Heap)
    requires Shaped(h)
    ensures Slot(h.mem, h.start, h.start, h.brk) && Slot(h.mem, h.start, h.last, h.brk)
    ensures GetSize(h.mem, h.start) == MIN_BLOCK && GetSize(h.mem, h.last) == MIN_BLOCK
  {
    assert Tiled(h.mem, h.start, h.start);
    assert GetAfter(h.mem, h.start) == h.last;
    assert Tiled(h.mem, h.last, h.brk);
    assert Tiled(h.mem, h.last, h.last);
    assert Tiled(h.mem, h.start, h.last);
  }

  /** In a good heap every neighbour of a tree block x is a slot on the
      walk lying wholly before or after x. */
  lemma NeighbourIsSlot(h: Heap, t: Tree, x: FreeBlock, v: int)
    requires Good(h, t) && x in Members(t)
    requires Neighbour(t, v, h.last, h.start, x)
    ensures Slot(h.mem, h.start, v, h.brk)
    ensures v + GetSize(h.mem, v) <= x.addr || x.addr + x.size <= v
  {
    FixedSlots(h);
    MembersAreBlocksInMemory(h.mem, GetRoot(h.mem, h.start), t, h.last, h.start);
    LaidMembersAreBlocks(t);
    assert Indexed(h, x);
    if v != h.last && v != h.start {
      var y :| y in Members(t) && y.addr == v && Disjoint(x, y);
      assert Indexed(h, y);
    }
  }

  /** The linkage words of v are safe to write as far as the walk from
      start to end is concerned: v is a slot of that walk or lies beyond
      it. */
  predicate Spared(m: Memory, start: int, v: int, end: int) {
    Slot(m, start, v, end) || end <= v
  }

  /** The link writes of Relink land strictly inside slots or beyond the
      walk, so they spare every tag word of the walk and keep it tiled. */
  lemma RelinkSparesTags(m: Memory, start: int, end: int, blk: int, left: int, right: int, parent: int)
    requires Tiled(m, start, end)
    requires Spared(m, start, blk, end) && Spared(m, start, left, end)
    requires Spared(m, start, right, end) && Spared(m, start, parent, end)
    ensures forall a | IsTagWord(m, start, end, a) :: Relink(m, blk, left, right, parent)[a] == m[a]
    ensures Tiled(Relink(m, blk, left, right, parent), start, end)
  {
    SparedInterior(m, start, blk, end, LEFT);
    SparedInterior(m, start, blk, end, RIGHT);
    SparedInterior(m, start, blk, end, PARENT);
    SparedInterior(m, start, left, end, PARENT);
    SparedInterior(m, start, right, end, PARENT);
    SparedInterior(m, start, parent, end, LEFT);
    SparedInterior(m, start, parent, end, RIGHT);
    RelinkOffTags(m, start, end, blk, left, right, parent);
  }

  /** The linkage words of a spared block are no tag words of the walk. */
  lemma SparedInterior(m: Memory, start: int, v: int, end: int, k: int)
    requires Tiled(m, start, end) && Spared(m, start, v, end) && 0 < k < FIELDS
    ensures !IsTagWord(m, start, end, v + k)
  {
    if Slot(m, start, v, end) {
      InteriorIsNotTag(m, start, v, end, v + k);
    } else if IsTagWord(m, start, end, v + k) {
      TagWordInside(m, start, end, v + k);
    }
  }

  /** The same, stated against every tag word of the walk. */
  lemma SparedInteriorDiffers(m: Memory, start: int, v: int, end: int, k: int)
    requires Tiled(m, start, end) && Spared(m, start, v, end) && 0 < k < FIELDS
    ensures forall a | IsTagWord(m, start, end, a) :: a != v + k
  {
    SparedInterior(m, start, v, end, k);
  }

  /** Relink writes that are no tag words leave the tiling alone. */
  lemma RelinkOffTags(m: Memory, start: int, end: int, blk: int, left: int, right: int, parent: int)
    requires Tiled(m, start, end)
    requires !IsTagWord(m, start, end, blk + LEFT) && !IsTagWord(m, start, end, blk + RIGHT)
    requires !IsTagWord(m, start, end, blk + PARENT)
    requires !IsTagWord(m, start, end, left + PARENT) && !IsTagWord(m, start, end, right + PARENT)
    requires !IsTagWord(m, start, end, parent + LEFT) && !IsTagWord(m, start, end, parent + RIGHT)
    ensures forall a | IsTagWord(m, start, end, a) :: Relink(m, blk, left, right, parent)[a] == m[a]
    ensures Tiled(Relink(m, blk, left, right, parent), start, end)
  {
    RelinkKeepsTagWords(m, start, end, blk, left, right, parent);
    TiledAgree(m, Relink(m, blk, left, right, parent), start, end);
  }

  /** The tag words Relink does not write keep their values. */
  lemma RelinkKeepsTagWords(m: Memory, start: int, end: int, blk: int, left: int, right: int, parent: int)
    requires !IsTagWord(m, start, end, blk + LEFT) && !IsTagWord(m, start, end, blk + RIGHT)
    requires !IsTagWord(m, start, end, blk + PARENT)
    requires !IsTagWord(m, start, end, left + PARENT) && !IsTagWord(m, start, end, right + PARENT)
    requires !IsTagWord(m, start, end, parent + LEFT) && !IsTagWord(m, start, end, parent + RIGHT)
    ensures forall a | IsTagWord(m, start, end, a) :: Relink(m, blk, left, right, parent)[a] == m[a]
  {
    NotTagWord(m, start, end, blk + LEFT);
    NotTagWord(m, start, end, blk + RIGHT);
    NotTagWord(m, start, end, blk + PARENT);
    NotTagWord(m, start, end, left + PARENT);
    NotTagWord(m, start, end, right + PARENT);
    NotTagWord(m, start, end, parent + LEFT);
    NotTagWord(m, start, end, parent + RIGHT);
    forall a | IsTagWord(m, start, end, a)
      ensures Relink(m, blk, left, right, parent)[a] == m[a]
    {
      RelinkKeepsWord(m, blk, left, right, parent, a);
    }
  }

  /** Every tag word differs from a word that is not one. */
  lemma NotTagWord(m: Memory, start: int, end: int, w: int)
    requires !IsTagWord(m, start, end, w)
    ensures forall a | IsTagWord(m, start, end, a) :: a != w
  {
  }

  /** A word none of Relink's seven writes touches keeps its value. */
  lemma RelinkKeepsWord(m: Memory, blk: int, left: int, right: int, parent: int, a: int)
    requires a != blk + LEFT && a != blk + RIGHT && a != blk + PARENT
    requires a != left + PARENT && a != right + PARENT
    requires a != parent + LEFT && a != parent + RIGHT
    ensures Relink(m, blk, left, right, parent)[a] == m[a]
  {
  }

  /** Every tree block of a good heap is a full-size slot of the walk,
      after the sentinel and below the break, whose header holds its size. */
  lemma MembersAreSlots(h: Heap, t: Tree)
    requires Good(h, t)
    ensures forall x | x in Members(t) ::
              && Slot(h.mem, h.start, x.addr, h.brk)
              && GetSize(h.mem, x.addr) == x.size
              && h.last + MIN_BLOCK <= x.addr
              && x.addr + x.size <= h.brk
  {
    MembersAreBlocksInMemory(h.mem, GetRoot(h.mem, h.start), t, h.last, h.start);
    LaidMembersAreBlocks(t);
    forall x | x in Members(t)
      ensures Slot(h.mem, h.start, x.addr, h.brk) && x.addr + x.size <= h.brk
    {
      assert Indexed(h, x);
    }
  }

  /** Writing only at or above the break and tiling the new room keeps a
      heap good with the same tree; the old break becomes a block
      boundary. */
  lemma GrowKeepsGood(h: Heap, t: Tree, h': Heap)
    requires Good(h, t)
    requires h'.lo == h.lo && h'.start == h.start && h'.last == h.last
    requires forall a | a < h.brk :: h'.mem[a] == h.mem[a]
    requires Tiled(h'.mem, h.brk, h'.brk)
    ensures Good(h', t)
    ensures Tiled(h'.mem, h.start, h.brk)
  {
    var m, m' := h.mem, h'.mem;
    TiledFrame(m, m', h.start, h.brk);
    TiledJoin(m', h.start, h.brk, h'.brk);
    TiledOrdered(m', h.brk, h'.brk);
    MembersAreSlots(h, t);
    forall x | x in Members(t)
      ensures SameFields(m, m', x.addr) && Indexed(h', x)
    {
      assert Indexed(h, x);
      TiledFrame(m, m', h.start, x.addr);
      TiledFrame(m, m', x.addr, h.brk);
      TiledJoin(m', x.addr, h.brk, h'.brk);
    }
    assert GetRoot(m', h.start) == GetRoot(m, h.start);
    RepresentsFrame(m, m', GetRoot(m, h.start), t, h.last, h.start);
  }

  /** The tree neighbours of tree block b, and the prologue and the
      sentinel, are slots of the walk lying wholly outside b. */
  lemma NeighboursBeside(h: Heap, t: Tree, b: FreeBlock)
    requires Good(h, t) && b in Members(t)
    ensures var m, p, q := h.mem, b.addr, b.addr + b.size;
            && OnWalk(m, h.start, p, h.brk) && GetAfter(m, p) == q
            && Beside(m, h.start, h.start, h.brk, p, q)
            && Beside(m, h.start, h.last, h.brk, p, q)
            && Beside(m, h.start, GetLeft(m, p), h.brk, p, q)
            && Beside(m, h.start, GetRight(m, p), h.brk, p, q)
            && Beside(m, h.start, GetParent(m, p), h.brk, p, q)
  {
    var m, p := h.mem, b.addr;
    MembersAreSlots(h, t);
    LinksAreNeighbours(m, GetRoot(m, h.start), t, h.last, h.start, b);
    NeighbourIsSlot(h, t, b, h.start);
    NeighbourIsSlot(h, t, b, h.last);
    NeighbourIsSlot(h, t, b, GetLeft(m, p));
    NeighbourIsSlot(h, t, b, GetRight(m, p));
    NeighbourIsSlot(h, t, b, GetParent(m, p));
  }

  /** v is a slot of the walk lying wholly outside [p, q). */
  predicate Beside(m: Memory, start: int, v: int, end: int, p: int, q: int) {
    Slot(m, start, v, end) && (v + GetSize(m, v) <= p || q <= v)
  }

  /** Relinking a block whose neighbours are spared keeps the tiling and the
      tag words of the blocks named. */
  lemma RelinkKeepsWalk(m2: Memory, start: int, last: int, end: int, p: int, after: int,
                        left: int, right: int, parent: int)
    requires Tiled(m2, start, end)
    requires Slot(m2, start, p, end) && Slot(m2, start, after, end)
    requires Slot(m2, start, start, end) && Slot(m2, start, last, end)
    requires Spared(m2, start, left, end) && Spared(m2, start, right, end) && Spared(m2, start, parent, end)
    ensures var r := Relink(m2, after, left, right, parent);
            && Tiled(r, start, end)
            && r[start] == m2[start] && r[last] == m2[last]
            && OnWalk(r, start, p, end) && r[p] == m2[p]
            && OnWalk(r, start, after, end) && r[after] == m2[after]
  {
    RelinkSparesTags(m2, start, end, after, left, right, parent);
    var r := Relink(m2, after, left, right, parent);
    TagsAgreeKeepWalk(m2, r, start, p, end);
    TagsAgreeKeepWalk(m2, r, start, after, end);
    TagsAgreeKeepWalk(m2, r, start, start, end);
    TagsAgreeKeepWalk(m2, r, start, last, end);
  }
}

=== FILE: links.dfy ===
/** The free-tree linkage stored inside free blocks (mm.c:400-446, 461-463):
    getleft, getright, getparent, setleft, setright, setparent and getroot.

    Each setter writes two words: the link itself and the back link in the
    other block, so the helpers keep parent pointers in step with child
    pointers. */
module Links {
  import opened Tags
  import opened Blocks

  /** Word offsets of the linkage fields from the block header. */
  const LEFT: int := 4
  const RIGHT: int := 8
  const PARENT: int := 12
  /** Header plus the three linkage words. */
  const FIELDS: int := 16

  /** The header and linkage words of blocks a and b do not overlap. */
  predicate Apart(a: int, b: int) {
    a + FIELDS <= b || b + FIELDS <= a
  }

  /** getleft (mm.c:400-403). */
  function GetLeft(m: Memory, blk: int): int {
    m[blk + LEFT]
  }

  /** getright (mm.c:405-409). */
  function GetRight(m: Memory, blk: int): int {
    m[blk + RIGHT]
  }

  /** getparent (mm.c:412-416). */
  function GetParent(m: Memory, blk: int): int {
    m[blk + PARENT]
  }

  /** getroot (mm.c:461-463): the root hangs off the right link of the
      prologue block. */
  function GetRoot(m: Memory, start: int): int {
    GetRight(m, start)
  }

  /** setleft (mm.c:418-425): node becomes blk's left child and blk becomes
      node's parent; no other word changes. */
  function SetLeft(m: Memory, blk: int, node: int): (r: Memory)
    ensures GetParent(r, node) == blk
    ensures node + PARENT != blk + LEFT ==> GetLeft(r, blk) == node
    ensures forall a :: a != blk + LEFT && a != node + PARENT ==> r[a] == m[a]
  {
    m[blk + LEFT := node][node + PARENT := blk]
  }

  /** setright (mm.c:427-435): node becomes blk's right child and blk becomes
      node's parent; no other word changes. */
  function SetRight(m: Memory, blk: int, node: int): (r: Memory)
    ensures GetParent(r, node) == blk
    ensures node + PARENT != blk + RIGHT ==> GetRight(r, blk) == node
    ensures forall a :: a != blk + RIGHT && a != node + PARENT ==> r[a] == m[a]
  {
    m[blk + RIGHT := node][node + PARENT := blk]
  }

  /** setparent (mm.c:437-446): parent becomes blk's parent, and blk is
      stored in the parent's child slot chosen by size: right when blk is at
      least as large as the parent (ties go right), left otherwise. */
  function SetParent(m: Memory, blk: int, parent: int): (r: Memory)
    ensures Apart(blk, parent) ==> GetParent(r, blk) == parent
    ensures Apart(blk, parent) && GetSize(m, blk) >= GetSize(m, parent) ==>
              GetRight(r, parent) == blk && GetLeft(r, parent) == GetLeft(m, parent)
    ensures Apart(blk, parent) && GetSize(m, blk) < GetSize(m, parent) ==>
              GetLeft(r, parent) == blk && GetRight(r, parent) == GetRight(m, parent)
    ensures forall a :: a != blk + PARENT && a != parent + LEFT && a != parent + RIGHT ==>
              r[a] == m[a]
  {
    var m1 := m[blk + PARENT := parent];
    if GetSize(m1, blk) >= GetSize(m1, parent) then
      m1[parent + RIGHT := blk]
    else
      m1[parent + LEFT := blk]
  }

  /** The three setter calls by which a block takes over another block's
      place in the tree: setleft(blk, left), setright(blk, right),
      setparent(blk, parent) (mm.c:206-208 and mm.c:251-253). With the
      three blocks apart from blk, blk ends up holding exactly those links;
      only blk's linkage words, the parent words of the two children and a
      child slot of the parent are written. */
  function Relink(m: Memory, blk: int, left: int, right: int, parent: int): (r: Memory)
    ensures Apart(blk, left) && Apart(blk, right) && Apart(blk, parent) ==>
              && GetLeft(r, blk) == left
              && GetRight(r, blk) == right
              && GetParent(r, blk) == parent
    ensures forall a | a != blk + LEFT && a != blk + RIGHT && a != blk + PARENT
                       && a != left + PARENT && a != right + PARENT
                       && a != parent + LEFT && a != parent + RIGHT :: r[a] == m[a]
  {
    RelinkHoldsLinks(m, blk, left, right, parent);
    SetParent(SetRight(SetLeft(m, blk, left), blk, right), blk, parent)
  }

  /** The three links Relink writes into blk survive the later writes when
      the three blocks are apart from blk. */
  lemma RelinkHoldsLinks(m: Memory, blk: int, left: int, right: int, parent: int)
    ensures var r := SetParent(SetRight(SetLeft(m, blk, left), blk, right), blk, parent);
            Apart(blk, left) && Apart(blk, right) && Apart(blk, parent) ==>
              && GetLeft(r, blk) == left && GetRight(r, blk) == right && GetParent(r, blk) == parent
  {
    var m1 := SetLeft(m, blk, left);
    var m2 := SetRight(m1, blk, right);
    if Apart(blk, left) && Apart(blk, right) && Apart(blk, parent) {
      assert m1[blk + LEFT] == left;
      assert m2[blk + LEFT] == left && m2[blk + RIGHT] == right;
    }
  }
}

=== FILE: malloc.dfy ===
/** mm_malloc (mm.c:178-212): size the request, look for the best-fitting
    free block in the tree, and either grow the heap, hand out the whole
    block, or split it.

    Two variants are modelled. MallocAsWritten follows the source: the
    request size is computed in wrapping size_t arithmetic, and a split
    leaves the leftover block without boundary tags. Malloc is the
    corrected variant the rest of the model builds on: it refuses requests
    whose block size does not fit in a size_t, and it tags the leftover as a
    free block before handing it the split block's place in the tree. */
module Alloc {
  import opened Wrappers
  import opened Tags
  import opened Blocks
  import opened Links
  import opened FreeTree
  import opened FreeIndex
  import opened HeapCheck
  import opened Heaps

  // ---------------------------------------------------------------------
  // Request size
  // ---------------------------------------------------------------------

  /** The block size mm_malloc derives from a request (mm.c:179-183):
      ALIGN(size + ALIGNMENT) in size_t arithmetic, raised to MIN_BLOCK.
      Up to SIZE_T_LIMIT - 16 the block holds the request and both tags;
      above it the sum wraps around and every such request is given a
      MIN_BLOCK block. */
  function RequestSize(size: SizeT): (n: SizeT)
    ensures n % ALIGNMENT == 0 && MIN_BLOCK <= n
    ensures size <= SIZE_T_LIMIT - 2 * ALIGNMENT ==> size + ALIGNMENT <= n
    ensures size > SIZE_T_LIMIT - 2 * ALIGNMENT ==> n == MIN_BLOCK
  {
    var n := Align(AddSizeT(size, ALIGNMENT));
    if n < MIN_BLOCK then MIN_BLOCK else n
  }

  /** Without wrap-around the block size is the least aligned size that
      is at least MIN_BLOCK and holds the request plus both tags. */
  lemma RequestSizeIsLeast(size: SizeT, k: int)
    requires size <= SIZE_T_LIMIT - 2 * ALIGNMENT
    requires k % ALIGNMENT == 0 && MIN_BLOCK <= k && size + ALIGNMENT <= k
    ensures RequestSize(size) <= k
  {
    AlignIsLeast(size + ALIGNMENT, k);
  }

  /** A request of 0xFFFFFFF9 bytes is given a 24-byte block: its 16
      usable bytes are far fewer than the request. */
  lemma HugeRequestGetsMinimumBlock()
    ensures RequestSize(0xFFFF_FFF9) == MIN_BLOCK
    ensures RequestSize(0xFFFF_FFF9) - ALIGNMENT < 0xFFFF_FFF9
  {
    assert AddSizeT(0xFFFF_FFF9, ALIGNMENT) == 1;
    assert Align(1) == ALIGNMENT;
  }

  /** The corrected request size: None (mm_malloc returns NULL) when the
      block would not fit in a size_t, otherwise ALIGN(size + 8) raised to
      MIN_BLOCK, which then always holds the request. */
  function CheckedRequestSize(size: SizeT): (r: Option<SizeT>)
    ensures r.None? <==> size > SIZE_T_LIMIT - 2 * ALIGNMENT
    ensures r.Some? ==>
              && r.value % ALIGNMENT == 0
              && MIN_BLOCK <= r.value
              && size + ALIGNMENT <= r.value
  {
    if size > SIZE_T_LIMIT - 2 * ALIGNMENT then None else Some(RequestSize(size))
  }

  // ---------------------------------------------------------------------
  // Placement
  // ---------------------------------------------------------------------

  /** Grown: the heap was extended by the block; Consumed: the whole free
      block was handed out; Split: its first part was. */
  datatype Placement = Grown | Consumed | Split

  /** The heap after the call, the returned payload pointer, and which
      branch produced it. */
  datatype Allocation = Allocation(heap: Heap, ptr: int, how: Placement)

  /** The split branch (mm.c:196-208), corrected: remember the block's
      links, pack its first newsize bytes ALC, pack the rest as a free
      block in the block's old colour, and let that leftover, which
      getafter(p) now finds newsize bytes in, take over the links. */
  function SplitMemory(m: Memory, p: int, newsize: int): Memory {
    Relink(Pack(Pack(m, p, newsize, ALC), p + newsize, GetSize(m, p) - newsize, FreeInColor(m, p)),
           p + newsize, GetLeft(m, p), GetRight(m, p), GetParent(m, p))
  }

  /** The split branch as written: the leftover's tags are never written,
      so the word at p + newsize keeps whatever the old block's payload
      held there. */
  function SplitMemoryAsWritten(m: Memory, p: int, newsize: int): Memory {
    Relink(Pack(m, p, newsize, ALC), p + newsize, GetLeft(m, p), GetRight(m, p), GetParent(m, p))
  }

  /** The placement part of mm_malloc (mm.c:184-211) for an aligned block
      size of at least MIN_BLOCK. The heap grows exactly when the tree
      holds no block large enough; otherwise the block handed out is the
      one the best-fit search finds, and it is split exactly when at least
      MIN_BLOCK bytes would be left over. The unsigned subtraction
      oldsize - newsize does not wrap, since the search only finds blocks
      of at least newsize bytes. */
  function Place(h: Heap, newsize: int, t: Tree, tagLeftover: bool): (r: Allocation)
    requires Represents(h.mem, GetRoot(h.mem, h.start), t, h.last, h.start)
    requires MIN_BLOCK <= newsize && newsize % ALIGNMENT == 0
    ensures r.how.Grown? <==> Search(t, newsize).None?
    ensures r.how.Grown? ==>
              && r.ptr == Payload(h.brk)
              && r.heap.brk == h.brk + newsize
              && r.heap.mem[h.brk] == Tag(newsize, ALC)
              && GetSize(r.heap.mem, h.brk) == newsize
              && HeaderValid(r.heap.mem, h.brk)
    ensures !r.how.Grown? ==>
              && r.ptr == Payload(Search(t, newsize).value.addr)
              && r.heap.brk == h.brk
              && newsize <= Search(t, newsize).value.size
    ensures r.how.Consumed? <==> !r.how.Grown? && Search(t, newsize).value.size - newsize < MIN_BLOCK
    ensures r.heap.lo == h.lo && r.heap.start == h.start && r.heap.last == h.last
  {
    var p := Bestfit(h.mem, h.start, newsize, h.last, t);
    MembersAreBlocksInMemory(h.mem, GetRoot(h.mem, h.start), t, h.last, h.start);
    if p == h.last then
      // mem_sbrk((int) newsize), taken to grow the heap by all of newsize
      var grown := Pack(h.mem, h.brk, newsize, ALC);
      Allocation(h.(mem := grown, brk := h.brk + newsize), Payload(h.brk), Grown)
    else
      var oldsize := GetSize(h.mem, p);
      if oldsize - newsize < MIN_BLOCK then
        Allocation(h.(mem := Pack(h.mem, p, oldsize, ALC)), Payload(p), Consumed)
      else
        var split := if tagLeftover then SplitMemory(h.mem, p, newsize) else SplitMemoryAsWritten(h.mem, p, newsize);
        Allocation(h.(mem := split), Payload(p), Split)
  }

  /** mm_malloc as written: wrapping request size, untagged leftover. */
  function MallocAsWritten(h: Heap, size: SizeT, t: Tree): (r: Allocation)
    requires Represents(h.mem, GetRoot(h.mem, h.start), t, h.last, h.start)
    ensures r.how.Grown? ==> r.heap.brk == h.brk + RequestSize(size)
    ensures !r.how.Grown? ==> Search(t, RequestSize(size)).Some? && RequestSize(size) <= Search(t, RequestSize(size)).value.size
  {
    Place(h, RequestSize(size), t, false)
  }

  /** mm_malloc corrected: NULL for requests too large for a size_t,
      otherwise a block that holds the request, with the leftover of a
      split tagged free. */
  function Malloc(h: Heap, size: SizeT, t: Tree): (r: Option<Allocation>)
    requires Represents(h.mem, GetRoot(h.mem, h.start), t, h.last, h.start)
    ensures r.None? <==> size > SIZE_T_LIMIT - 2 * ALIGNMENT
    ensures r.Some? && r.value.how.Grown? ==>
              && r.value.ptr == Payload(h.brk)
              && size + ALIGNMENT <= GetSize(r.value.heap.mem, h.brk)
    ensures r.Some? && !r.value.how.Grown? ==>
              && Search(t, RequestSize(size)).Some?
              && size + ALIGNMENT <= Search(t, RequestSize(size)).value.size
  {
    match CheckedRequestSize(size)
    case None => None
    case Some(newsize) => Some(Place(h, newsize, t, true))
  }

  // ---------------------------------------------------------------------
  // What each branch does to a good heap
  // ---------------------------------------------------------------------

  /** Every payload pointer placement returns is 8-aligned: headers sit
      4 bytes past a multiple of 8 on the walk of a good heap, both at the
      break (the grown block) and at every tree block, and ptr adds one
      word. */
  lemma PlaceAligned(h: Heap, newsize: int, t: Tree, tagLeftover: bool)
    requires Good(h, t)
    requires MIN_BLOCK <= newsize && newsize % ALIGNMENT == 0
    ensures Place(h, newsize, t, tagLeftover).ptr % ALIGNMENT == 0
  {
    var found := Search(t, newsize);
    HeadersAligned(h, t, found);
    PayloadAligned(Place(h, newsize, t, tagLeftover), h.brk, found);
  }

  /** A payload pointer one word past an aligned-header block is aligned. */
  lemma PayloadAligned(r: Allocation, brk: int, found: Option<FreeBlock>)
    requires r.how.Grown? ==> r.ptr == Payload(brk) && (brk + WORD) % ALIGNMENT == 0
    requires !r.how.Grown? ==> found.Some? && r.ptr == Payload(found.value.addr)
                               && (found.value.addr + WORD) % ALIGNMENT == 0
    ensures r.ptr % ALIGNMENT == 0
  {
  }

  /** In a good heap the break and the header of every tree block lie 4
      bytes past a multiple of 8. */
  lemma HeadersAligned(h: Heap, t: Tree, found: Option<FreeBlock>)
    requires Good(h, t)
    requires found.Some? ==> found.value in Members(t)
    ensures (h.brk + WORD) % ALIGNMENT == 0
    ensures found.Some? ==> (found.value.addr + WORD) % ALIGNMENT == 0
  {
    StartAligned(h);
    WalkAligned(h.mem, h.start, h.brk);
    if found.Some? {
      assert Indexed(h, found.value);
      WalkAligned(h.mem, h.start, found.value.addr);
    }
  }

  /** The corrected mm_malloc on a good heap returns NULL or an 8-aligned
      payload pointer. */
  lemma MallocAligned(h: Heap, size: SizeT, t: Tree)
    requires Good(h, t)
    ensures Malloc(h, size, t).Some? ==> Malloc(h, size, t).value.ptr % ALIGNMENT == 0
  {
    if size <= SIZE_T_LIMIT - 2 * ALIGNMENT {
      PlaceAligned(h, RequestSize(size), t, true);
    }
  }

  /** On a good heap the corrected mm_malloc is a best fit: it grows the
      heap exactly when no free block holds the request, and otherwise
      hands out a free block of the least size that does. */
  lemma MallocIsBestFit(h: Heap, size: SizeT, t: Tree)
    requires Good(h, t)
    requires size <= SIZE_T_LIMIT - 2 * ALIGNMENT
    ensures var r := Malloc(h, size, t).value;
            var n := RequestSize(size);
            && (r.how.Grown? <==> forall x | x in Members(t) :: x.size < n)
            && (!r.how.Grown? ==>
                  exists y | y in Members(t) ::
                    && r.ptr == Payload(y.addr)
                    && size + ALIGNMENT <= y.size
                    && forall x | x in Members(t) && n <= x.size :: y.size <= x.size)
  {
    SearchIsBestFit(t, RequestSize(size));
  }

  /** Growing: the new block is allocated, header-valid and sits at the old
      break, which is now a block boundary of the walk; the tree and every
      other block are as before. */
  lemma PlaceGrowsHeap(h: Heap, newsize: int, t: Tree, tagLeftover: bool)
    requires Good(h, t)
    requires MIN_BLOCK <= newsize && newsize % ALIGNMENT == 0
    requires Place(h, newsize, t, tagLeftover).how.Grown?
    ensures var r := Place(h, newsize, t, tagLeftover).heap;
            && Good(r, t)
            && OnWalk(r.mem, h.start, h.brk, r.brk)
            && GetSize(r.mem, h.brk) == newsize
            && IsAllocatedBlock(r.mem, h.brk)
  {
    var r := Place(h, newsize, t, tagLeftover).heap;
    PositiveAlignedIsBig(newsize);
    PackFrame(h.mem, h.brk, newsize, ALC);
    assert Tiled(h.mem, h.brk, h.brk);
    ExtendTiling(h.mem, h.brk, h.brk, newsize, r.brk, ALC);
    GrowKeepsGood(h, t, r);
  }

  /** Consuming: the block the search found is repacked allocated at its
      full size and the heap keeps its shape. rm_node is a stub, so the
      block is still reachable from the root with the same tree: the
      index now holds an allocated block. */
  lemma PlaceConsumes(h: Heap, newsize: int, t: Tree, tagLeftover: bool)
    requires Good(h, t)
    requires MIN_BLOCK <= newsize && newsize % ALIGNMENT == 0
    requires Place(h, newsize, t, tagLeftover).how.Consumed?
    ensures var r := Place(h, newsize, t, tagLeftover).heap;
            var b := Search(t, newsize).value;
            && Shaped(r)
            && OnWalk(r.mem, h.start, b.addr, r.brk)
            && GetSize(r.mem, b.addr) == b.size
            && IsAllocatedBlock(r.mem, b.addr)
            && b in Members(t)
            && Represents(r.mem, GetRoot(r.mem, r.start), t, r.last, r.start)
  {
    ConsumeKeepsShape(h, t, Search(t, newsize).value);
  }

  /** Repacking tree block b allocated at its own size keeps the heap
      shaped and the tree represented. */
  lemma ConsumeKeepsShape(h: Heap, t: Tree, b: FreeBlock)
    requires Good(h, t) && b in Members(t)
    ensures var r := h.(mem := Pack(h.mem, b.addr, GetSize(h.mem, b.addr), ALC));
            && Shaped(r)
            && OnWalk(r.mem, h.start, b.addr, r.brk)
            && GetSize(r.mem, b.addr) == b.size
            && IsAllocatedBlock(r.mem, b.addr)
            && Represents(r.mem, GetRoot(r.mem, r.start), t, r.last, r.start)
  {
    var m := h.mem;
    MembersAreSlots(h, t);
    var m' := Pack(m, b.addr, b.size, ALC);
    assert Slot(m, h.start, b.addr, h.brk);
    RepackKeepsTiling(m, h.start, b.addr, h.brk, ALC);
    PackFrame(m, b.addr, b.size, ALC);
    TiledFrame(m, m', h.start, b.addr);
    TiledBetween(m', h.start, b.addr, h.brk);
    RepackedMemberKeepsIndex(h, t, b, m');
  }

  /** Rewriting only the tags of a tree block b, with its size unchanged,
      leaves the tree represented. */
  lemma RepackedMemberKeepsIndex(h: Heap, t: Tree, b: FreeBlock, m': Memory)
    requires Good(h, t) && b in Members(t)
    requires GetSize(m', b.addr) == b.size
    requires forall a | a != b.addr && a != FooterAt(b.addr, b.size) :: m'[a] == h.mem[a]
    ensures Represents(m', GetRoot(m', h.start), t, h.last, h.start)
  {
    var m := h.mem;
    MembersAreSlots(h, t);
    forall x | x in Members(t)
      ensures SameFields(m, m', x.addr)
    {
      if x.addr < b.addr {
        WalkBlocksApart(m, h.start, x.addr, b.addr, h.brk);
      } else if b.addr < x.addr {
        WalkBlocksApart(m, h.start, b.addr, x.addr, h.brk);
      }
    }
    assert GetRoot(m', h.start) == GetRoot(m, h.start);
    RepresentsFrame(m, m', GetRoot(m, h.start), t, h.last, h.start);
  }

  /** Splitting (corrected): the found block's first newsize bytes become
      an allocated block and the rest a free block of the remaining size,
      both header-valid on the walk, and the heap keeps its shape. Where
      the leftover lands in the tree is not stated: it inherits the split
      block's links whatever its new size. */
  lemma PlaceSplits(h: Heap, newsize: int, t: Tree)
    requires Good(h, t)
    requires MIN_BLOCK <= newsize && newsize % ALIGNMENT == 0
    requires Place(h, newsize, t, true).how.Split?
    ensures var b := Search(t, newsize).value;
            SplitOutcome(h, Place(h, newsize, t, true).heap, b.addr, newsize, b.size)
  {
    var b := Search(t, newsize).value;
    MembersAreSlots(h, t);
    NeighboursBeside(h, t, b);
    SplitKeepsShape(h, b.addr, newsize);
  }

  /** What a split of block p (oldsize bytes) into newsize bytes leaves
      in heap r: a shaped heap in which p is an allocated block of newsize
      bytes and the rest, at least MIN_BLOCK bytes, a free block right
      after it, both on the walk. */
  predicate SplitOutcome(h: Heap, r: Heap, p: int, newsize: int, oldsize: int) {
    && Shaped(r)
    && OnWalk(r.mem, h.start, p, r.brk)
    && GetSize(r.mem, p) == newsize
    && IsAllocatedBlock(r.mem, p)
    && OnWalk(r.mem, h.start, p + newsize, r.brk)
    && GetSize(r.mem, p + newsize) == oldsize - newsize
    && MIN_BLOCK <= oldsize - newsize
    && IsFreeBitBlock(r.mem, p + newsize)
  }

  /** A split of a block p of the walk whose neighbours lie beside it
      keeps the heap shaped and leaves an allocated block of newsize
      bytes followed by a free one in p's place. */
  lemma SplitKeepsShape(h: Heap, p: int, newsize: int)
    requires Shaped(h) && OnWalk(h.mem, h.start, p, h.brk)
    requires MIN_BLOCK <= newsize && newsize % ALIGNMENT == 0
    requires MIN_BLOCK <= GetSize(h.mem, p) - newsize
    requires var m, q := h.mem, GetAfter(h.mem, p);
             && Beside(m, h.start, h.start, h.brk, p, q) && Beside(m, h.start, h.last, h.brk, p, q)
             && Beside(m, h.start, GetLeft(m, p), h.brk, p, q)
             && Beside(m, h.start, GetRight(m, p), h.brk, p, q)
             && Beside(m, h.start, GetParent(m, p), h.brk, p, q)
    ensures SplitOutcome(h, h.(mem := SplitMemory(h.mem, p, newsize)), p, newsize, GetSize(h.mem, p))
  {
    SplitMemoryKeepsWalk(h.mem, h.start, h.last, h.brk, p, newsize);
  }

  /** The split, in memory terms: when the prologue, the sentinel and the
      three blocks p links to all lie beside p, SplitMemory keeps the walk
      and leaves an allocated and a free block where p was. */
  lemma SplitMemoryKeepsWalk(m: Memory, start: int, last: int, end: int, p: int, newsize: int)
    requires OnWalk(m, start, p, end)
    requires MIN_BLOCK <= newsize && newsize % ALIGNMENT == 0
    requires MIN_BLOCK <= GetSize(m, p) - newsize
    requires var q := GetAfter(m, p);
             && Beside(m, start, start, end, p, q) && Beside(m, start, last, end, p, q)
             && Beside(m, start, GetLeft(m, p), end, p, q)
             && Beside(m, start, GetRight(m, p), end, p, q)
             && Beside(m, start, GetParent(m, p), end, p, q)
    ensures var r := SplitMemory(m, p, newsize);
            && Tiled(r, start, end)
            && r[start] == m[start] && r[last] == m[last]
            && OnWalk(r, start, p, end)
            && GetSize(r, p) == newsize && LowBits(r[p]) == ALC
            && OnWalk(r, start, p + newsize, end)
            && GetSize(r, p + newsize) == GetSize(m, p) - newsize
            && Bit(LowBits(r[p + newsize])) == 1
  {
    SplitRetiles(m, start, last, end, p, newsize);
    SplitRelinks(m, Pack(Pack(m, p, newsize, ALC), p + newsize, GetSize(m, p) - newsize, FreeInColor(m, p)),
                 start, last, end, p, newsize, GetLeft(m, p), GetRight(m, p), GetParent(m, p));
  }

  /** Handing p's links to the leftover writes no tag word, so the walk
      and every block on it are unchanged. */
  lemma SplitRelinks(m: Memory, m2: Memory, start: int, last: int, end: int, p: int, newsize: int,
                      left: int, right: int, parent: int)
    requires Tiled(m2, start, end)
    requires Slot(m2, start, p, end) && Slot(m2, start, p + newsize, end)
    requires Slot(m2, start, start, end) && Slot(m2, start, last, end)
    requires m2[start] == m[start] && m2[last] == m[last]
    requires GetSize(m2, p) == newsize && LowBits(m2[p]) == ALC
    requires GetSize(m2, p + newsize) == GetSize(m, p) - newsize && Bit(LowBits(m2[p + newsize])) == 1
    requires Spared(m2, start, left, end) && Spared(m2, start, right, end) && Spared(m2, start, parent, end)
    ensures var r := Relink(m2, p + newsize, left, right, parent);
            && Tiled(r, start, end)
            && r[start] == m[start] && r[last] == m[last]
            && OnWalk(r, start, p, end)
            && GetSize(r, p) == newsize && LowBits(r[p]) == ALC
            && OnWalk(r, start, p + newsize, end)
            && GetSize(r, p + newsize) == GetSize(m, p) - newsize
            && Bit(LowBits(r[p + newsize])) == 1
  {
    RelinkKeepsWalk(m2, start, last, end, p, p + newsize, left, right, parent);
    ChainSplit(m, m2, Relink(m2, p + newsize, left, right, parent), start, last, end, p, newsize);
  }

  /** Facts about the packed memory carry over to any memory that keeps its
      tiling and the tag words of the blocks named. */
  lemma ChainSplit(m: Memory, m2: Memory, r: Memory, start: int, last: int, end: int, p: int, newsize: int)
    requires m2[start] == m[start] && m2[last] == m[last]
    requires GetSize(m2, p) == newsize && LowBits(m2[p]) == ALC
    requires GetSize(m2, p + newsize) == GetSize(m, p) - newsize && Bit(LowBits(m2[p + newsize])) == 1
    requires r[start] == m2[start] && r[last] == m2[last]
    requires r[p] == m2[p] && r[p + newsize] == m2[p + newsize]
    ensures r[start] == m[start] && r[last] == m[last]
    ensures GetSize(r, p) == newsize && LowBits(r[p]) == ALC
    ensures GetSize(r, p + newsize) == GetSize(m, p) - newsize
    ensures Bit(LowBits(r[p + newsize])) == 1
  {
  }

  /** The two packs of a split retile block p in place: the walk stays
      tiled, both parts are slots of it, and every slot beside p stays
      one. */
  lemma SplitRetiles(m: Memory, start: int, last: int, end: int, p: int, newsize: int)
    requires OnWalk(m, start, p, end)
    requires MIN_BLOCK <= newsize && newsize % ALIGNMENT == 0
    requires MIN_BLOCK <= GetSize(m, p) - newsize
    requires var q := GetAfter(m, p);
             && Beside(m, start, start, end, p, q) && Beside(m, start, last, end, p, q)
             && Beside(m, start, GetLeft(m, p), end, p, q)
             && Beside(m, start, GetRight(m, p), end, p, q)
             && Beside(m, start, GetParent(m, p), end, p, q)
    ensures var m2 := Pack(Pack(m, p, newsize, ALC), p + newsize, GetSize(m, p) - newsize, FreeInColor(m, p));
            && Tiled(m2, start, end)
            && Slot(m2, start, p, end) && Slot(m2, start, p + newsize, end)
            && Slot(m2, start, start, end) && Slot(m2, start, last, end)
            && m2[start] == m[start] && m2[last] == m[last]
            && GetSize(m2, p) == newsize && LowBits(m2[p]) == ALC
            && GetSize(m2, p + newsize) == GetSize(m, p) - newsize
            && Bit(LowBits(m2[p + newsize])) == 1
            && Spared(m2, start, GetLeft(m, p), end)
            && Spared(m2, start, GetRight(m, p), end)
            && Spared(m2, start, GetParent(m, p), end)
  {
    SplitTagsTile(m, p, newsize);
    SplitTagsBits(m, p, newsize);
    RetileInTwo(m, Pack(Pack(m, p, newsize, ALC), p + newsize, GetSize(m, p) - newsize, FreeInColor(m, p)), start, last, end, p, newsize);
  }

  /** Retiling block p in place as two blocks keeps the walk tiled: both
      parts are slots of it, and every slot beside p stays one. */
  lemma RetileInTwo(m: Memory, m2: Memory, start: int, last: int, end: int, p: int, newsize: int)
    requires OnWalk(m, start, p, end)
    requires var q := GetAfter(m, p);
             && Beside(m, start, start, end, p, q) && Beside(m, start, last, end, p, q)
             && Beside(m, start, GetLeft(m, p), end, p, q)
             && Beside(m, start, GetRight(m, p), end, p, q)
             && Beside(m, start, GetParent(m, p), end, p, q)
    requires MIN_BLOCK <= newsize && GetSize(m2, p) == newsize && MIN_BLOCK <= GetSize(m2, p + newsize)
    requires p + newsize < GetAfter(m, p)
    requires Tiled(m2, p, p + newsize) && Tiled(m2, p + newsize, GetAfter(m, p))
    requires Tiled(m2, p, GetAfter(m, p))
    requires forall a | a < p || GetAfter(m, p) <= a :: m2[a] == m[a]
    ensures && Tiled(m2, start, end)
            && Slot(m2, start, p, end) && Slot(m2, start, p + newsize, end)
            && Slot(m2, start, start, end) && Slot(m2, start, last, end)
            && m2[start] == m[start] && m2[last] == m[last]
            && Spared(m2, start, GetLeft(m, p), end)
            && Spared(m2, start, GetRight(m, p), end)
            && Spared(m2, start, GetParent(m, p), end)
  {
    var q := GetAfter(m, p);
    assert Tiled(m, q, end);
    RetileKeepsTiling(m, m2, start, p, q, end);
    TiledJoin(m2, start, p, p + newsize);
    TiledBetween(m2, start, p + newsize, end);
    BesideStaysSlot(m, m2, start, end, p, start);
    BesideStaysSlot(m, m2, start, end, p, last);
    BesideStaysSlot(m, m2, start, end, p, GetLeft(m, p));
    BesideStaysSlot(m, m2, start, end, p, GetRight(m, p));
    BesideStaysSlot(m, m2, start, end, p, GetParent(m, p));
  }

  /** A slot beside block p stays a slot when p's extent is retiled. */
  lemma BesideStaysSlot(m: Memory, m2: Memory, start: int, end: int, p: int, v: int)
    requires OnWalk(m, start, p, end) && Beside(m, start, v, end, p, GetAfter(m, p))
    requires Tiled(m2, p, GetAfter(m, p))
    requires forall a | a < p || GetAfter(m, p) <= a :: m2[a] == m[a]
    ensures Slot(m2, start, v, end) && GetSize(m2, v) == GetSize(m, v)
  {
    var q := GetAfter(m, p);
    assert Tiled(m, q, end);
    assert Tiled(m, q, q);
    assert Tiled(m, p, q);
    RetileKeepsWalk(m, m2, start, p, q, end, v);
  }

  /** The tag writes of the corrected split tile the old block's extent as
      an allocated block of newsize bytes followed by a free block of the
      rest, and write nothing outside it. */
  lemma SplitTagsTile(m: Memory, p: int, newsize: int)
    requires MIN_BLOCK <= newsize && newsize % ALIGNMENT == 0
    requires MIN_BLOCK <= GetSize(m, p) - newsize
    ensures var m2, q := Pack(Pack(m, p, newsize, ALC), p + newsize, GetSize(m, p) - newsize, FreeInColor(m, p)), GetAfter(m, p);
            && GetSize(m2, p) == newsize
            && GetSize(m2, p + newsize) == GetSize(m, p) - newsize
            && Tiled(m2, p, p + newsize) && Tiled(m2, p + newsize, q) && Tiled(m2, p, q)
            && (forall a | a < p || q <= a :: m2[a] == m[a])
  {
    AlignedDifference(GetSize(m, p), newsize);
    SplitTiles(m, p, newsize, GetSize(m, p) - newsize, ALC, FreeInColor(m, p));
  }

  /** The corrected split tags the first part allocated and the leftover
      free. */
  lemma SplitTagsBits(m: Memory, p: int, newsize: int)
    requires MIN_BLOCK <= newsize && newsize % ALIGNMENT == 0
    requires MIN_BLOCK <= GetSize(m, p) - newsize
    ensures var m2 := Pack(Pack(m, p, newsize, ALC), p + newsize, GetSize(m, p) - newsize, FreeInColor(m, p));
            LowBits(m2[p]) == ALC && Bit(LowBits(m2[p + newsize])) == 1
  {
    AlignedDifference(GetSize(m, p), newsize);
    SplitTiles(m, p, newsize, GetSize(m, p) - newsize, ALC, FreeInColor(m, p));
  }

  // ---------------------------------------------------------------------
  // The split as written
  // ---------------------------------------------------------------------

  /** Block p of the walk can be split at newsize with MIN_BLOCK bytes to
      spare, and the blocks it links to lie outside it. */
  predicate SplitReady(h: Heap, p: int, newsize: int) {
    var m, q := h.mem, GetAfter(h.mem, p);
    && h.lo <= h.start && (h.start + WORD) % ALIGNMENT == 0
    && OnWalk(m, h.start, p, h.brk)
    && MIN_BLOCK <= GetSize(m, p) - newsize
    && Beside(m, h.start, GetLeft(m, p), h.brk, p, q)
    && Beside(m, h.start, GetRight(m, p), h.brk, p, q)
    && Beside(m, h.start, GetParent(m, p), h.brk, p, q)
  }

  /** In a good heap every tree block is ready to be split at any size
      that leaves MIN_BLOCK bytes. */
  lemma ReadyForSplit(h: Heap, t: Tree, b: FreeBlock, newsize: int)
    requires Good(h, t) && b in Members(t)
    requires MIN_BLOCK <= b.size - newsize
    ensures SplitReady(h, b.addr, newsize)
  {
    MembersAreSlots(h, t);
    NeighboursBeside(h, t, b);
    StartAligned(h);
  }

  /** The split branch as written (the memory Place leaves when it does not
      tag the leftover) breaks the heap: for a block p of the walk whose
      links lie beside it, as every tree block of a good heap is by
      ReadyForSplit, and whose payload word at offset newsize is zero, the
      walk reaches the allocated part, steps to the leftover and finds a
      header that disagrees with the footer its size points at. */
  lemma AsWrittenSplitCorrupts(h: Heap, p: int, newsize: int)
    requires SplitReady(h, p, newsize)
    requires MIN_BLOCK <= newsize && newsize % ALIGNMENT == 0
    requires h.mem[p + newsize] == 0
    ensures CheckHeap(h.(mem := SplitMemoryAsWritten(h.mem, p, newsize))) == Corrupt(p + newsize)
  {
    AsWrittenSplitCheck(h.mem, h.lo, h.start, h.brk, p, newsize);
    CheckHeapOf(h, SplitMemoryAsWritten(h.mem, p, newsize), h.brk - 1);
  }

  /** The memory-level core of AsWrittenSplitCorrupts. */
  lemma AsWrittenSplitCheck(m: Memory, lo: int, start: int, end: int, p: int, newsize: int)
    requires OnWalk(m, start, p, end) && lo <= start && (start + WORD) % ALIGNMENT == 0
    requires MIN_BLOCK <= newsize && newsize % ALIGNMENT == 0
    requires MIN_BLOCK <= GetSize(m, p) - newsize
    requires m[p + newsize] == 0
    requires var q := GetAfter(m, p);
             && Beside(m, start, GetLeft(m, p), end, p, q)
             && Beside(m, start, GetRight(m, p), end, p, q)
             && Beside(m, start, GetParent(m, p), end, p, q)
    ensures CheckFrom(SplitMemoryAsWritten(m, p, newsize), start, lo, end - 1) == Corrupt(p + newsize)
  {
    var m1 := Pack(m, p, newsize, ALC);
    PackFrame(m, p, newsize, ALC);
    RelinkAfterPack(m, m1, start, end, p, newsize, p + newsize, Tag(newsize, ALC),
                    GetLeft(m, p), GetRight(m, p), GetParent(m, p));
    UntaggedLeftoverCorrupts(SplitMemoryAsWritten(m, p, newsize), lo, start, end, p, newsize);
  }

  /** The corrected split leaves a heap mm_check accepts. */
  lemma PlaceSplitPassesCheck(h: Heap, newsize: int, t: Tree)
    requires Good(h, t)
    requires MIN_BLOCK <= newsize && newsize % ALIGNMENT == 0
    requires Place(h, newsize, t, true).how.Split?
    ensures CheckHeap(Place(h, newsize, t, true).heap) == Consistent
  {
    PlaceSplits(h, newsize, t);
    ShapedPassesCheck(Place(h, newsize, t, true).heap);
  }

  /** mm_check rejects a walk that reaches an allocated block p whose
      successor's header word is zero. */
  lemma UntaggedLeftoverCorrupts(r: Memory, lo: int, start: int, end: int, p: int, newsize: int)
    requires Tiled(r, start, p) && lo <= start && (start + WORD) % ALIGNMENT == 0
    requires MIN_BLOCK <= newsize && newsize % ALIGNMENT == 0 && p + newsize < end - 1
    requires r[p] == Tag(newsize, ALC) && r[p + newsize - WORD] == Tag(newsize, ALC)
    requires r[p + newsize] == 0
    ensures CheckFrom(r, start, lo, end - 1) == Corrupt(p + newsize)
  {
    TiledOrdered(r, start, p);
    WalkAligned(r, start, p);
    CheckSkipsTiled(r, start, p, lo, end - 1);
    ZeroSuccessorCorrupts(r, lo, end - 1, p, newsize);
  }

  /** The step from an allocated block p to a zero header word. */
  lemma ZeroSuccessorCorrupts(r: Memory, lo: int, hi: int, p: int, newsize: int)
    requires lo <= p && (p + WORD) % ALIGNMENT == 0
    requires MIN_BLOCK <= newsize && newsize % ALIGNMENT == 0 && p + newsize < hi
    requires r[p] == Tag(newsize, ALC) && r[p + newsize - WORD] == Tag(newsize, ALC)
    requires r[p + newsize] == 0
    ensures CheckFrom(r, p, lo, hi) == Corrupt(p + newsize)
  {
    var q := p + newsize;
    AlignedStep(p, newsize);
    assert GetSize(r, p) == newsize;
    assert CheckFrom(r, p, lo, hi) == CheckFrom(r, q, lo, hi);
    assert GetSize(r, q) == 0;
    assert !HeaderValid(r, q);
  }

  /** The relinking step of the split as written, for any memory m1 that
      agrees with m below p and holds tag t at both ends of p's first
      newsize bytes. */
  lemma RelinkAfterPack(m: Memory, m1: Memory, start: int, end: int, p: int, newsize: int, c: int, t: int,
                        left: int, right: int, parent: int)
    requires OnWalk(m, start, p, end)
    requires MIN_BLOCK <= newsize && MIN_BLOCK <= GetSize(m, p) - newsize && c == p + newsize
    requires var q := GetAfter(m, p);
             && Beside(m, start, left, end, p, q)
             && Beside(m, start, right, end, p, q)
             && Beside(m, start, parent, end, p, q)
    requires forall a | a < p :: m1[a] == m[a]
    requires m1[p] == t && m1[c - WORD] == t && m1[c] == m[c]
    ensures var r := Relink(m1, c, left, right, parent);
            && Tiled(r, start, p) && c < end - 1
            && r[p] == t && r[c - WORD] == t && r[c] == m[c]
  {
    var q := GetAfter(m, p);
    BesideSpared(m, m1, start, p, end, left, q);
    BesideSpared(m, m1, start, p, end, right, q);
    BesideSpared(m, m1, start, p, end, parent, q);
    TiledFrame(m, m1, start, p);
    RelinkSparesTags(m1, start, p, c, left, right, parent);
    BesideApart(m, start, left, end, p, q);
    BesideApart(m, start, right, end, p, q);
    BesideApart(m, start, parent, end, p, q);
    PositiveAlignedIsBig(GetSize(m, p));
    RelinkKeepsWord(m1, c, left, right, parent, p);
    RelinkKeepsWord(m1, c, left, right, parent, c - WORD);
    RelinkKeepsWord(m1, c, left, right, parent, c);
  }

  /** A block beside [p, q) has its header and links wholly outside it. */
  lemma BesideApart(m: Memory, start: int, v: int, end: int, p: int, q: int)
    requires Beside(m, start, v, end, p, q)
    ensures v + FIELDS <= p || q <= v
  {
  }

  /** A block beside p on the walk keeps its place on the walk up to p in
      any memory that agrees below p. */
  lemma BesideSpared(m: Memory, m1: Memory, start: int, p: int, end: int, v: int, q: int)
    requires OnWalk(m, start, p, end) && p < q
    requires Beside(m, start, v, end, p, q)
    requires forall a | a < p :: m1[a] == m[a]
    ensures Spared(m1, start, v, p)
  {
    if v < p {
      TiledBetween(m, start, v, p);
      TiledFrame(m, m1, start, v);
      TiledFrame(m, m1, v, p);
      assert GetSize(m1, v) == GetSize(m, v);
    }
  }
}

=== FILE: tags.dfy ===
/** Boundary-tag words of mm.c.

    The allocator runs on a 32-bit target: a tag word is an `unsigned int`
    holding a block size (a multiple of ALIGNMENT) in its upper bits and three
    state bits in its low bits: bit 0 is the allocation bit (ALC = 0,
    FREE = 1) and bit 1 the tree colour (RED = 0, BLACK = 2).

    Words are modelled as integers. The masks the source applies are written
    arithmetically: `t & 0x7` is `t % 8`, `t & ~0x7` is `t - t % 8`,
    `t & 0x2` is bit 1 of `t`, and `t | c` with a three-bit constant `c` is
    the bitwise OR of the low three bits (Or3) with the upper bits kept. */
module Tags {

  const ALIGNMENT: int := 8
  /** sizeof(unsigned int) and sizeof(void *) on the 32-bit target. */
  const WORD: int := 4
  /** Smallest block: two tags plus three linkage words, rounded up. */
  const MIN_BLOCK: int := 3 * ALIGNMENT

  const ALC: int := 0
  const FREE: int := 1
  const RED: int := 0
  const BLACK: int := 2

  /** Values of the target's size_t are reduced modulo this. */
  const SIZE_T_LIMIT: int := 0x1_0000_0000

  type SizeT = n: int | 0 <= n < SIZE_T_LIMIT

  /** A three-bit value (the state bits of a tag, or a constant OR-ed in). */
  type Bits3 = b: int | 0 <= b < 8

  /** Unsigned 32-bit addition of size_t values: wraps around. */
  function AddSizeT(a: SizeT, b: SizeT): (r: SizeT)
    ensures a + b < SIZE_T_LIMIT ==> r == a + b
    ensures a + b >= SIZE_T_LIMIT ==> r == a + b - SIZE_T_LIMIT
  {
    (a + b) % SIZE_T_LIMIT
  }

  /** ALIGN(n): `(n + 7) & ~0x7` in size_t arithmetic (mm.c:42). */
  function Align(n: SizeT): (r: SizeT)
    ensures r % ALIGNMENT == 0
    ensures n <= SIZE_T_LIMIT - ALIGNMENT ==> n <= r < n + ALIGNMENT
    ensures n > SIZE_T_LIMIT - ALIGNMENT ==> r == 0
  {
    var x := AddSizeT(n, ALIGNMENT - 1);
    x - x % ALIGNMENT
  }

  /** ALIGN(n) is the least multiple of 8 that is at least n, as long as
      n + 7 does not wrap around. */
  lemma AlignIsLeast(n: SizeT, m: int)
    requires n <= SIZE_T_LIMIT - ALIGNMENT
    requires m % ALIGNMENT == 0 && n <= m
    ensures Align(n) <= m
  {
  }

  /** A positive multiple of ALIGNMENT is at least ALIGNMENT. */
  lemma PositiveAlignedIsBig(n: int)
    requires 0 < n && n % ALIGNMENT == 0
    ensures ALIGNMENT <= n
  {
  }

  /** The difference of two aligned sizes is aligned. */
  lemma AlignedDifference(a: int, b: int)
    requires a % ALIGNMENT == 0 && b % ALIGNMENT == 0
    ensures (a - b) % ALIGNMENT == 0
  {
    assert a - b == ALIGNMENT * (a / ALIGNMENT - b / ALIGNMENT);
  }

  /** The sum of two positive aligned sizes is a positive aligned size. */
  lemma AlignedSum(a: int, b: int, c: int)
    requires a % ALIGNMENT == 0 && b % ALIGNMENT == 0 && 0 < a && 0 < b && c == a + b
    ensures c % ALIGNMENT == 0 && ALIGNMENT <= c
  {
    assert c == ALIGNMENT * (a / ALIGNMENT + b / ALIGNMENT);
  }

  /** `t & 0x7`: the state bits. */
  function LowBits(t: int): Bits3 {
    t % 8
  }

  /** `t & ~0x7`: the size encoded in a tag (getsize). It is the largest
      multiple of 8 not above t. */
  function TagSize(t: int): (s: int)
    ensures s % ALIGNMENT == 0
    ensures 0 <= t - s < ALIGNMENT
    ensures s + LowBits(t) == t
  {
    t - t % 8
  }

  function Bit(x: int): int {
    if x % 2 == 1 then 1 else 0
  }

  /** Bitwise OR of two three-bit values, bit by bit. */
  function Or3(a: Bits3, b: Bits3): (r: Bits3)
    ensures a == 0 ==> r == b
    ensures b == 0 ==> r == a
  {
    (if Bit(a) == 1 || Bit(b) == 1 then 1 else 0)
    + (if Bit(a / 2) == 1 || Bit(b / 2) == 1 then 2 else 0)
    + (if Bit(a / 4) == 1 || Bit(b / 4) == 1 then 4 else 0)
  }

  /** `t | c` for a three-bit c: the size part is untouched. */
  function OrLow(t: int, c: Bits3): (r: int)
    ensures TagSize(r) == TagSize(t)
    ensures LowBits(r) == Or3(LowBits(t), c)
    ensures c == 0 ==> r == t
    ensures LowBits(t) == 0 ==> r == t + c
  {
    TagSize(t) + Or3(LowBits(t), c)
  }

  /** The word pack writes at both ends of a block: `(unsigned int) size | alloc`.
      With an aligned size the size and the state bits come back unchanged. */
  function Tag(size: int, bits: Bits3): (t: int)
    ensures size % ALIGNMENT == 0 ==> TagSize(t) == size && LowBits(t) == bits
    ensures size % ALIGNMENT != 0 ==> TagSize(t) == TagSize(size)
  {
    OrLow(size, bits)
  }

  /** allocated(): all three state bits clear (mm.c:453-455). */
  predicate Allocated(t: int) {
    LowBits(t) == 0
  }

  /** isfree(): some state bit set (mm.c:457-459). It is the exact
      complement of Allocated, so a colour bit alone reads as free. */
  predicate IsFree(t: int): (r: bool)
    ensures r <==> !Allocated(t)
    ensures r <==> LowBits(t) in {1, 2, 3, 4, 5, 6, 7}
  {
    LowBits(t) != 0
  }

  /** COLOR(): `t & 0x2` (mm.c:46); bit 1 of t is bit 1 of its low bits. */
  function Color(t: int): (c: int)
    ensures c == RED || c == BLACK
    ensures c == BLACK <==> LowBits(t) in {2, 3, 6, 7}
  {
    if Bit(LowBits(t) / 2) == 1 then BLACK else RED
  }

  /** The tag word after SETCOLOR: `t | colour` (mm.c:48). OR can only set
      the colour bit: RED is the identity and BLACK can never be undone. */
  function Recolor(t: int, color: int): (r: int)
    requires color == RED || color == BLACK
    ensures color == RED ==> r == t
    ensures color == BLACK ==> Color(r) == BLACK
    ensures TagSize(r) == TagSize(t)
    ensures Bit(LowBits(r)) == Bit(LowBits(t))
  {
    OrLow(t, color)
  }

  /** Blackening the tag of a block packed FREE|RED changes the word. */
  lemma RecolorChangesFreeRed(size: int)
    requires size % ALIGNMENT == 0
    ensures Recolor(Tag(size, Or3(FREE, RED)), BLACK) != Tag(size, Or3(FREE, RED))
  {
    assert LowBits(Tag(size, Or3(FREE, RED))) == 1;
  }

  /** The tag mm_init gives the sentinel block: ALC | BLACK (mm.c:167). */
  const SENTINEL_TAG: int := Tag(MIN_BLOCK, Or3(ALC, BLACK))

  /** The sentinel is meant to be permanently allocated, but its colour bit
      makes both allocated() and isfree() classify it as free. */
  lemma SentinelReadsFree()
    ensures TagSize(SENTINEL_TAG) == MIN_BLOCK
    ensures IsFree(SENTINEL_TAG) && !Allocated(SENTINEL_TAG)
  {
  }

  /** The allocation test the FREE/ALC constants describe: bit 0 only.
      This is the corrected form of allocated()/isfree(): the colour bit no
      longer changes the answer. */
  predicate IsFreeBit(t: int): (r: bool)
    ensures r <==> LowBits(t) in {1, 3, 5, 7}
  {
    Bit(LowBits(t)) == 1
  }

  /** Under the corrected test, recolouring never changes the allocation
      state. */
  lemma IsFreeBitIgnoresColor(t: int, color: int)
    requires color == RED || color == BLACK
    ensures IsFreeBit(Recolor(t, color)) == IsFreeBit(t)
  {
  }

  /** The corrected test agrees with isfree() on every tag a real block is
      given (ALC, FREE|RED, FREE|BLACK) and differs only on the sentinel. */
  lemma IsFreeBitAgreesOnBlockTags(size: int, bits: Bits3)
    requires size % ALIGNMENT == 0
    requires bits in {ALC, Or3(FREE, RED), Or3(FREE, BLACK)}
    ensures IsFreeBit(Tag(size, bits)) == IsFree(Tag(size, bits))
    ensures !IsFreeBit(SENTINEL_TAG)
  {
  }
}

=== FILE: wrappers.dfy ===
/** The Option type used where the allocator answers "nothing" (a NULL return,
    an empty search). */
module Wrappers {

  datatype Option<+T> = None | Some(value: T) {

    predicate IsFailure() {
      None?
    }

    function PropagateFailure<U>(): Option<U>
      requires None?
    {
      None
    }

    function Extract(): T
      requires Some?
    {
      value
    }
  }
}
